=== FILE: README.md ===
# compass ocean test-case rules, modelled in Dafny

This project models the small deterministic rules inside several ocean test
cases of compass, the configuration and setup layer of MPAS-Ocean. These
test cases are glue around model runs and external tools. The model covers
only the glue's own decisions:

- which test cases a test group adds, and in what order;
- how test-case names and directories are formed;
- which namelists, streams files, inputs and outputs a step registers;
- how a few scripts rewrite text and small lists of numbers.

Everything is a pure function over immutable datatypes. Python exceptions
become the `Err` case of `Outcomes.Result`.

| module | file | what it models |
|---|---|---|
| `Outcomes` | outcomes.dfy | `Result` and `Option` |
| `Strings` | strings.dfy | `str.find`, `str(int)`, `int(str)` for a sign and ASCII digits, `sep.join`, `str.split`, `str.replace(c, '')` |
| `TextLines` | text_lines.dfy | `f.read().splitlines()` and `f.write('\n'.join(lines))` |
| `Registry` | registry.dfy | the `add_namelist_file`, `add_namelist_options`, `add_streams_file`, `add_input_file`, `add_model_as_input` and `add_output_file` calls, each appending one record in call order |
| `Config` | config.dfy | `config.get`, `config.getint`, `config.set` |
| `SetupSal` | setup_sal.dfy | the namelist rewrite of `ocean/test_sht/scripts/setup_sal.py` |
| `SomaEnsemble` | soma_ensemble.dfy | `SomaEnsemble.__init__` and `configure` |
| `Soma` | soma_group.dfy | the SOMA test group's enumeration |
| `HurricaneMesh` | hurricane_mesh.dfy | the hurricane `Mesh` test case |
| `Hurricane` | hurricane_group.dfy | the hurricane test group's nested loops |
| `HurricaneInit` | hurricane_init.dfy | the hurricane `InitialState` step |
| `ParabolicForward` | parabolic_forward.dfy | the parabolic-bowl `Forward` step |
| `ParabolicViz` | parabolic_viz.dfy | the parabolic-bowl `Viz` step, without plotting or RMSE arithmetic |
| `ParabolicDefault` | parabolic_default.dfy | the parabolic-bowl `Default` test case |
| `ParabolicBowl` | parabolic_group.dfy | the parabolic-bowl test group, as written and as evidently intended |
| `TidesRemap` | tides_remap.dfy | the tides `RemapBathymetry` step |

Several things the code reads from outside are parameters of the model:

- the generated skopt samples;
- the RMSE of an output file;
- Python's `float()`;
- the cell sizes `h`;
- the mesh test case's step directories;
- the parsed config.

Cross-file facts are proved where the code relies on them. For example, the
directories `Viz` reads are the names of the `Forward` steps, and the inputs
of `Forward` name the initial-state steps of the same test case.

## Model

| member | source | states |
|---|---|---|
| Strings.Find | ocean/test_sht/scripts/setup_sal.py:17 | `s.find(sub)` is non-negative exactly when `sub` occurs in `s`, and then it is the lowest index of an occurrence |
| Strings.Split | compass/ocean/tests/parabolic_bowl/viz/__init__.py:82 | `s.split(sep)` gives at least one piece, and no piece holds the separator |
| Strings.RemoveCharsAppend | compass/ocean/tests/parabolic_bowl/viz/__init__.py:82 | `replace(c, '')` on a concatenation is the concatenation of the parts with `c` deleted, so the kept characters stay in order |
| Strings.RemoveCharsOne | compass/ocean/tests/parabolic_bowl/viz/__init__.py:82 | a single character is deleted exactly when it is one of the deleted characters, and kept otherwise |
| Strings.IntToStringRoundTrip | ocean/test_sht/scripts/setup_sal.py:24-25 | `int(str(n)) == n` for every integer, negative ones included |
| Strings.IntToStringInjective | compass/ocean/tests/parabolic_bowl/forward.py:40 | two integers that print the same are equal |
| Strings.SplitThenJoin | compass/ocean/tests/parabolic_bowl/viz/__init__.py:82 | joining the pieces of `s.split(sep)` with `sep` gives back `s` |
| Strings.JoinThenSplit | compass/ocean/tests/parabolic_bowl/viz/__init__.py:82 | splitting a join of separator-free pieces gives back the pieces |
| Strings.SplitCount | compass/ocean/tests/parabolic_bowl/viz/__init__.py:82 | a split has one more piece than the text has separators |
| Strings.SplitAvoids | compass/ocean/tests/parabolic_bowl/viz/__init__.py:82 | the pieces of a split hold no character the text does not hold |
| Strings.RemoveCharsCompose | compass/ocean/tests/parabolic_bowl/viz/__init__.py:82 | chained `replace(c, '')` calls delete the union of their characters |
| Strings.RemoveCharsClean | compass/ocean/tests/parabolic_bowl/viz/__init__.py:82 | deleting characters the text does not hold changes nothing |
| Strings.SplitAtSeparator | compass/ocean/tests/soma/soma_ensemble.py:91 | `a/b == c/d` with no `/` in `a` or `c` forces `a == c` and `b == d` |
| TextLines.ReadBackWritten | ocean/test_sht/scripts/setup_sal.py:10-50 | lines written joined by "\n" read back as the same lines, provided no line holds a break and the last line is not empty |
| TextLines.WriteBackRead | ocean/test_sht/scripts/setup_sal.py:10-50 | a file that uses only "\n" and does not end in one is written back unchanged after being read as lines |
| TextLines.TrailingBlankLineDropped | ocean/test_sht/scripts/setup_sal.py:10-50 | any lines without breaks whose last line is blank are read back after writing without that last line, so each read-and-write drops one trailing blank line |
| Config.GetReadsSet | compass/ocean/tests/parabolic_bowl/viz/__init__.py:81 | `get` after `set` returns the value just set; `get` of any other option is what it was before the `set`, except that a missing option of the section just written becomes a NoOptionError instead of a NoSectionError |
| Config.Get | compass/ocean/tests/parabolic_bowl/viz/__init__.py:81 | a present option gives its value; in a config whose every section holds an option, a missing option is a NoSectionError exactly when its section holds none, and a NoOptionError exactly when its section holds another |
| Config.GetInt | compass/ocean/tests/hurricane/init/initial_state.py:155-158 | `getint` succeeds exactly when the option is present and its text is an integer literal, and then returns the value that text denotes; a present option with other text is a ValueError, and a missing one is a NoSectionError or NoOptionError as for `get` |
| Config.Set | compass/ocean/tests/soma/soma_ensemble.py:159-160 | `set` changes one option and keeps every other |
| Config.GetIntReadsSetInt | compass/ocean/tests/parabolic_bowl/forward.py:86-89 | an integer written with `set` reads back with `getint` |
| SetupSal.ParallelRule | ocean/test_sht/scripts/setup_sal.py:16-20 | parallel mode: a line naming the order key becomes `    config_parallel_self_attraction_loading_order = N`; otherwise a line naming the use key becomes `    config_use_parallel_self_attraction_loading = .true.`; any other line is kept |
| SetupSal.ParallelLaterCheckSeesReplacement | ocean/test_sht/scripts/setup_sal.py:17-20 | the second check looks at the line as the first left it: whenever `N` contains the use key, every line naming the order key ends as the use-flag line `.true.` |
| SetupSal.SerialRule | ocean/test_sht/scripts/setup_sal.py:40-46 | serial mode: the first matching key, in check order, decides the line; `config_Nitude = N` and `config_nLongitude = 2N` are decimals, the use flag becomes `.false.`, and other lines are kept |
| SetupSal.SerialKeepsOrderLine | ocean/test_sht/scripts/setup_sal.py:40-46 | serial mode leaves a `config_parallel_self_attraction_loading_order = v` line untouched for every value `v` without the letters N, L and u, every integer among them |
| SetupSal.LongitudeIsTwiceLatitude | ocean/test_sht/scripts/setup_sal.py:23-46 | after a serial rewrite of any lines with the integer `n`, the line that named `config_Nitude` holds a value reading back as `n`, and a line that named only `config_nLongitude` holds a value reading back as `2n` |
| SetupSal.RewriteLineIdempotent | ocean/test_sht/scripts/setup_sal.py:14-46 | rewriting a rewritten line changes nothing, in either mode |
| SetupSal.RewriteLinesIdempotent | ocean/test_sht/scripts/setup_sal.py:14-46 | rewriting the rewritten lines changes nothing |
| SetupSal.RewriteLineShape | ocean/test_sht/scripts/setup_sal.py:14-46 | for a line without breaks and a parallel order value without breaks, the rewritten line holds no line break and is empty only if the original was |
| SetupSal.SetupSalReadsBackItsLines | ocean/test_sht/scripts/setup_sal.py:10-50 | when the file's last line is not blank and a parallel order value holds no line break, the next run reads exactly the lines this run wrote |
| SetupSal.SetupSalIdempotent | ocean/test_sht/scripts/setup_sal.py:10-50 | running the script twice leaves `namelist.ocean` as one run left it |
| SetupSal.ScaledRule | ocean/test_sht/scripts/setup_sal.py:23-46 | serial mode with `N` a string of digits: the latitude line holds `N`, the longitude line holds `N` written twice, the use flag becomes `.false.`, other lines are kept |
| SetupSal.ScaledLongitudeIsRepeated | ocean/test_sht/scripts/setup_sal.py:23-25 | with `N` passed as the string '128', the longitude line reads 128128, which is not 2 * 128 |
| SetupSal.SerialLongitudeFor128 | ocean/test_sht/scripts/setup_sal.py:58-66 | with the integer 128 the longitude line reads 256 |
| SomaEnsemble.EnsembleName | compass/ocean/tests/soma/soma_ensemble.py:67-89 | the name is 'ensemble' or 'three_layer', then `_long`, `_with_surface_restoring` and `_with_particles` in that order for the flags that are set; the `name is None` branches never run |
| SomaEnsemble.ParseEnsembleNameRoundTrip | compass/ocean/tests/soma/soma_ensemble.py:67-89 | the flags can be read back from the name |
| SomaEnsemble.EnsembleNameInjective | compass/ocean/tests/soma/soma_ensemble.py:67-89 | different flags give different names, and no name is 'default' |
| SomaEnsemble.SubdirDeterminesCase | compass/ocean/tests/soma/soma_ensemble.py:91 | `resolution/name` directories coincide exactly when resolution and flags do |
| SomaEnsemble.OptionsFor | compass/ocean/tests/soma/soma_ensemble.py:116-126 | a sample's option set has the ten keys, with GM, Redi and submesoscale switched on |
| SomaEnsemble.SampleRoundTrip | compass/ocean/tests/soma/soma_ensemble.py:116-123 | the seven sampled values read back out of the option set |
| SomaEnsemble.OptionList | compass/ocean/tests/soma/soma_ensemble.py:113-140 | an empty set, one set per sample in order, then the default set: `samples + 2` sets |
| SomaEnsemble.OptionListShape | compass/ocean/tests/soma/soma_ensemble.py:113-140 | every set but the first has the same ten keys with the three switches on, and the samples and defaults read back in order |
| SomaEnsemble.StepOrder | compass/ocean/tests/soma/soma_ensemble.py:95-150 | the initial state first, then forward runs numbered 0.. in option-list order, then the analysis step exactly when particles are on |
| SomaEnsemble.Configure | compass/ocean/tests/soma/soma_ensemble.py:152-160 | three-layer runs set `soma.phi` to '1e-16' and `soma.shelf_depth` to '0.0', keeping every other option; other runs change nothing |
| SomaEnsemble.ConfigureIdempotent | compass/ocean/tests/soma/soma_ensemble.py:156-160 | configuring twice is configuring once |
| Soma.CasesFor | compass/ocean/tests/soma/__init__.py:18-52 | one resolution adds five cases, or six at 32 km, all at that resolution |
| Soma.Enumerate | compass/ocean/tests/soma/__init__.py:17-52 | the loop adds five cases per resolution plus one per '32km' entry, each at a listed resolution |
| Soma.WithinResolutionOrder | compass/ocean/tests/soma/__init__.py:18-52 | within a resolution the order is default, long, particles (32 km only), surface restoring, three layer, ensemble |
| Soma.EnumerateCases | compass/ocean/tests/soma/__init__.py:17-52 | every single case sets at most one flag, particles appear only at 32 km, and every ensemble is long only, so it is named 'ensemble_long' |
| Soma.ResolutionBlocks | compass/ocean/tests/soma/__init__.py:17-52 | 21 cases, in blocks for 4, 8, 16 and 32 km in that order |
| Soma.GroupCounts | compass/ocean/tests/soma/__init__.py:17-52 | of the 21 cases exactly one, number 17, has particles, and it is the 32 km particles case |
| HurricaneMesh.CaseName | compass/ocean/tests/hurricane/mesh/__init__.py:37-42 | 'LTS' gives 'mesh_lts', 'FB_LTS' gives 'mesh_fblts', any other value gives 'mesh' |
| HurricaneMesh.MeshLower | compass/ocean/tests/hurricane/mesh/__init__.py:50-68 | both DEQU names map to 'dequ120at30cr10rr2', DEVR45to5rr1 maps to 'devr45to5rr1', and nothing else maps |
| HurricaneMesh.LtsSteps | compass/ocean/tests/hurricane/mesh/__init__.py:87-94 | one LTS regions step exactly for 'LTS' and 'FB_LTS' |
| HurricaneMesh.NewMesh | compass/ocean/tests/hurricane/mesh/__init__.py:34-71 | an unknown mesh name is a ValueError; otherwise the directory is `mesh_name/name`, the package is the prefix plus the lower-case name, and the config file is that name plus '.cfg' |
| HurricaneMesh.StepOrder | compass/ocean/tests/hurricane/mesh/__init__.py:46-94 | pixel, base mesh, remap, cull, then LTS regions with 2 interface-adjacent layers for 'LTS' or 10 for 'FB_LTS' |
| HurricaneMesh.BaseMeshChoice | compass/ocean/tests/hurricane/mesh/__init__.py:49-66 | the two DEQU names differ only in `preserve_floodplain`, false and then true |
| HurricaneMesh.LtsStepPresence | compass/ocean/tests/hurricane/mesh/__init__.py:80-94 | a cull step always exists, and an LTS regions step exactly for 'LTS' and 'FB_LTS' |
| HurricaneMesh.SubdirDeterminesCase | compass/ocean/tests/hurricane/mesh/__init__.py:37-43 | two mesh cases share a directory exactly when they share the mesh name and the case name |
| HurricaneMesh.GroupLtsNamesDistinct | compass/ocean/tests/hurricane/mesh/__init__.py:37-42 | the group's three `use_lts` values give three different case names |
| Hurricane.Combos | compass/ocean/tests/hurricane/__init__.py:20-25 | 2 x 3 x 3 = 18 iterations |
| Hurricane.NestedLoopOrder | compass/ocean/tests/hurricane/__init__.py:23-25 | iteration 9i + 3j + l is mesh i, wetting-and-drying option j and `use_lts` value l |
| Hurricane.Iteration | compass/ocean/tests/hurricane/__init__.py:27-44 | with the `Init` and `Forward` constructors taken not to raise, an iteration builds exactly when its mesh does, and then it adds three cases |
| Hurricane.GroupInitsBuild | compass/ocean/tests/hurricane/__init__.py:25-37 | the `use_lts` values the loop passes are ones for which the `initial_state` step of every init case the group adds builds |
| Hurricane.Enumerate | compass/ocean/tests/hurricane/__init__.py:23-45 | the cases of all iterations, three per iteration and in order, or the error of the first iteration that fails |
| Hurricane.GroupBuilds | compass/ocean/tests/hurricane/__init__.py:23-45 | every iteration builds, giving 54 test cases |
| Hurricane.IterationLinks | compass/ocean/tests/hurricane/__init__.py:19-44 | iteration k adds its mesh, then an init on that mesh with storm 'sandy', then a forward run on that mesh and that init |
| Hurricane.MeshSubdirRepeats | compass/ocean/tests/hurricane/__init__.py:23-30 | two mesh cases share a directory exactly when their iterations share the mesh and the `use_lts` value, so each directory occurs once per wetting-and-drying option |
| HurricaneInit.MeshInputs | compass/ocean/tests/hurricane/init/initial_state.py:87-109 | mesh and graph come from the cull step when `use_lts` is falsy and from the LTS regions step otherwise; a missing step is a KeyError |
| HurricaneInit.InitialState | compass/ocean/tests/hurricane/init/initial_state.py:16-126 | construction fails exactly when the mesh lacks the step the inputs are read from |
| HurricaneInit.MainNamelistOrder | compass/ocean/tests/hurricane/init/initial_state.py:41-49 | `namelist.ocean` is built from 'namelist.init', then 'namelist.init.wd' exactly for DEVR45to5rr1, then 'namelist.init_subgrid' exactly for subgrid |
| HurricaneInit.SubgridNamelists | compass/ocean/tests/hurricane/init/initial_state.py:60-79 | each subgrid namelist is built from init, init.wd and init_subgrid in that order, whatever the mesh, and only for subgrid |
| HurricaneInit.StreamsChoice | compass/ocean/tests/hurricane/init/initial_state.py:47-85 | the main streams file comes from 'streams.ocean_subgrid0' for subgrid and from 'streams.init' otherwise; the two subgrid streams files exist only for subgrid |
| HurricaneInit.BathymetryOptions | compass/ocean/tests/hurricane/init/initial_state.py:52-83 | `namelist.ocean` and the first subgrid namelist name crm_vol1_2023_nc3.nc, the second names crm_vol2_2023_nc3.nc, and nothing is set without subgrid |
| HurricaneInit.InputsFrom | compass/ocean/tests/hurricane/init/initial_state.py:87-118 | the inputs are the culled or LTS mesh and graph, followed by the two bathymetry files for subgrid |
| HurricaneInit.OutputsAndModel | compass/ocean/tests/hurricane/init/initial_state.py:120-126 | the outputs are 'ocean_subgrid2.nc' for subgrid or 'ocean.nc' otherwise, then 'graph.info', and the model is an input |
| HurricaneInit.GroupMeshesSuffice | compass/ocean/tests/hurricane/init/initial_state.py:87-109 | for the `use_lts` values the group passes the step builds; for `True` it fails, because such a mesh has no LTS regions step |
| HurricaneInit.Run | compass/ocean/tests/hurricane/init/initial_state.py:142-151 | one model run, or three for subgrid, the main run first |
| HurricaneInit.RunsReadRegisteredFiles | compass/ocean/tests/hurricane/init/initial_state.py:142-151 | every model run reads a namelist and a streams file that the step registers |
| HurricaneInit.GetResources | compass/ocean/tests/hurricane/init/initial_state.py:153-158 | tasks, minimum tasks and threads come from the three `hurricane` options, and any failure is an error |
| HurricaneInit.ResourcesFromConfig | compass/ocean/tests/hurricane/init/initial_state.py:153-158 | integers written to the three options are the resources read |
| ParabolicForward.ResName | compass/ocean/tests/parabolic_bowl/forward.py:40 | the resolution name ends in 'km' |
| ParabolicForward.ResNameInjective | compass/ocean/tests/parabolic_bowl/forward.py:40 | different resolutions give different names |
| ParabolicForward.NewForward | compass/ocean/tests/parabolic_bowl/forward.py:10-59 | the vertical coordinate defaults to 'sigma', and no resources are known before setup |
| ParabolicForward.ReadForward | compass/ocean/tests/parabolic_bowl/forward.py:37-59 | the registrations read back part by part in call order: namelists, streams, inputs, model |
| ParabolicForward.ForwardNamelists | compass/ocean/tests/parabolic_bowl/forward.py:37-47 | `namelist.ocean` is built from 'namelist.forward', 'namelist.{res}km.forward' and 'namelist.{coord}.forward' in that order, and the streams file is 'streams.forward' |
| ParabolicForward.ForwardInputs | compass/ocean/tests/parabolic_bowl/forward.py:49-61 | mesh.nc, init.nc and graph.info link culled_mesh.nc, ocean.nc and culled_graph.info under '../initial_state_{res}km'; the model is an input and there is no output |
| ParabolicForward.GetResources | compass/ocean/tests/parabolic_bowl/forward.py:83-90 | tasks from '{res}km_ntasks', minimum from '{res}km_min_tasks', always one thread |
| ParabolicForward.Setup | compass/ocean/tests/parabolic_bowl/forward.py:63-68 | setup succeeds exactly when the resources can be read, and then holds them |
| ParabolicForward.ConstrainResources | compass/ocean/tests/parabolic_bowl/forward.py:70-75 | the resources are read again before constraining, and the registrations are kept |
| ParabolicForward.ResourcesRecomputed | compass/ocean/tests/parabolic_bowl/forward.py:63-75 | whatever the step held before, setup and constrain_resources end with the same resources from the config |
| ParabolicForward.ResourcesFromConfig | compass/ocean/tests/parabolic_bowl/forward.py:83-90 | integers written to the two options are the task counts read |
| ParabolicForward.KeysDiffer | compass/ocean/tests/parabolic_bowl/forward.py:86-89 | the two option names of a resolution differ |
| ParabolicDefault.NewDefault | compass/ocean/tests/parabolic_bowl/default/__init__.py:30-50 | the case is named 'default' and has two steps per resolution plus one |
| ParabolicDefault.ResolutionStepsAt | compass/ocean/tests/parabolic_bowl/default/__init__.py:38-49 | resolution i owns step 2i, its initial state, and step 2i+1, its forward run |
| ParabolicDefault.DefaultSteps | compass/ocean/tests/parabolic_bowl/default/__init__.py:37-50 | seven steps: initial state then forward for 5, 10 and 20 km, then viz with the same resolutions |
| ParabolicDefault.ForwardReadsItsInitialState | compass/ocean/tests/parabolic_bowl/default/__init__.py:42-49 | each forward step's inputs live in the directory of the initial-state step of its resolution in this test case, and its namelists use the case's coordinate |
| ParabolicDefault.VizReadsForwardSteps | compass/ocean/tests/parabolic_bowl/default/__init__.py:46-50 | viz reads `output.nc` of each forward step of this test case, in resolution order |
| ParabolicDefault.StepNamesDistinct | compass/ocean/tests/parabolic_bowl/default/__init__.py:37-50 | the seven step names are all different |
| ParabolicDefault.SubdirDeterminesCoord | compass/ocean/tests/parabolic_bowl/default/__init__.py:30-35 | two `Default` cases share `coord_type/default` exactly when they share the coordinate |
| ParabolicBowl.Calls | compass/ocean/tests/parabolic_bowl/__init__.py:16-17 | four loop iterations |
| ParabolicBowl.NestedLoopOrder | compass/ocean/tests/parabolic_bowl/__init__.py:16-20 | iteration 2i + j is wetting-and-drying option i ('standard', 'subgrid') with coordinate j ('sigma', 'single_layer') |
| ParabolicBowl.Lookup | compass/ocean/tests/parabolic_bowl/__init__.py:19-20 | a keyword's value is found exactly when some argument names it |
| ParabolicBowl.Bind | compass/ocean/tests/parabolic_bowl/default/__init__.py:18 | keyword binding succeeds exactly when every keyword is a parameter and every parameter is given; the first unexpected keyword is named in a TypeError |
| ParabolicBowl.ConstructDefault | compass/ocean/tests/parabolic_bowl/default/__init__.py:18-35 | `Default(**kwargs)` builds the case for the given coordinate exactly when the keywords bind |
| ParabolicBowl.Collect | compass/ocean/tests/parabolic_bowl/__init__.py:16-20 | the cases of all calls in order, or the first call's error |
| ParabolicBowl.DefaultAcceptsItsKeywords | compass/ocean/tests/parabolic_bowl/default/__init__.py:18 | `Default(test_group=..., coord_type=...)` builds |
| ParabolicBowl.DefaultRejectsWetdry | compass/ocean/tests/parabolic_bowl/default/__init__.py:18 | any call passing `wetdry` fails |
| ParabolicBowl.CallRejected | compass/ocean/tests/parabolic_bowl/__init__.py:18-20 | the loop body's call is a TypeError naming 'wetdry' |
| ParabolicBowl.AsWrittenGroupFails | compass/ocean/tests/parabolic_bowl/__init__.py:15-20 | as written, building the group fails with that TypeError |
| ParabolicBowl.DroppedCallBuilds | compass/ocean/tests/parabolic_bowl/__init__.py:18-20 | without `wetdry` the call builds the plain case |
| ParabolicBowl.WithoutWetdrySubdirsCollide | compass/ocean/tests/parabolic_bowl/__init__.py:16-20 | without `wetdry` the two wetting-and-drying variants of a coordinate land in the same directory |
| ParabolicBowl.CorrectedCallBuilds | compass/ocean/tests/parabolic_bowl/__init__.py:18-20 | a constructor that accepts `wetdry` builds the loop body's call |
| ParabolicBowl.CorrectedGroupBuilds | compass/ocean/tests/parabolic_bowl/__init__.py:16-20 | the corrected group builds four cases in loop order |
| ParabolicBowl.CorrectedSubdirDeterminesCase | compass/ocean/tests/parabolic_bowl/__init__.py:16-20 | with the option in front, directories coincide exactly when option and coordinate do |
| ParabolicBowl.CorrectedSubdirsDistinct | compass/ocean/tests/parabolic_bowl/__init__.py:16-20 | the four corrected cases have four different directories |
| ParabolicViz.NewViz | compass/ocean/tests/parabolic_bowl/viz/__init__.py:29-35 | the step is 'viz', keeps the resolutions and registers one file per resolution |
| ParabolicViz.VizInputs | compass/ocean/tests/parabolic_bowl/viz/__init__.py:33-35 | resolution r links 'output_{r}km.nc' to '../forward_{r}km/output.nc', in order, and nothing else is registered |
| ParabolicViz.Pairs | compass/ocean/tests/parabolic_bowl/viz/__init__.py:86 | `reshape(-1, 2)`: pair i is entries 2i and 2i+1 |
| ParabolicViz.UnpairPairs | compass/ocean/tests/parabolic_bowl/viz/__init__.py:86 | flattening the pairs gives back the entries |
| ParabolicViz.PairsUnpair | compass/ocean/tests/parabolic_bowl/viz/__init__.py:86 | pairing the flattened pairs gives back the pairs |
| ParabolicViz.ParseComparisons | compass/ocean/tests/parabolic_bowl/viz/__init__.py:81-86 | the list parses exactly when the cleaned, split text has an even number of pieces; the first pair is ('subgrid_ramp', '.'), and the pairs flatten to the entries |
| ParabolicViz.CleanRemovesDecoration | compass/ocean/tests/parabolic_bowl/viz/__init__.py:82 | the three chained replaces delete '[', ']' and ' ' all at once |
| ParabolicViz.CommaCountDecides | compass/ocean/tests/parabolic_bowl/viz/__init__.py:82-86 | the list parses exactly when the cleaned text holds an odd number of commas |
| ParabolicViz.ComparisonsClean | compass/ocean/tests/parabolic_bowl/viz/__init__.py:82-86 | no label or directory holds a bracket, a space or a comma |
| ParabolicViz.ParseRendered | compass/ocean/tests/parabolic_bowl/viz/__init__.py:81-86 | comparisons written as a comma-separated list read back, after the run's own pair |
| ParabolicViz.OwnComparisonReadsLinkedOutputs | compass/ocean/tests/parabolic_bowl/viz/__init__.py:91-95 | the run's own entry reads the files the step links in |
| ParabolicViz.RmseTableOwnRow | compass/ocean/tests/parabolic_bowl/viz/__init__.py:81-95 | for any comparison option that parses, the table's first row is the RMSE of exactly the files the step links in, './output_{res}km.nc', one per resolution in order |
| ParabolicViz.MaxRmse | compass/ocean/tests/parabolic_bowl/viz/__init__.py:90-97 | the maximum of 0 and every RMSE: at least 0, no smaller than any entry, and 0 or one of them |
| ParabolicViz.Halvings | compass/ocean/tests/parabolic_bowl/viz/__init__.py:102-105 | n values starting at x, each twice the next |
| ParabolicViz.HalvingsPower | compass/ocean/tests/parabolic_bowl/viz/__init__.py:102-105 | element i times 2^i is x |
| ParabolicViz.FirstOrderReference | compass/ocean/tests/parabolic_bowl/viz/__init__.py:102-105 | taken on its own, with no resolutions assigning element 0 fails; otherwise it starts at the largest RMSE and halves |
| ParabolicViz.ReferenceIsPowerOfHalf | compass/ocean/tests/parabolic_bowl/viz/__init__.py:102-105 | element i is the largest RMSE over 2^i |
| ParabolicViz.Flip | compass/ocean/tests/parabolic_bowl/viz/__init__.py:107 | `np.flip`: the same values in reverse order |
| ParabolicViz.FlippedReferenceDoubles | compass/ocean/tests/parabolic_bowl/viz/__init__.py:107 | as plotted, the reference doubles from one resolution to the next and ends at the largest RMSE |
| ParabolicViz.ParseAll | compass/ocean/tests/parabolic_bowl/viz/__init__.py:45 | every piece converts, or the conversion fails |
| ParabolicViz.ParsePoints | compass/ocean/tests/parabolic_bowl/viz/__init__.py:43-46 | the points parse exactly when every piece converts and their count is even; point i is pieces 2i and 2i+1 times 1000 |
| ParabolicViz.PointsReadBack | compass/ocean/tests/parabolic_bowl/viz/__init__.py:43-46 | points written as `[x1,y1,x2,y2,...]` from number texts without brackets, spaces or commas read back as those numbers times 1000, pair by pair in order |
| TidesRemap.NewRemap | compass/ocean/tests/tides/init/remap_bathymetry.py:30-50 | the step builds exactly when the mesh has cull_mesh, base_mesh and pixel steps, the first missing one, in the order cull_mesh, base_mesh, pixel, named in a KeyError; one task, one thread, plotting on |
| TidesRemap.RemapReadsMeshSteps | compass/ocean/tests/tides/init/remap_bathymetry.py:35-48 | mesh.nc, base_mesh.nc and bathy.nc link the culled mesh, the base mesh and the pixel file, and nothing else is registered |
| TidesRemap.EnsureObserved | compass/ocean/tests/tides/init/remap_bathymetry.py:62-64 | 'bottomDepthObserved' is present afterwards and is added only if missing |
| TidesRemap.EnsureObservedIdempotent | compass/ocean/tests/tides/init/remap_bathymetry.py:62-64 | creating the variable twice is creating it once |
| TidesRemap.Clamp | compass/ocean/tests/tides/init/remap_bathymetry.py:81-82 | `min(x, -0.1)`: at most x and at most -0.1, and one of them |
| TidesRemap.LimitBathymetry | compass/ocean/tests/tides/init/remap_bathymetry.py:77-82 | floodplain cells are kept and the others clamped; a mask of another length is an IndexError |
| TidesRemap.LimitProperties | compass/ocean/tests/tides/init/remap_bathymetry.py:81-82 | the limit never raises a value, leaves every non-floodplain cell at -0.1 or below, and is idempotent |
| TidesRemap.AllFloodplainUnchanged | compass/ocean/tests/tides/init/remap_bathymetry.py:79-82 | when every cell is below the floodplain resolution nothing changes |
| TidesRemap.Run | compass/ocean/tests/tides/init/remap_bathymetry.py:60-85 | the variable is ensured, then the bed elevation is written, limited only when the step asks for it |
| TidesRemap.FloodplainCellsKept | compass/ocean/tests/tides/init/remap_bathymetry.py:68-82 | with the limit, cells smaller than the configured floodplain resolution, or than 1e10 km when the option is missing, keep their bed elevation and every other cell ends at -0.1 or below |
| TidesRemap.NoLimitWritesBed | compass/ocean/tests/tides/init/remap_bathymetry.py:66-85 | without the limit the written values are the bed elevation, whatever the cell sizes and config say |

## Left out

- Calls to external tools are not modelled: the regridding commands of `setup_sal`, `dem_remap`, `dem_trnsf`, `run_model` and the validation calls. They have no effect on the modelled data.
- netCDF I/O is not modelled. The tides step's `areaCell` and the formula for `h` are left out, and `h` is given in km as an input.
- The skopt `Space`/`Grid` sampling is a foreign library. The samples, already formatted with `str`, are an input.
- `Viz.exact_solution`, `compute_rmse`, the interpolation and all plotting are floating-point library work. RMSE values come from a function parameter, and `float()` is a parameter.
- The framework base classes (`Step`, `TestCase`, `TestGroup`) are not part of this model. Each `add_*` call appends one record, with no deduplication, scheduling or directory creation.
- `constrain_resources` re-reads the resources, but the framework's adjustment to the available cores is not modelled.
- Floating-point numbers, numpy's float64 and Python's float alike, are modelled as exact reals, with no NaN, no infinities and no rounding. A NaN RMSE is skipped by the `>` comparison of viz/__init__.py and a NaN cell size is not floodplain while `np.minimum` keeps the NaN, so the bounds below hold only for values that are numbers.
- ParabolicViz.MaxRmse: no entry is larger than the result only when no RMSE is NaN; the model has no NaN.
- TidesRemap.Clamp: the result is at most -0.1 only for a value that is not NaN; `np.minimum(nan, -0.1)` is NaN.
- TidesRemap.LimitProperties: non-floodplain cells end at -0.1 or below only when the bed elevation and the cell size are not NaN.
- `config.getfloat` parse errors for `floodplain_resolution` are not modelled. The parsed value is an input.
- The parabolic-bowl `InitialState` step and the hurricane `Forward` and `Init` test cases are modelled only by name and by the arguments they receive. Their own files are not part of this model.
- Python's message for several missing keyword arguments is not modelled. `ParabolicBowl.Bind` reports the first missing parameter only.
- The run_scaling.py orchestration is not modelled beyond the type of `N` it passes.
- SetupSal.ParallelRule: stated only for an order value that is a numeral. For other values, ParallelLaterCheckSeesReplacement shows that the second check can rewrite the order line.
- Config.Get: a config is a map from (section, option) pairs, so a section is present only through its options. A section declared with no options is absent here: configparser answers NoOptionError for it, the model NoSectionError. The `[DEFAULT]` section's fallback for every section, `%(...)s` interpolation and the lower-casing of option names by `optionxform` are not modelled either; options are looked up verbatim.
- Hurricane.Iteration: the `Init` and `Forward` constructors are taken not to raise, so an iteration builds exactly when its mesh does. For a truthy `use_lts` other than 'LTS' or 'FB_LTS', such as `True`, the init case's `initial_state` step raises a KeyError (HurricaneInit.GroupMeshesSuffice), which this member does not report. The loop passes only `False`, 'LTS' and 'FB_LTS', for which Hurricane.GroupInitsBuild shows the step builds.
- Config.GetInt: accepts only an optional `+` or `-` sign followed by ASCII digits. Python's `int()` also accepts surrounding whitespace, underscores between digits and non-ASCII digits, which the model treats as a ValueError.
- SetupSal.SetupSalReadsBackItsLines: requires a file whose last line is not blank and a parallel order value without line breaks; for text ending in a blank line, such as "a\n\n", the lines read back are one fewer, as TextLines.TrailingBlankLineDropped states.
- SetupSal.SetupSalIdempotent: requires a file whose last line is not blank and values without line breaks. TextLines.TrailingBlankLineDropped shows that a trailing blank line is lost on each run.

## Findings

| source | as written | input that shows it | evidently intended | confidence | as-written member | corrected member |
|---|---|---|---|---|---|---|
| ocean/test_sht/scripts/setup_sal.py:23-25 | `nLon = 2*N` doubles whatever `N` is; ocean/test_sht/scripts/run_scaling.py:16 and :32 pass `N` as a string, so `2*N` repeats it | `setup_sal('128', False)` writes `config_nLongitude = 128128` | twice as many longitudes as latitudes: 256 for 128 | not executed | SetupSal.ScaledLongitudeIsRepeated | SetupSal.LongitudeIsTwiceLatitude |
| compass/ocean/tests/parabolic_bowl/__init__.py:19-20 | `Default(test_group=self, coord_type=coord_type, wetdry=wetdry)`, but `Default.__init__` takes only `test_group` and `coord_type` | the first loop iteration raises `TypeError: __init__() got an unexpected keyword argument 'wetdry'` | four test cases, one per wetting-and-drying option and coordinate, in four different directories | not executed | ParabolicBowl.AsWrittenGroupFails | ParabolicBowl.CorrectedSubdirsDistinct |

=== FILE: config.dfy ===
/** The parsed config options a test case sees: `config.get`,
    `config.getint` and `config.set` over (section, option) pairs. */
module Config {
  import opened Outcomes
  import opened Strings

  type Config = map<(string, string), string>

  /** The sections that hold at least one option. */
  function Sections(config: Config): set<string> {
    set k | k in config :: k.0
  }

  /** `config.get`. The map records a section only through its options, so a
      section with no options here is a `NoSectionError`, and a missing option
      of a section that holds others a `NoOptionError`. */
  function Get(config: Config, section: string, option: string): (r: Result<string>)
    ensures r.Ok? <==> (section, option) in config
    ensures r.Ok? ==> r.value == config[(section, option)]
    ensures r.Err? ==> (r.error == "NoSectionError" <==> forall k :: k in config ==> k.0 != section)
    ensures r.Err? ==> (r.error == "NoOptionError" <==> exists k :: k in config && k.0 == section)
  {
    if (section, option) in config then Ok(config[(section, option)])
    else if section in Sections(config) then Err("NoOptionError")
    else Err("NoSectionError")
  }

  /** `getint`: a missing option or text that is not a decimal integer is an error. */
  function GetInt(config: Config, section: string, option: string): (r: Result<int>)
    ensures r.Ok? <==> (section, option) in config && ParseInt(config[(section, option)]).Ok?
    ensures r.Ok? ==> Ok(r.value) == ParseInt(config[(section, option)])
    ensures (section, option) in config && r.Err? ==> r.error == "ValueError"
  {
    match Get(config, section, option)
    case Err(e) => Err(e)
    case Ok(text) =>
      match ParseInt(text)
      case Err(_) => Err("ValueError")
      case Ok(n) => Ok(n)
  }

  /** `config.set`: one option changes, every other option is kept. */
  function Set(config: Config, section: string, option: string, value: string): (r: Config)
    ensures r.Keys == config.Keys + {(section, option)}
    ensures r[(section, option)] == value
    ensures forall k :: k in config && k != (section, option) ==> r[k] == config[k]
  {
    config[(section, option) := value]
  }

  /** An option written with `set` reads back with `get`, and every other
      option reads as before, except that a missing option of the section
      just written is now a `NoOptionError` rather than a `NoSectionError`. */
  lemma GetReadsSet(config: Config, section: string, option: string, value: string, other: (string, string))
    ensures Get(Set(config, section, option, value), section, option) == Ok(value)
    ensures other != (section, option) && (other in config || other.0 != section) ==>
      Get(Set(config, section, option, value), other.0, other.1) == Get(config, other.0, other.1)
    ensures other != (section, option) && other !in config && other.0 == section ==>
      Get(Set(config, section, option, value), other.0, other.1) == Err("NoOptionError")
  {
    var c := Set(config, section, option, value);
    assert (section, option) in c;
    if other !in config && other.0 != section && other.0 in Sections(c) {
      var k :| k in c && k.0 == other.0;
      assert k in config;
    }
  }

  /** An integer written with `set` reads back with `getint`. */
  lemma GetIntReadsSetInt(config: Config, section: string, option: string, n: int)
    ensures GetInt(Set(config, section, option, IntToString(n)), section, option) == Ok(n)
  {
    IntToStringRoundTrip(n);
  }
}

=== FILE: hurricane_group.dfy ===
/** The hurricane test group: for every mesh, wetting-and-drying option and
    `use_lts` value, in nested-loop order, a mesh, an init and a forward
    test case. */
module Hurricane {
  import opened Outcomes
  import opened HurricaneMesh
  import HurricaneInit

  const GroupName := "hurricane"
  const Storm := "sandy"
  const MeshNames: seq<string> := [DequName, DevrName]
  const WetdryOptions: seq<string> := ["off", "standard", "subgrid"]

  datatype Combo = Combo(meshName: string, wetdry: string, useLts: UseLts)

  datatype InitCase = InitCase(mesh: MeshCase, storm: string, useLts: UseLts, wetdry: string)
  datatype ForwardCase = ForwardCase(mesh: MeshCase, storm: string, init: InitCase, useLts: UseLts, wetdry: string)

  datatype TestCase =
    | MeshTest(mesh: MeshCase)
    | InitTest(init: InitCase)
    | ForwardTest(forward: ForwardCase)

  /** The loop iterations, mesh name outermost and `use_lts` innermost. */
  function Combos(): (r: seq<Combo>)
    ensures |r| == |MeshNames| * |WetdryOptions| * |LtsOptions|
  {
    seq(18, k requires 0 <= k < 18 => Combo(MeshNames[k / 9], WetdryOptions[k / 3 % 3], LtsOptions[k % 3]))
  }

  /** One loop iteration: the mesh, then the init and forward cases that use it. */
  function Iteration(c: Combo): (r: Result<seq<TestCase>>)
    ensures r.Ok? <==> NewMesh(c.meshName, c.useLts).Ok?
    ensures r.Ok? ==> |r.value| == 3
  {
    match NewMesh(c.meshName, c.useLts)
    case Err(e) => Err(e)
    case Ok(mesh) =>
      var init := InitCase(mesh, Storm, c.useLts, c.wetdry);
      Ok([MeshTest(mesh), InitTest(init), ForwardTest(ForwardCase(mesh, Storm, init, c.useLts, c.wetdry))])
  }

  /** The test cases the iterations add, in order, stopping at the first
      iteration whose constructor raises; every iteration that succeeds
      adds three test cases. */
  function Enumerate(results: seq<Result<seq<TestCase>>>): (r: Result<seq<TestCase>>)
    requires forall k :: 0 <= k < |results| && results[k].Ok? ==> |results[k].value| == 3
    ensures r.Ok? <==> forall k :: 0 <= k < |results| ==> results[k].Ok?
    ensures r.Err? ==> exists k :: (0 <= k < |results| && results[k] == Err(r.error)
      && forall m :: 0 <= m < k ==> results[m].Ok?)
    ensures r.Ok? ==> |r.value| == 3 * |results|
    ensures r.Ok? ==> forall k :: 0 <= k < |results| ==> r.value[3 * k..3 * k + 3] == results[k].value
  {
    if |results| == 0 then Ok([])
    else
      match results[0]
      case Err(e) => Err(e)
      case Ok(first) =>
        var tail := results[1..];
        assert forall k :: 0 <= k < |tail| ==> tail[k] == results[k + 1];
        match Enumerate(tail)
        case Err(e) =>
          Err(e)
        case Ok(rest) =>
          var all := first + rest;
          assert forall k :: 1 <= k < |results| ==> all[3 * k..3 * k + 3] == rest[3 * (k - 1)..3 * (k - 1) + 3];
          Ok(all)
  }

  /** The result of each loop iteration, in loop order. */
  function Iterations(): (r: seq<Result<seq<TestCase>>>)
    ensures |r| == 18
    ensures forall k :: 0 <= k < 18 ==> r[k] == Iteration(Combos()[k])
  {
    seq(18, k requires 0 <= k < 18 => Iteration(Combos()[k]))
  }

  function Group(): Result<seq<TestCase>> {
    Enumerate(Iterations())
  }

  // ---------------------------------------------------------------------
  // Properties
  // ---------------------------------------------------------------------

  /** Iteration `9 * i + 3 * j + l` is mesh `i`, wetting-and-drying option `j`
      and `use_lts` value `l`. */
  lemma NestedLoopOrder(i: int, j: int, l: int)
    requires 0 <= i < 2 && 0 <= j < 3 && 0 <= l < 3
    ensures Combos()[9 * i + 3 * j + l] == Combo(MeshNames[i], WetdryOptions[j], LtsOptions[l])
  {
    var k := 9 * i + 3 * j + l;
    assert k / 9 == i && k / 3 % 3 == j && k % 3 == l by {
      if i == 0 {
        assert k == 3 * j + l;
      } else {
        assert k == 9 + 3 * j + l;
      }
    }
  }

  /** Every iteration builds, so the group holds 54 test cases. */
  lemma GroupBuilds()
    ensures Group().Ok? && |Group().value| == 54
  {
    var c := Combos();
    var its := Iterations();
    forall k | 0 <= k < 18 ensures its[k].Ok? {
      assert c[k].meshName in {DequName, DevrName};
    }
  }

  /** Each iteration adds its mesh, then an init case on that mesh, then a
      forward case on that mesh and that init case; the storm is always
      'sandy'. */
  lemma IterationLinks(k: int)
    requires 0 <= k < 18
    ensures Group().Ok?
    ensures var cases := Group().value;
      var c := Combos()[k];
      && cases[3 * k].MeshTest?
      && cases[3 * k + 1] == InitTest(InitCase(cases[3 * k].mesh, Storm, c.useLts, c.wetdry))
      && cases[3 * k + 2] == ForwardTest(ForwardCase(cases[3 * k].mesh, Storm, cases[3 * k + 1].init, c.useLts, c.wetdry))
      && cases[3 * k].mesh == NewMesh(c.meshName, c.useLts).value
  {
    GroupBuilds();
    var c := Combos()[k];
    var its := Iterations();
    EnumeratedAt(its, k);
    assert its[k] == Iteration(c);
    var mesh := NewMesh(c.meshName, c.useLts).value;
    var init := InitCase(mesh, Storm, c.useLts, c.wetdry);
    assert its[k].value == [MeshTest(mesh), InitTest(init), ForwardTest(ForwardCase(mesh, Storm, init, c.useLts, c.wetdry))];
    var cases := Group().value;
    assert cases[3 * k] == its[k].value[0];
    assert cases[3 * k + 1] == its[k].value[1];
    assert cases[3 * k + 2] == its[k].value[2];
  }

  /** The `use_lts` values the loop passes are the ones the init case's
      `initial_state` step accepts: for every iteration, the step of the init
      case it adds builds, whatever directory the mesh lives in. */
  lemma GroupInitsBuild(k: int, meshDir: string)
    requires 0 <= k < 18
    ensures Group().Ok? && Group().value[3 * k + 1].InitTest?
    ensures var init := Group().value[3 * k + 1].init;
      HurricaneInit.InitialState(init.mesh, meshDir, init.useLts, init.wetdry).Ok?
  {
    ComboAt(k);
    IterationLinks(k);
    var c := Combos()[k];
    HurricaneInit.GroupMeshesSuffice(c.meshName, c.useLts, meshDir, c.wetdry);
  }

  /** The test cases of a successful enumeration, three per iteration. */
  lemma EnumeratedAt(results: seq<Result<seq<TestCase>>>, k: int)
    requires forall k :: 0 <= k < |results| && results[k].Ok? ==> |results[k].value| == 3
    requires Enumerate(results).Ok? && 0 <= k < |results|
    ensures results[k].Ok? && |Enumerate(results).value| == 3 * |results|
    ensures forall m :: 0 <= m < 3 ==> Enumerate(results).value[3 * k + m] == results[k].value[m]
  {
    var cases := Enumerate(results).value;
    assert cases[3 * k..3 * k + 3] == results[k].value;
    forall m | 0 <= m < 3 ensures cases[3 * k + m] == results[k].value[m] {
      assert cases[3 * k + m] == cases[3 * k..3 * k + 3][m];
    }
  }

  /** Two mesh test cases of the group share a directory exactly when their
      iterations share the mesh name and the `use_lts` value, so each mesh
      directory is registered once per wetting-and-drying option. */
  lemma MeshSubdirRepeats(k1: int, k2: int)
    requires 0 <= k1 < 18 && 0 <= k2 < 18
    ensures Group().Ok? && |Group().value| == 54
    ensures Group().value[3 * k1].MeshTest? && Group().value[3 * k2].MeshTest?
    ensures Group().value[3 * k1].mesh.subdir == Group().value[3 * k2].mesh.subdir
      <==> k1 / 9 == k2 / 9 && k1 % 3 == k2 % 3
  {
    var m1, m2, l1, l2 := k1 / 9, k2 / 9, k1 % 3, k2 % 3;
    MeshAt(k1);
    MeshAt(k2);
    SubdirByIndex(m1, l1, m2, l2);
  }

  /** The mesh test case of iteration `k`, by loop indices. */
  lemma MeshAt(k: int)
    requires 0 <= k < 18
    ensures 0 <= k / 9 < 2 && 0 <= k % 3 < 3
    ensures NewMesh(MeshNames[k / 9], LtsOptions[k % 3]).Ok?
    ensures Group().Ok? && Group().value[3 * k] == MeshTest(NewMesh(MeshNames[k / 9], LtsOptions[k % 3]).value)
  {
    ComboAt(k);
    IterationLinks(k);
  }

  lemma ComboAt(k: int)
    requires 0 <= k < 18
    ensures 0 <= k / 9 < 2 && 0 <= k % 3 < 3
    ensures Combos()[k].meshName == MeshNames[k / 9] && Combos()[k].useLts == LtsOptions[k % 3]
  {
  }

  lemma SubdirByIndex(m1: int, l1: int, m2: int, l2: int)
    requires 0 <= m1 < 2 && 0 <= m2 < 2 && 0 <= l1 < 3 && 0 <= l2 < 3
    ensures NewMesh(MeshNames[m1], LtsOptions[l1]).Ok? && NewMesh(MeshNames[m2], LtsOptions[l2]).Ok?
    ensures NewMesh(MeshNames[m1], LtsOptions[l1]).value.subdir == NewMesh(MeshNames[m2], LtsOptions[l2]).value.subdir
      <==> m1 == m2 && l1 == l2
  {
    assert MeshNames[0][2] != MeshNames[1][2];
    SubdirDeterminesCase(MeshNames[m1], LtsOptions[l1], MeshNames[m2], LtsOptions[l2]);
    GroupLtsNamesDistinct();
  }
}

=== FILE: hurricane_init.dfy ===
/** The hurricane `InitialState` step: which namelists, streams, inputs and
    outputs it registers for a mesh, a wetting-and-drying choice and
    `use_lts`, the model runs it makes, and the resources it reads. */
module HurricaneInit {
  import opened Outcomes
  import opened Strings
  import opened Registry
  import opened Config
  import opened HurricaneMesh

  const Package := "compass.ocean.tests.hurricane.init"
  const InitMode := "init"
  const Subgrid := "subgrid"
  const BayKey := "config_Buttermilk_bay_topography_file"
  const Crm1 := "crm_vol1_2023_nc3.nc"
  const Crm2 := "crm_vol2_2023_nc3.nc"
  const Subgrid1 := "namelist.ocean_subgrid1"
  const Subgrid2 := "namelist.ocean_subgrid2"
  const Streams1 := "streams.ocean_subgrid1"
  const Streams2 := "streams.ocean_subgrid2"

  /** The namelist option naming the bathymetry file, quoted for the namelist. */
  function BayOptions(file: string): map<string, string> {
    map[BayKey := "'" + file + "'"]
  }

  function Namelist(file: string, out: string): Registration {
    NamelistFile(Package, file, InitMode, out)
  }

  function Streams(file: string, out: string): Registration {
    StreamsFile(Package, file, InitMode, out)
  }

  // ---------------------------------------------------------------------
  // The registration table, in call order
  // ---------------------------------------------------------------------

  /** The main namelist, plus the wetting-and-drying one for the DEVR mesh. */
  function MainNamelists(meshName: string): seq<Registration> {
    [Namelist("namelist.init", DefaultNamelist)]
      + (if meshName == DevrName then [Namelist("namelist.init.wd", DefaultNamelist)] else [])
  }

  /** A subgrid stage's namelist: init, wetting-and-drying and subgrid, then
      the bathymetry file. */
  function SubgridStage(streams: string, out: string, crm: string): seq<Registration> {
    [Streams(streams, streams),
     Namelist("namelist.init", out),
     Namelist("namelist.init.wd", out),
     Namelist("namelist.init_subgrid", out),
     NamelistOptions(BayOptions(crm), InitMode, out)]
  }

  /** The streams and subgrid namelists. */
  function StreamsAndSubgrid(wetdry: string): seq<Registration> {
    if wetdry == Subgrid then
      [Namelist("namelist.init_subgrid", DefaultNamelist),
       Streams("streams.ocean_subgrid0", DefaultStreams),
       NamelistOptions(BayOptions(Crm1), InitMode, DefaultNamelist)]
      + SubgridStage(Streams1, Subgrid1, Crm1)
      + SubgridStage(Streams2, Subgrid2, Crm2)
    else
      [Streams("streams.init", DefaultStreams)]
  }

  /** The mesh and graph partition, read from the mesh test case's cull step
      or, when `use_lts` is truthy, from its LTS regions step; `KeyError`
      when that step does not exist. */
  function MeshInputs(mesh: MeshCase, meshDir: string, u: UseLts): (r: Result<seq<Registration>>)
    ensures r.Err? <==> if Truthy(u) then !HasStep(mesh, "lts_regions") else !HasStep(mesh, "cull_mesh")
    ensures r.Ok? ==> |r.value| == 2 && r.value[0].InputFile? && r.value[1].InputFile?
  {
    if !Truthy(u) then
      if HasStep(mesh, "cull_mesh") then
        var path := StepPath(meshDir, "cull_mesh");
        Ok([InputFile("mesh.nc", WorkDir(path + "/culled_mesh.nc")),
            InputFile("graph.info", WorkDir(path + "/culled_graph.info"))])
      else Err("KeyError: 'cull_mesh'")
    else if HasStep(mesh, "lts_regions") then
      var path := StepPath(meshDir, "lts_regions");
      Ok([InputFile("mesh.nc", WorkDir(path + "/lts_mesh.nc")),
          InputFile("graph.info", WorkDir(path + "/lts_graph.info"))])
    else Err("KeyError: 'lts_regions'")
  }

  function CrmInputs(wetdry: string): seq<Registration> {
    if wetdry == Subgrid then
      [InputFile(Crm1, Database(Crm1, "bathymetry_database")),
       InputFile(Crm2, Database(Crm2, "bathymetry_database"))]
    else []
  }

  function OutputsFor(wetdry: string): seq<Registration> {
    [OutputFile(if wetdry == Subgrid then "ocean_subgrid2.nc" else "ocean.nc"),
     OutputFile("graph.info")]
  }

  /** `InitialState(test_case, mesh, use_lts, wetdry)`, with `meshDir` the
      work-directory path of the mesh test case. */
  function InitialState(mesh: MeshCase, meshDir: string, u: UseLts, wetdry: string): (r: Result<seq<Registration>>)
    ensures r.Err? <==> if Truthy(u) then !HasStep(mesh, "lts_regions") else !HasStep(mesh, "cull_mesh")
  {
    match MeshInputs(mesh, meshDir, u)
    case Err(e) => Err(e)
    case Ok(meshInputs) =>
      Ok(MainNamelists(mesh.meshName) + StreamsAndSubgrid(wetdry) + meshInputs
         + CrmInputs(wetdry) + [ModelInput] + OutputsFor(wetdry))
  }

  // ---------------------------------------------------------------------
  // What the table says, read back per namelist, streams file and input
  // ---------------------------------------------------------------------

  function StagePicks<T(!new)>(streams: string, out: string, crm: string, sel: Registration -> Option<T>): seq<T> {
    Pick1(Streams(streams, streams), sel) + Pick1(Namelist("namelist.init", out), sel)
      + Pick1(Namelist("namelist.init.wd", out), sel) + Pick1(Namelist("namelist.init_subgrid", out), sel)
      + Pick1(NamelistOptions(BayOptions(crm), InitMode, out), sel)
  }

  lemma PickStage<T(!new)>(streams: string, out: string, crm: string, sel: Registration -> Option<T>)
    ensures Pick(SubgridStage(streams, out, crm), sel) == StagePicks(streams, out, crm, sel)
  {
    var a := Streams(streams, streams);
    var b := Namelist("namelist.init", out);
    var c := Namelist("namelist.init.wd", out);
    var d := Namelist("namelist.init_subgrid", out);
    var e := NamelistOptions(BayOptions(crm), InitMode, out);
    assert SubgridStage(streams, out, crm) == [a] + [b] + [c] + [d] + [e];
    PickAppend([a] + [b] + [c] + [d], [e], sel);
    PickAppend([a] + [b] + [c], [d], sel);
    PickAppend([a] + [b], [c], sel);
    PickAppend([a], [b], sel);
    PickSingleton(a, sel);
    PickSingleton(b, sel);
    PickSingleton(c, sel);
    PickSingleton(d, sel);
    PickSingleton(e, sel);
  }

  function MainPicks<T(!new)>(meshName: string, sel: Registration -> Option<T>): seq<T> {
    Pick1(Namelist("namelist.init", DefaultNamelist), sel)
      + (if meshName == DevrName then Pick1(Namelist("namelist.init.wd", DefaultNamelist), sel) else [])
  }

  function SubgridPicks<T(!new)>(wetdry: string, sel: Registration -> Option<T>): seq<T> {
    if wetdry == Subgrid then
      Pick1(Namelist("namelist.init_subgrid", DefaultNamelist), sel)
        + Pick1(Streams("streams.ocean_subgrid0", DefaultStreams), sel)
        + Pick1(NamelistOptions(BayOptions(Crm1), InitMode, DefaultNamelist), sel)
        + StagePicks(Streams1, Subgrid1, Crm1, sel)
        + StagePicks(Streams2, Subgrid2, Crm2, sel)
    else Pick1(Streams("streams.init", DefaultStreams), sel)
  }

  function PairPicks<T(!new)>(p: seq<Registration>, sel: Registration -> Option<T>): seq<T>
    requires |p| == 2
  {
    Pick1(p[0], sel) + Pick1(p[1], sel)
  }

  lemma PickMain<T(!new)>(meshName: string, sel: Registration -> Option<T>)
    ensures Pick(MainNamelists(meshName), sel) == MainPicks(meshName, sel)
  {
    var a := Namelist("namelist.init", DefaultNamelist);
    var w: seq<Registration> := if meshName == DevrName then [Namelist("namelist.init.wd", DefaultNamelist)] else [];
    PickAppend([a], w, sel);
    PickSingleton(a, sel);
    if meshName == DevrName {
      PickSingleton(w[0], sel);
    }
  }

  lemma PickStreamsAndSubgrid<T(!new)>(wetdry: string, sel: Registration -> Option<T>)
    ensures Pick(StreamsAndSubgrid(wetdry), sel) == SubgridPicks(wetdry, sel)
  {
    var t := StreamsAndSubgrid(wetdry);
    if wetdry == Subgrid {
      var h := t[..3];
      var s1 := SubgridStage(Streams1, Subgrid1, Crm1);
      var s2 := SubgridStage(Streams2, Subgrid2, Crm2);
      assert t == h + s1 + s2;
      PickAppend(h + s1, s2, sel);
      PickAppend(h, s1, sel);
      PickStage(Streams1, Subgrid1, Crm1, sel);
      PickStage(Streams2, Subgrid2, Crm2, sel);
      assert h == [h[0]] + [h[1]] + [h[2]];
      PickAppend([h[0]] + [h[1]], [h[2]], sel);
      PickAppend([h[0]], [h[1]], sel);
      PickSingleton(h[0], sel);
      PickSingleton(h[1], sel);
      PickSingleton(h[2], sel);
    } else {
      PickSingleton(t[0], sel);
    }
  }

  lemma PickPair<T(!new)>(p: seq<Registration>, sel: Registration -> Option<T>)
    requires |p| == 2
    ensures Pick(p, sel) == PairPicks(p, sel)
  {
    assert p == [p[0]] + [p[1]];
    PickAppend([p[0]], [p[1]], sel);
    PickSingleton(p[0], sel);
    PickSingleton(p[1], sel);
  }

  /** The table read back is the parts read back, in call order. */
  lemma ReadParts<T(!new)>(mesh: MeshCase, meshDir: string, u: UseLts, wetdry: string, sel: Registration -> Option<T>)
    requires InitialState(mesh, meshDir, u, wetdry).Ok?
    ensures MeshInputs(mesh, meshDir, u).Ok?
    ensures Pick(InitialState(mesh, meshDir, u, wetdry).value, sel)
      == Pick(MainNamelists(mesh.meshName), sel) + Pick(StreamsAndSubgrid(wetdry), sel)
         + Pick(MeshInputs(mesh, meshDir, u).value, sel) + Pick(CrmInputs(wetdry), sel)
         + Pick([ModelInput], sel) + Pick(OutputsFor(wetdry), sel)
  {
    var a := MainNamelists(mesh.meshName);
    var b := StreamsAndSubgrid(wetdry);
    var mi := MeshInputs(mesh, meshDir, u).value;
    var e := CrmInputs(wetdry);
    var o := OutputsFor(wetdry);
    assert InitialState(mesh, meshDir, u, wetdry).value == a + b + mi + e + [ModelInput] + o;
    PickAppend(a + b + mi + e + [ModelInput], o, sel);
    PickAppend(a + b + mi + e, [ModelInput], sel);
    PickAppend(a + b + mi, e, sel);
    PickAppend(a + b, mi, sel);
    PickAppend(a, b, sel);
  }

  /** The namelists and streams files the step writes are all different. */
  lemma OutNamesDistinct()
    ensures DefaultNamelist != Subgrid1 && DefaultNamelist != Subgrid2 && Subgrid1 != Subgrid2
    ensures DefaultStreams != Streams1 && DefaultStreams != Streams2 && Streams1 != Streams2
  {
    assert Subgrid1[22] != Subgrid2[22];
    assert Streams1[21] != Streams2[21];
    assert |DefaultNamelist| != |Subgrid1| && |DefaultStreams| != |Streams1|;
  }

  // The parts one at a time, one selector at a time.

  lemma StageNamelists(streams: string, out: string, crm: string, o: string)
    ensures Pick(SubgridStage(streams, out, crm), NamelistSel(o)) == if o == out then StageNamelistFiles else []
  {
    PickStage(streams, out, crm, NamelistSel(o));
  }

  lemma StageStreams(streams: string, out: string, crm: string, o: string)
    ensures Pick(SubgridStage(streams, out, crm), StreamsSel(o)) == if o == streams then [streams] else []
  {
    PickStage(streams, out, crm, StreamsSel(o));
  }

  lemma StageOptions(streams: string, out: string, crm: string, o: string)
    ensures Pick(SubgridStage(streams, out, crm), OptionsSel(o)) == if o == out then [BayOptions(crm)] else []
  {
    PickStage(streams, out, crm, OptionsSel(o));
  }

  /** The files of the mesh step the inputs link from. */
  function MeshFiles(meshDir: string, u: UseLts): seq<(string, Target)> {
    var cull := StepPath(meshDir, "cull_mesh");
    var lts := StepPath(meshDir, "lts_regions");
    if Truthy(u) then
      [("mesh.nc", WorkDir(lts + "/lts_mesh.nc")), ("graph.info", WorkDir(lts + "/lts_graph.info"))]
    else
      [("mesh.nc", WorkDir(cull + "/culled_mesh.nc")), ("graph.info", WorkDir(cull + "/culled_graph.info"))]
  }

  function CrmFiles(wetdry: string): seq<(string, Target)> {
    if wetdry == Subgrid then
      [(Crm1, Database(Crm1, "bathymetry_database")), (Crm2, Database(Crm2, "bathymetry_database"))]
    else []
  }

  /** Without subgrid wetting and drying the part is the one streams file. */
  lemma SubgridOffPart<T(!new)>(wetdry: string, sel: Registration -> Option<T>)
    requires wetdry != Subgrid
    ensures Pick(StreamsAndSubgrid(wetdry), sel) == Pick1(Streams("streams.init", DefaultStreams), sel)
  {
    PickSingleton(Streams("streams.init", DefaultStreams), sel);
  }

  /** With subgrid wetting and drying, the namelists the part adds to
      namelist `o`. */
  lemma SubgridOnNamelists(o: string)
    ensures Pick(StreamsAndSubgrid(Subgrid), NamelistSel(o))
      == (if o == DefaultNamelist then ["namelist.init_subgrid"] else [])
         + (if o == Subgrid1 then StageNamelistFiles else [])
         + (if o == Subgrid2 then StageNamelistFiles else [])
  {
    OutNamesDistinct();
    var sel := NamelistSel(o);
    PickStreamsAndSubgrid(Subgrid, sel);
    var head := if o == DefaultNamelist then ["namelist.init_subgrid"] else [];
    assert Pick1(Namelist("namelist.init_subgrid", DefaultNamelist), sel) == head;
    assert Pick1(Streams("streams.ocean_subgrid0", DefaultStreams), sel) == [];
    assert Pick1(NamelistOptions(BayOptions(Crm1), InitMode, DefaultNamelist), sel) == [];
    StageNamelists(Streams1, Subgrid1, Crm1, o);
    PickStage(Streams1, Subgrid1, Crm1, sel);
    StageNamelists(Streams2, Subgrid2, Crm2, o);
    PickStage(Streams2, Subgrid2, Crm2, sel);
  }

  lemma SubgridOnStreams(o: string)
    ensures Pick(StreamsAndSubgrid(Subgrid), StreamsSel(o))
      == (if o == DefaultStreams then ["streams.ocean_subgrid0"] else [])
         + (if o == Streams1 then [Streams1] else [])
         + (if o == Streams2 then [Streams2] else [])
  {
    OutNamesDistinct();
    var sel := StreamsSel(o);
    PickStreamsAndSubgrid(Subgrid, sel);
    assert Pick1(Namelist("namelist.init_subgrid", DefaultNamelist), sel) == [];
    assert Pick1(Streams("streams.ocean_subgrid0", DefaultStreams), sel)
      == if o == DefaultStreams then ["streams.ocean_subgrid0"] else [];
    assert Pick1(NamelistOptions(BayOptions(Crm1), InitMode, DefaultNamelist), sel) == [];
    StageStreams(Streams1, Subgrid1, Crm1, o);
    PickStage(Streams1, Subgrid1, Crm1, sel);
    StageStreams(Streams2, Subgrid2, Crm2, o);
    PickStage(Streams2, Subgrid2, Crm2, sel);
  }

  lemma SubgridOnOptions(o: string)
    ensures Pick(StreamsAndSubgrid(Subgrid), OptionsSel(o))
      == (if o == DefaultNamelist then [BayOptions(Crm1)] else [])
         + (if o == Subgrid1 then [BayOptions(Crm1)] else [])
         + (if o == Subgrid2 then [BayOptions(Crm2)] else [])
  {
    OutNamesDistinct();
    var sel := OptionsSel(o);
    PickStreamsAndSubgrid(Subgrid, sel);
    assert Pick1(Namelist("namelist.init_subgrid", DefaultNamelist), sel) == [];
    assert Pick1(Streams("streams.ocean_subgrid0", DefaultStreams), sel) == [];
    assert Pick1(NamelistOptions(BayOptions(Crm1), InitMode, DefaultNamelist), sel)
      == if o == DefaultNamelist then [BayOptions(Crm1)] else [];
    StageOptions(Streams1, Subgrid1, Crm1, o);
    PickStage(Streams1, Subgrid1, Crm1, sel);
    StageOptions(Streams2, Subgrid2, Crm2, o);
    PickStage(Streams2, Subgrid2, Crm2, sel);
  }

  /** The parts after the namelists and streams files hold only inputs,
      the model and outputs, which no namelist, streams or options
      selector picks. */
  lemma TailPartsSilent<T(!new)>(mesh: MeshCase, meshDir: string, u: UseLts, wetdry: string, sel: Registration -> Option<T>)
    requires MeshInputs(mesh, meshDir, u).Ok?
    requires forall r: Registration :: (r.InputFile? || r.ModelInput? || r.OutputFile?) ==> sel(r).None?
    ensures Pick(MeshInputs(mesh, meshDir, u).value, sel) == []
    ensures Pick(CrmInputs(wetdry), sel) == []
    ensures Pick([ModelInput], sel) == []
    ensures Pick(OutputsFor(wetdry), sel) == []
  {
    var mi := MeshInputs(mesh, meshDir, u).value;
    assert sel(mi[0]).None? && sel(mi[1]).None?;
    PickNone(mi, sel);
    var e := CrmInputs(wetdry);
    assert forall i :: 0 <= i < |e| ==> e[i].InputFile?;
    PickNone(e, sel);
    assert sel(ModelInput).None?;
    PickNone([ModelInput], sel);
    var o := OutputsFor(wetdry);
    assert o[0].OutputFile? && o[1].OutputFile?;
    PickNone(o, sel);
  }

  /** The main namelists read back into namelist `o`. */
  lemma MainPartNamelists(meshName: string, o: string)
    ensures Pick(MainNamelists(meshName), NamelistSel(o))
      == (if o == DefaultNamelist then ["namelist.init"] + (if meshName == DevrName then ["namelist.init.wd"] else []) else [])
  {
    PickMain(meshName, NamelistSel(o));
  }

  /** A selector that ignores namelist files picks nothing from the main
      namelists. */
  lemma MainPartSilent<T(!new)>(meshName: string, sel: Registration -> Option<T>)
    requires forall r: Registration :: r.NamelistFile? ==> sel(r).None?
    ensures Pick(MainNamelists(meshName), sel) == []
  {
    var m := MainNamelists(meshName);
    assert forall i :: 0 <= i < |m| ==> m[i].NamelistFile?;
    PickNone(m, sel);
  }

  /** A selector that ignores namelists, option sets and streams files
      picks nothing from the streams-and-subgrid part. */
  lemma SubgridPartSilent<T(!new)>(wetdry: string, sel: Registration -> Option<T>)
    requires forall r: Registration :: (r.NamelistFile? || r.NamelistOptions? || r.StreamsFile?) ==> sel(r).None?
    ensures Pick(StreamsAndSubgrid(wetdry), sel) == []
  {
    var t := StreamsAndSubgrid(wetdry);
    assert forall i :: 0 <= i < |t| ==> t[i].NamelistFile? || t[i].NamelistOptions? || t[i].StreamsFile?;
    PickNone(t, sel);
  }

  lemma OutputPartSilent<T(!new)>(wetdry: string, sel: Registration -> Option<T>)
    requires forall r: Registration :: r.OutputFile? ==> sel(r).None?
    ensures Pick(OutputsFor(wetdry), sel) == []
  {
    var o := OutputsFor(wetdry);
    assert sel(o[0]).None? && sel(o[1]).None?;
    PickNone(o, sel);
  }

  lemma MeshPartInputs(mesh: MeshCase, meshDir: string, u: UseLts)
    requires MeshInputs(mesh, meshDir, u).Ok?
    ensures Pick(MeshInputs(mesh, meshDir, u).value, InputSel) == MeshFiles(meshDir, u)
  {
    PickPair(MeshInputs(mesh, meshDir, u).value, InputSel);
  }

  lemma CrmPartInputs(wetdry: string)
    ensures Pick(CrmInputs(wetdry), InputSel) == CrmFiles(wetdry)
  {
    if wetdry == Subgrid {
      PickPair(CrmInputs(wetdry), InputSel);
    }
  }

  lemma OutputPartOutputs(wetdry: string)
    ensures Pick(OutputsFor(wetdry), OutputSel) == [if wetdry == Subgrid then "ocean_subgrid2.nc" else "ocean.nc", "graph.info"]
  {
    PickPair(OutputsFor(wetdry), OutputSel);
  }

  /** The main namelist `namelist.ocean` is built from `namelist.init` first,
      then `namelist.init.wd` exactly for the DEVR mesh, then
      `namelist.init_subgrid` exactly for subgrid wetting and drying. */
  lemma MainNamelistOrder(mesh: MeshCase, meshDir: string, u: UseLts, wetdry: string)
    requires InitialState(mesh, meshDir, u, wetdry).Ok?
    ensures NamelistsFor(InitialState(mesh, meshDir, u, wetdry).value, DefaultNamelist)
      == ["namelist.init"]
         + (if mesh.meshName == DevrName then ["namelist.init.wd"] else [])
         + (if wetdry == Subgrid then ["namelist.init_subgrid"] else [])
  {
    if wetdry == Subgrid {
      MainNamelistOn(mesh, meshDir, u);
    } else {
      MainNamelistOff(mesh, meshDir, u, wetdry);
    }
  }

  lemma MainNamelistOn(mesh: MeshCase, meshDir: string, u: UseLts)
    requires InitialState(mesh, meshDir, u, Subgrid).Ok?
    ensures NamelistsFor(InitialState(mesh, meshDir, u, Subgrid).value, DefaultNamelist)
      == ["namelist.init"] + (if mesh.meshName == DevrName then ["namelist.init.wd"] else []) + ["namelist.init_subgrid"]
  {
    OutNamesDistinct();
    var sel := NamelistSel(DefaultNamelist);
    ReadParts(mesh, meshDir, u, Subgrid, sel);
    var t := InitialState(mesh, meshDir, u, Subgrid).value;
    var main := ["namelist.init"] + (if mesh.meshName == DevrName then ["namelist.init.wd"] else []);
    MainPartNamelists(mesh.meshName, DefaultNamelist);
    assert Pick(MainNamelists(mesh.meshName), sel) == main;
    SubgridOnNamelists(DefaultNamelist);
    assert Pick(StreamsAndSubgrid(Subgrid), sel) == ["namelist.init_subgrid"];
    TailPartsSilent(mesh, meshDir, u, Subgrid, sel);
    assert Pick(t, sel) == main + ["namelist.init_subgrid"] + [] + [] + [] + [];
  }

  lemma MainNamelistOff(mesh: MeshCase, meshDir: string, u: UseLts, wetdry: string)
    requires wetdry != Subgrid
    requires InitialState(mesh, meshDir, u, wetdry).Ok?
    ensures NamelistsFor(InitialState(mesh, meshDir, u, wetdry).value, DefaultNamelist)
      == ["namelist.init"] + (if mesh.meshName == DevrName then ["namelist.init.wd"] else [])
  {
    var sel := NamelistSel(DefaultNamelist);
    ReadParts(mesh, meshDir, u, wetdry, sel);
    var t := InitialState(mesh, meshDir, u, wetdry).value;
    var main := ["namelist.init"] + (if mesh.meshName == DevrName then ["namelist.init.wd"] else []);
    MainPartNamelists(mesh.meshName, DefaultNamelist);
    assert Pick(MainNamelists(mesh.meshName), sel) == main;
    SubgridOffPart(wetdry, sel);
    assert Pick(StreamsAndSubgrid(wetdry), sel) == [];
    TailPartsSilent(mesh, meshDir, u, wetdry, sel);
    assert Pick(t, sel) == main + [] + [] + [] + [] + [];
  }

  const StageNamelistFiles := ["namelist.init", "namelist.init.wd", "namelist.init_subgrid"]

  /** The two subgrid namelists are each built from `namelist.init`,
      `namelist.init.wd` and `namelist.init_subgrid` in that order, whatever
      the mesh, and exist only for subgrid wetting and drying. */
  lemma SubgridNamelists(mesh: MeshCase, meshDir: string, u: UseLts, wetdry: string, out: string)
    requires InitialState(mesh, meshDir, u, wetdry).Ok?
    requires out == Subgrid1 || out == Subgrid2
    ensures NamelistsFor(InitialState(mesh, meshDir, u, wetdry).value, out)
      == (if wetdry == Subgrid then StageNamelistFiles else [])
  {
    if wetdry == Subgrid {
      SubgridNamelistsOn(mesh, meshDir, u, out);
    } else {
      SubgridNamelistsOff(mesh, meshDir, u, wetdry, out);
    }
  }

  lemma SubgridNamelistsOn(mesh: MeshCase, meshDir: string, u: UseLts, out: string)
    requires InitialState(mesh, meshDir, u, Subgrid).Ok?
    requires out == Subgrid1 || out == Subgrid2
    ensures NamelistsFor(InitialState(mesh, meshDir, u, Subgrid).value, out) == StageNamelistFiles
  {
    OutNamesDistinct();
    var sel := NamelistSel(out);
    ReadParts(mesh, meshDir, u, Subgrid, sel);
    var t := InitialState(mesh, meshDir, u, Subgrid).value;
    MainPartNamelists(mesh.meshName, out);
    assert Pick(MainNamelists(mesh.meshName), sel) == [];
    SubgridOnNamelists(out);
    assert Pick(StreamsAndSubgrid(Subgrid), sel) == StageNamelistFiles;
    TailPartsSilent(mesh, meshDir, u, Subgrid, sel);
    assert Pick(t, sel) == [] + StageNamelistFiles + [] + [] + [] + [];
  }

  lemma SubgridNamelistsOff(mesh: MeshCase, meshDir: string, u: UseLts, wetdry: string, out: string)
    requires InitialState(mesh, meshDir, u, wetdry).Ok?
    requires wetdry != Subgrid && (out == Subgrid1 || out == Subgrid2)
    ensures NamelistsFor(InitialState(mesh, meshDir, u, wetdry).value, out) == []
  {
    OutNamesDistinct();
    var sel := NamelistSel(out);
    ReadParts(mesh, meshDir, u, wetdry, sel);
    var t := InitialState(mesh, meshDir, u, wetdry).value;
    MainPartNamelists(mesh.meshName, out);
    assert Pick(MainNamelists(mesh.meshName), sel) == [];
    SubgridOffPart(wetdry, sel);
    TailPartsSilent(mesh, meshDir, u, wetdry, sel);
    assert Pick(t, sel) == [] + [] + [] + [] + [] + [];
  }

  /** The main streams file comes from `streams.ocean_subgrid0` for subgrid
      wetting and drying and from `streams.init` otherwise; the two subgrid
      streams files exist only for subgrid. */
  lemma StreamsChoice(mesh: MeshCase, meshDir: string, u: UseLts, wetdry: string)
    requires InitialState(mesh, meshDir, u, wetdry).Ok?
    ensures var r := InitialState(mesh, meshDir, u, wetdry).value;
      && StreamsFor(r, DefaultStreams) == [if wetdry == Subgrid then "streams.ocean_subgrid0" else "streams.init"]
      && StreamsFor(r, Streams1) == (if wetdry == Subgrid then [Streams1] else [])
      && StreamsFor(r, Streams2) == (if wetdry == Subgrid then [Streams2] else [])
  {
    OutNamesDistinct();
    if wetdry == Subgrid {
      StreamsOn(mesh, meshDir, u, DefaultStreams);
      StreamsOn(mesh, meshDir, u, Streams1);
      StreamsOn(mesh, meshDir, u, Streams2);
    } else {
      StreamsOff(mesh, meshDir, u, wetdry, DefaultStreams);
      StreamsOff(mesh, meshDir, u, wetdry, Streams1);
      StreamsOff(mesh, meshDir, u, wetdry, Streams2);
    }
  }

  /** With subgrid wetting and drying, the streams files merged into `out`. */
  lemma StreamsOn(mesh: MeshCase, meshDir: string, u: UseLts, out: string)
    requires InitialState(mesh, meshDir, u, Subgrid).Ok?
    ensures StreamsFor(InitialState(mesh, meshDir, u, Subgrid).value, out)
      == (if out == DefaultStreams then ["streams.ocean_subgrid0"] else [])
         + (if out == Streams1 then [Streams1] else [])
         + (if out == Streams2 then [Streams2] else [])
  {
    var sel := StreamsSel(out);
    ReadParts(mesh, meshDir, u, Subgrid, sel);
    var t := InitialState(mesh, meshDir, u, Subgrid).value;
    MainPartSilent(mesh.meshName, sel);
    SubgridOnStreams(out);
    var sub := Pick(StreamsAndSubgrid(Subgrid), sel);
    TailPartsSilent(mesh, meshDir, u, Subgrid, sel);
    assert Pick(t, sel) == [] + sub + [] + [] + [] + [];
  }

  /** Without subgrid, `streams.init` is the only streams file, merged into
      `streams.ocean`. */
  lemma StreamsOff(mesh: MeshCase, meshDir: string, u: UseLts, wetdry: string, out: string)
    requires wetdry != Subgrid
    requires InitialState(mesh, meshDir, u, wetdry).Ok?
    ensures StreamsFor(InitialState(mesh, meshDir, u, wetdry).value, out)
      == (if out == DefaultStreams then ["streams.init"] else [])
  {
    var sel := StreamsSel(out);
    ReadParts(mesh, meshDir, u, wetdry, sel);
    var t := InitialState(mesh, meshDir, u, wetdry).value;
    MainPartSilent(mesh.meshName, sel);
    SubgridOffPart(wetdry, sel);
    var sub := Pick(StreamsAndSubgrid(wetdry), sel);
    TailPartsSilent(mesh, meshDir, u, wetdry, sel);
    assert Pick(t, sel) == [] + sub + [] + [] + [] + [];
  }

  /** The main and first subgrid namelists name the first bathymetry file,
      the second subgrid namelist the second; nothing is set otherwise. */
  lemma BathymetryOptions(mesh: MeshCase, meshDir: string, u: UseLts, wetdry: string, out: string)
    requires InitialState(mesh, meshDir, u, wetdry).Ok?
    requires out == DefaultNamelist || out == Subgrid1 || out == Subgrid2
    ensures OptionsFor(InitialState(mesh, meshDir, u, wetdry).value, out)
      == (if wetdry == Subgrid then [BayOptions(if out == Subgrid2 then Crm2 else Crm1)] else [])
  {
    if wetdry == Subgrid {
      OutNamesDistinct();
      OptionsOn(mesh, meshDir, u, out);
    } else {
      OptionsOff(mesh, meshDir, u, wetdry, out);
    }
  }

  lemma OptionsOn(mesh: MeshCase, meshDir: string, u: UseLts, out: string)
    requires InitialState(mesh, meshDir, u, Subgrid).Ok?
    ensures OptionsFor(InitialState(mesh, meshDir, u, Subgrid).value, out)
      == (if out == DefaultNamelist then [BayOptions(Crm1)] else [])
         + (if out == Subgrid1 then [BayOptions(Crm1)] else [])
         + (if out == Subgrid2 then [BayOptions(Crm2)] else [])
  {
    var sel := OptionsSel(out);
    ReadParts(mesh, meshDir, u, Subgrid, sel);
    var t := InitialState(mesh, meshDir, u, Subgrid).value;
    MainPartSilent(mesh.meshName, sel);
    SubgridOnOptions(out);
    var sub := Pick(StreamsAndSubgrid(Subgrid), sel);
    TailPartsSilent(mesh, meshDir, u, Subgrid, sel);
    assert Pick(t, sel) == [] + sub + [] + [] + [] + [];
  }

  lemma OptionsOff(mesh: MeshCase, meshDir: string, u: UseLts, wetdry: string, out: string)
    requires wetdry != Subgrid
    requires InitialState(mesh, meshDir, u, wetdry).Ok?
    ensures OptionsFor(InitialState(mesh, meshDir, u, wetdry).value, out) == []
  {
    var sel := OptionsSel(out);
    ReadParts(mesh, meshDir, u, wetdry, sel);
    var t := InitialState(mesh, meshDir, u, wetdry).value;
    MainPartSilent(mesh.meshName, sel);
    SubgridOffPart(wetdry, sel);
    TailPartsSilent(mesh, meshDir, u, wetdry, sel);
    assert Pick(t, sel) == [] + [] + [] + [] + [] + [];
  }

  /** The mesh and graph come from the cull step (`culled_*`) when `use_lts`
      is falsy and from the LTS regions step (`lts_*`) when it is truthy;
      the two bathymetry files follow for subgrid. */
  lemma InputsFrom(mesh: MeshCase, meshDir: string, u: UseLts, wetdry: string)
    requires InitialState(mesh, meshDir, u, wetdry).Ok?
    ensures var cull := StepPath(meshDir, "cull_mesh");
      var lts := StepPath(meshDir, "lts_regions");
      Inputs(InitialState(mesh, meshDir, u, wetdry).value)
        == (if Truthy(u) then
              [("mesh.nc", WorkDir(lts + "/lts_mesh.nc")), ("graph.info", WorkDir(lts + "/lts_graph.info"))]
            else
              [("mesh.nc", WorkDir(cull + "/culled_mesh.nc")), ("graph.info", WorkDir(cull + "/culled_graph.info"))])
           + (if wetdry == Subgrid then
                [(Crm1, Database(Crm1, "bathymetry_database")), (Crm2, Database(Crm2, "bathymetry_database"))]
              else [])
  {
    InputsRead(mesh, meshDir, u, wetdry);
  }

  lemma InputsRead(mesh: MeshCase, meshDir: string, u: UseLts, wetdry: string)
    requires InitialState(mesh, meshDir, u, wetdry).Ok?
    ensures Inputs(InitialState(mesh, meshDir, u, wetdry).value) == MeshFiles(meshDir, u) + CrmFiles(wetdry)
  {
    if wetdry == Subgrid {
      InputsOn(mesh, meshDir, u);
    } else {
      InputsOff(mesh, meshDir, u, wetdry);
    }
  }

  lemma InputsOn(mesh: MeshCase, meshDir: string, u: UseLts)
    requires InitialState(mesh, meshDir, u, Subgrid).Ok?
    ensures Inputs(InitialState(mesh, meshDir, u, Subgrid).value) == MeshFiles(meshDir, u) + CrmFiles(Subgrid)
  {
    var t := InitialState(mesh, meshDir, u, Subgrid).value;
    ReadParts(mesh, meshDir, u, Subgrid, InputSel);
    MainPartSilent(mesh.meshName, InputSel);
    SubgridPartSilent(Subgrid, InputSel);
    MeshPartInputs(mesh, meshDir, u);
    CrmPartInputs(Subgrid);
    PickSingleton(ModelInput, InputSel);
    OutputPartSilent(Subgrid, InputSel);
    assert Pick(t, InputSel) == [] + [] + MeshFiles(meshDir, u) + CrmFiles(Subgrid) + [] + [];
  }

  lemma InputsOff(mesh: MeshCase, meshDir: string, u: UseLts, wetdry: string)
    requires wetdry != Subgrid
    requires InitialState(mesh, meshDir, u, wetdry).Ok?
    ensures Inputs(InitialState(mesh, meshDir, u, wetdry).value) == MeshFiles(meshDir, u)
  {
    var t := InitialState(mesh, meshDir, u, wetdry).value;
    ReadParts(mesh, meshDir, u, wetdry, InputSel);
    MainPartSilent(mesh.meshName, InputSel);
    SubgridOffPart(wetdry, InputSel);
    MeshPartInputs(mesh, meshDir, u);
    assert Pick(CrmInputs(wetdry), InputSel) == [];
    PickSingleton(ModelInput, InputSel);
    OutputPartSilent(wetdry, InputSel);
    assert Pick(t, InputSel) == [] + [] + MeshFiles(meshDir, u) + [] + [] + [];
  }

  /** The step writes the last-stage ocean file and the graph partition, and
      takes the model executable as an input. */
  lemma OutputsAndModel(mesh: MeshCase, meshDir: string, u: UseLts, wetdry: string)
    requires InitialState(mesh, meshDir, u, wetdry).Ok?
    ensures Outputs(InitialState(mesh, meshDir, u, wetdry).value)
      == [if wetdry == Subgrid then "ocean_subgrid2.nc" else "ocean.nc", "graph.info"]
    ensures TakesModel(InitialState(mesh, meshDir, u, wetdry).value)
  {
    ReadParts(mesh, meshDir, u, wetdry, OutputSel);
    MainPartSilent(mesh.meshName, OutputSel);
    SubgridPartSilent(wetdry, OutputSel);
    var mi := MeshInputs(mesh, meshDir, u).value;
    assert mi[0].InputFile? && mi[1].InputFile?;
    PickNone(mi, OutputSel);
    var e := CrmInputs(wetdry);
    assert forall i :: 0 <= i < |e| ==> e[i].InputFile?;
    PickNone(e, OutputSel);
    PickSingleton(ModelInput, OutputSel);
    OutputPartOutputs(wetdry);
    var r := InitialState(mesh, meshDir, u, wetdry).value;
    var pre := MainNamelists(mesh.meshName) + StreamsAndSubgrid(wetdry) + mi + e;
    assert r == pre + [ModelInput] + OutputsFor(wetdry);
    assert r[|pre|] == ModelInput;
  }

  /** For the meshes the group builds, the step is always constructed; a
      mesh built with `use_lts=True` has no LTS regions step, so the step
      fails with a `KeyError`. */
  lemma GroupMeshesSuffice(meshName: string, u: UseLts, meshDir: string, wetdry: string)
    requires NewMesh(meshName, u).Ok?
    ensures u in LtsOptions ==> InitialState(NewMesh(meshName, u).value, meshDir, u, wetdry).Ok?
    ensures u == Flag(true) ==> InitialState(NewMesh(meshName, u).value, meshDir, u, wetdry).Err?
  {
    LtsStepPresence(meshName, u);
  }

  // ---------------------------------------------------------------------
  // Running and resources
  // ---------------------------------------------------------------------

  /** One `run_model` call: the namelist and streams file it reads. */
  datatype ModelRun = ModelRun(namelist: string, streams: string)

  /** `run`: the main run, then the two subgrid stages for subgrid. */
  function Run(wetdry: string): (r: seq<ModelRun>)
    ensures |r| == (if wetdry == Subgrid then 3 else 1)
    ensures r[0] == ModelRun(DefaultNamelist, DefaultStreams)
  {
    [ModelRun(DefaultNamelist, DefaultStreams)]
      + (if wetdry == Subgrid then [ModelRun(Subgrid1, Streams1), ModelRun(Subgrid2, Streams2)] else [])
  }

  /** Every model run reads a namelist and a streams file the step registers. */
  lemma RunsReadRegisteredFiles(mesh: MeshCase, meshDir: string, u: UseLts, wetdry: string)
    requires InitialState(mesh, meshDir, u, wetdry).Ok?
    ensures var r := InitialState(mesh, meshDir, u, wetdry).value;
      forall i :: 0 <= i < |Run(wetdry)| ==>
        |NamelistsFor(r, Run(wetdry)[i].namelist)| > 0 && |StreamsFor(r, Run(wetdry)[i].streams)| > 0
  {
    MainNamelistOrder(mesh, meshDir, u, wetdry);
    StreamsChoice(mesh, meshDir, u, wetdry);
    if wetdry == Subgrid {
      SubgridNamelists(mesh, meshDir, u, wetdry, Subgrid1);
      SubgridNamelists(mesh, meshDir, u, wetdry, Subgrid2);
    }
  }

  /** `_get_resources`: all three values come from the `hurricane` section. */
  function GetResources(config: Config): (r: Result<Resources>)
    ensures r.Ok? <==>
      && GetInt(config, "hurricane", "init_ntasks").Ok?
      && GetInt(config, "hurricane", "init_min_tasks").Ok?
      && GetInt(config, "hurricane", "init_threads").Ok?
    ensures r.Ok? ==> r.value == Resources(
      GetInt(config, "hurricane", "init_ntasks").value,
      GetInt(config, "hurricane", "init_min_tasks").value,
      GetInt(config, "hurricane", "init_threads").value)
  {
    match GetInt(config, "hurricane", "init_ntasks")
    case Err(e) => Err(e)
    case Ok(n) =>
      match GetInt(config, "hurricane", "init_min_tasks")
      case Err(e) => Err(e)
      case Ok(m) =>
        match GetInt(config, "hurricane", "init_threads")
        case Err(e) => Err(e)
        case Ok(t) => Ok(Resources(n, m, t))
  }

  /** Integers written to the three options are the resources read. */
  lemma ResourcesFromConfig(config: Config, n: int, m: int, t: int)
    ensures var c := Set(Set(Set(config, "hurricane", "init_ntasks", IntToString(n)),
                             "hurricane", "init_min_tasks", IntToString(m)),
                         "hurricane", "init_threads", IntToString(t));
      GetResources(c) == Ok(Resources(n, m, t))
  {
    var c1 := Set(config, "hurricane", "init_ntasks", IntToString(n));
    var c2 := Set(c1, "hurricane", "init_min_tasks", IntToString(m));
    var c3 := Set(c2, "hurricane", "init_threads", IntToString(t));
    GetIntReadsSetInt(c2, "hurricane", "init_threads", t);
    GetIntReadsSetInt(c1, "hurricane", "init_min_tasks", m);
    GetIntReadsSetInt(config, "hurricane", "init_ntasks", n);
    assert c3[("hurricane", "init_ntasks")] == c1[("hurricane", "init_ntasks")];
    assert c3[("hurricane", "init_min_tasks")] == c2[("hurricane", "init_min_tasks")];
  }
}

=== FILE: hurricane_mesh.dfy ===
/** The hurricane `Mesh` test case: its name and directory from `use_lts`,
    the package and config file from the mesh name, and its step list. */
module HurricaneMesh {
  import opened Outcomes
  import opened Strings

  /** The `use_lts` argument: the group passes `False`, `'LTS'` or `'FB_LTS'`,
      but any boolean or string can be given. */
  datatype UseLts = Flag(isSet: bool) | Named(text: string)

  /** Python truthiness of `use_lts`. */
  predicate Truthy(u: UseLts) {
    match u
    case Flag(b) => b
    case Named(s) => |s| > 0
  }

  /** The values the group iterates over, in order. */
  const LtsOptions: seq<UseLts> := [Flag(false), Named("LTS"), Named("FB_LTS")]

  /** How the base mesh is generated. */
  datatype BaseMesh =
    | Dequ(preserveFloodplain: bool)
    | Devr(elevFile: string)

  datatype MeshStep =
    | Pixel
    | BaseMeshStep(base: BaseMesh)
    | RemapTopography(meshName: string)
    | CullMesh(withIceShelfCavities: bool, doInjectBathymetry: bool, preserveFloodplain: bool)
    | LtsRegions(numInterfaceAdjacent: nat)

  function StepName(step: MeshStep): string {
    match step
    case Pixel => "pixel"
    case BaseMeshStep(_) => "base_mesh"
    case RemapTopography(_) => "remap_topography"
    case CullMesh(_, _, _) => "cull_mesh"
    case LtsRegions(_) => "lts_regions"
  }

  datatype MeshCase = MeshCase(
    meshName: string,
    useLts: UseLts,
    name: string,
    subdir: string,
    package: string,
    configFile: string,
    steps: seq<MeshStep>)

  const DequName := "DEQU120at30cr10rr2"
  const DequWdName := "DEQU120at30cr10rr2WD"
  const DevrName := "DEVR45to5rr1"
  const PackagePrefix := "compass.ocean.tests.hurricane.mesh."
  const DevrElevFile := "RTopo_2_0_4_GEBCO_v2023_30sec_pixel.nc"

  /** The test case name chosen by `use_lts`. */
  function CaseName(u: UseLts): (r: string)
    ensures r == "mesh_lts" <==> u == Named("LTS")
    ensures r == "mesh_fblts" <==> u == Named("FB_LTS")
    ensures r == "mesh" <==> u != Named("LTS") && u != Named("FB_LTS")
    ensures Lacks(r, '/')
  {
    if u == Named("LTS") then "mesh_lts"
    else if u == Named("FB_LTS") then "mesh_fblts"
    else "mesh"
  }

  /** The lower-case mesh name behind the package and config file; `None`
      for a mesh name the constructor rejects. */
  function MeshLower(meshName: string): (r: Option<string>)
    ensures r.Some? <==> meshName in {DequName, DequWdName, DevrName}
    ensures r == Some("dequ120at30cr10rr2") <==> meshName == DequName || meshName == DequWdName
    ensures r == Some("devr45to5rr1") <==> meshName == DevrName
  {
    if meshName == DequName || meshName == DequWdName then Some("dequ120at30cr10rr2")
    else if meshName == DevrName then Some("devr45to5rr1")
    else None
  }

  function BaseMeshFor(meshName: string): BaseMesh
    requires MeshLower(meshName).Some?
  {
    if meshName == DequName then Dequ(false)
    else if meshName == DequWdName then Dequ(true)
    else Devr(DevrElevFile)
  }

  /** The optional local-time-stepping step. */
  function LtsSteps(u: UseLts): (r: seq<MeshStep>)
    ensures |r| <= 1
    ensures |r| == 1 <==> u == Named("LTS") || u == Named("FB_LTS")
  {
    if u == Named("LTS") then [LtsRegions(2)]
    else if u == Named("FB_LTS") then [LtsRegions(10)]
    else []
  }

  /** `Mesh(test_group, mesh_name, use_lts)`; an unknown mesh name is a `ValueError`. */
  function NewMesh(meshName: string, u: UseLts): (r: Result<MeshCase>)
    ensures r.Err? <==> MeshLower(meshName).None?
    ensures r.Ok? ==>
      && r.value.meshName == meshName && r.value.useLts == u
      && r.value.name == CaseName(u)
      && r.value.subdir == meshName + "/" + CaseName(u)
      && r.value.package == PackagePrefix + MeshLower(meshName).value
      && r.value.configFile == MeshLower(meshName).value + ".cfg"
  {
    match MeshLower(meshName)
    case None => Err("ValueError: Unexpected mesh name " + meshName)
    case Some(lower) =>
      var base := BaseMeshStep(BaseMeshFor(meshName));
      Ok(MeshCase(
        meshName, u, CaseName(u), meshName + "/" + CaseName(u),
        PackagePrefix + lower, lower + ".cfg",
        [Pixel, base, RemapTopography(meshName), CullMesh(true, true, true)] + LtsSteps(u)))
  }

  /** Whether the mesh test case has a step of this name (`name in mesh.steps`). */
  predicate HasStep(m: MeshCase, name: string) {
    exists i :: 0 <= i < |m.steps| && StepName(m.steps[i]) == name
  }

  // ---------------------------------------------------------------------
  // Properties
  // ---------------------------------------------------------------------

  /** Pixel, base mesh, remap, cull, then the LTS regions step only for
      `'LTS'` (2 interface-adjacent layers) and `'FB_LTS'` (10). */
  lemma StepOrder(meshName: string, u: UseLts)
    requires NewMesh(meshName, u).Ok?
    ensures var s := NewMesh(meshName, u).value.steps;
      && |s| == (if u == Named("LTS") || u == Named("FB_LTS") then 5 else 4)
      && s[0] == Pixel && s[1].BaseMeshStep? && s[2] == RemapTopography(meshName)
      && s[3] == CullMesh(true, true, true)
      && (u == Named("LTS") ==> s[4] == LtsRegions(2))
      && (u == Named("FB_LTS") ==> s[4] == LtsRegions(10))
  {
  }

  /** Only the two DEQU variants differ, and only in `preserve_floodplain`. */
  lemma BaseMeshChoice(meshName: string, u: UseLts)
    requires NewMesh(meshName, u).Ok?
    ensures NewMesh(meshName, u).value.steps[1] ==
      (if meshName == DequName then BaseMeshStep(Dequ(false))
       else if meshName == DequWdName then BaseMeshStep(Dequ(true))
       else BaseMeshStep(Devr(DevrElevFile)))
  {
  }

  /** The LTS regions step exists exactly for `'LTS'` and `'FB_LTS'`; the
      cull step always exists. */
  lemma LtsStepPresence(meshName: string, u: UseLts)
    requires NewMesh(meshName, u).Ok?
    ensures HasStep(NewMesh(meshName, u).value, "cull_mesh")
    ensures HasStep(NewMesh(meshName, u).value, "lts_regions") <==> u == Named("LTS") || u == Named("FB_LTS")
  {
    var m := NewMesh(meshName, u).value;
    assert StepName(m.steps[3]) == "cull_mesh";
    if u == Named("LTS") || u == Named("FB_LTS") {
      assert StepName(m.steps[4]) == "lts_regions";
    } else {
      forall i | 0 <= i < |m.steps| ensures StepName(m.steps[i]) != "lts_regions" {
        assert i < 4;
      }
    }
  }

  lemma KnownNamesLackSlash()
    ensures Lacks(DequName, '/') && Lacks(DequWdName, '/') && Lacks(DevrName, '/')
  {
  }

  /** Two mesh test cases share a directory exactly when they share the mesh
      name and the case name. */
  lemma SubdirDeterminesCase(n1: string, u1: UseLts, n2: string, u2: UseLts)
    requires NewMesh(n1, u1).Ok? && NewMesh(n2, u2).Ok?
    ensures NewMesh(n1, u1).value.subdir == NewMesh(n2, u2).value.subdir
      <==> n1 == n2 && CaseName(u1) == CaseName(u2)
  {
    KnownNamesLackSlash();
    if NewMesh(n1, u1).value.subdir == NewMesh(n2, u2).value.subdir {
      SplitAtSeparator(n1, CaseName(u1), n2, CaseName(u2), '/');
    }
  }

  /** The three values the group uses give three different case names. */
  lemma GroupLtsNamesDistinct()
    ensures CaseName(LtsOptions[0]) == "mesh"
    ensures CaseName(LtsOptions[1]) == "mesh_lts"
    ensures CaseName(LtsOptions[2]) == "mesh_fblts"
    ensures forall i, j :: 0 <= i < j < 3 ==> CaseName(LtsOptions[i]) != CaseName(LtsOptions[j])
  {
  }
}

=== FILE: outcomes.dfy ===
/** Failure-carrying results shared by every module of the model.
    `Err` carries the Python exception the source would raise, as text. */
module Outcomes {

  datatype Option<+T> = None | Some(value: T) {
    function GetOr(default: T): T {
      match this
      case Some(v) => v
      case None => default
    }
  }

  datatype Result<+T> = Ok(value: T) | Err(error: string)
}

=== FILE: parabolic_default.dfy ===
/** The parabolic-bowl `Default` test case: its directory from the vertical
    coordinate, and its steps, an initial state and a forward run per
    resolution followed by the visualisation. */
module ParabolicDefault {
  import opened Outcomes
  import opened Strings
  import opened Registry
  import opened ParabolicForward
  import opened ParabolicViz

  const CaseName := "default"
  const Resolutions: seq<int> := [5, 10, 20]

  /** A step as the test case adds it: the constructor arguments that
      vary. Names follow from the resolution; the initial-state step is not
      part of this model beyond its name. */
  datatype Step =
    | InitialStateStep(resolution: int, coordType: string)
    | ForwardRun(resolution: int, coordType: string)
    | Visualise(resolutions: seq<int>)

  /** `f'initial_state_{res_name}'`, the name of an initial-state step. */
  function InitialName(res: int): string {
    "initial_state_" + ResName(res)
  }

  /** `f'forward_{res_name}'`, the name of a forward step. */
  function ForwardName(res: int): string {
    "forward_" + ResName(res)
  }

  /** The directory names the steps' own constructors write out agree with
      the step names the test case gives. */
  lemma NamesMatchPaths(res: int)
    ensures "../" + InitialName(res) == InputPath(res)
    ensures "../" + ForwardName(res) + "/output.nc" == "../forward_" + ResName(res) + "/output.nc"
  {
    var r := ResName(res);
    assert "../" + ("initial_state_" + r) == ("../" + "initial_state_") + r;
    assert "../" + "initial_state_" == "../initial_state_";
    assert "../" + ("forward_" + r) == ("../" + "forward_") + r;
    assert "../" + "forward_" == "../forward_";
  }

  function StepName(s: Step): string {
    match s
    case InitialStateStep(res, _) => InitialName(res)
    case ForwardRun(res, _) => ForwardName(res)
    case Visualise(_) => "viz"
  }

  /** The `Forward` step the test case constructs. */
  function ForwardOf(s: Step): (f: ForwardStep)
    requires s.ForwardRun?
    ensures f.name == StepName(s) && f.resolution == s.resolution && f.coordType == s.coordType
  {
    NewForward(s.resolution, ForwardName(s.resolution), Some(s.coordType))
  }

  /** The `Viz` step the test case constructs. */
  function VizOf(s: Step): (v: VizStep)
    requires s.Visualise?
    ensures v.name == StepName(s) && v.resolutions == s.resolutions
  {
    NewViz(s.resolutions)
  }

  datatype DefaultCase = DefaultCase(name: string, coordType: string, subdir: string, steps: seq<Step>)

  function InitStep(res: int, coordType: string): Step {
    InitialStateStep(res, coordType)
  }

  function ForwardStepFor(res: int, coordType: string): Step {
    ForwardRun(res, coordType)
  }

  /** The initial-state and forward steps, two per resolution, in order. */
  function ResolutionSteps(resolutions: seq<int>, coordType: string): (r: seq<Step>)
    ensures |r| == 2 * |resolutions|
    decreases |resolutions|
  {
    if |resolutions| == 0 then []
    else
      [InitStep(resolutions[0], coordType), ForwardStepFor(resolutions[0], coordType)]
        + ResolutionSteps(resolutions[1..], coordType)
  }

  /** Resolution `i` owns positions `2 * i` (its initial state) and
      `2 * i + 1` (its forward run). */
  lemma {:induction false} ResolutionStepsAt(resolutions: seq<int>, coordType: string, i: int)
    requires 0 <= i < |resolutions|
    ensures ResolutionSteps(resolutions, coordType)[2 * i] == InitStep(resolutions[i], coordType)
    ensures ResolutionSteps(resolutions, coordType)[2 * i + 1] == ForwardStepFor(resolutions[i], coordType)
    decreases i
  {
    if i > 0 {
      ResolutionStepsAt(resolutions[1..], coordType, i - 1);
      var rest := ResolutionSteps(resolutions[1..], coordType);
      var r := ResolutionSteps(resolutions, coordType);
      assert r[2 * i] == rest[2 * (i - 1)] && r[2 * i + 1] == rest[2 * (i - 1) + 1];
    }
  }

  /** `Default(test_group, coord_type)`. */
  function NewDefault(coordType: string): (r: DefaultCase)
    ensures r.name == CaseName && r.coordType == coordType
    ensures |r.steps| == 2 * |Resolutions| + 1
  {
    DefaultCase(CaseName, coordType, coordType + "/" + CaseName,
      ResolutionSteps(Resolutions, coordType) + [Visualise(Resolutions)])
  }

  // ---------------------------------------------------------------------
  // Properties
  // ---------------------------------------------------------------------

  /** Seven steps: for 5, 10 and 20 km an initial state then a forward
      run, and the visualisation last, given the same resolutions. */
  lemma DefaultSteps(coordType: string)
    ensures var s := NewDefault(coordType).steps;
      && |s| == 7
      && (forall i :: 0 <= i < 3 ==>
            && s[2 * i] == InitialStateStep(Resolutions[i], coordType)
            && s[2 * i + 1] == ForwardRun(Resolutions[i], coordType))
      && s[6] == Visualise(Resolutions)
  {
    var s := NewDefault(coordType).steps;
    var rs := ResolutionSteps(Resolutions, coordType);
    assert forall i :: 0 <= i < 6 ==> s[i] == rs[i];
    forall i | 0 <= i < 3
      ensures s[2 * i] == InitStep(Resolutions[i], coordType)
      ensures s[2 * i + 1] == ForwardStepFor(Resolutions[i], coordType)
    {
      ResolutionStepsAt(Resolutions, coordType, i);
    }
  }

  /** Each forward step reads its mesh, initial condition and graph from
      the initial-state step of the same resolution in this test case, and
      builds `namelist.ocean` with the case's vertical coordinate. */
  lemma ForwardReadsItsInitialState(coordType: string, i: int)
    requires 0 <= i < 3
    ensures |NewDefault(coordType).steps| == 7
    ensures var s := NewDefault(coordType).steps;
      s[2 * i + 1].ForwardRun?
      && var f := ForwardOf(s[2 * i + 1]);
      var path := "../" + StepName(s[2 * i]);
      && Inputs(f.registrations)
        == [("mesh.nc", Relative(path + "/culled_mesh.nc")),
            ("init.nc", Relative(path + "/ocean.nc")),
            ("graph.info", Relative(path + "/culled_graph.info"))]
      && NamelistsFor(f.registrations, DefaultNamelist)
        == ["namelist.forward", "namelist." + ResName(Resolutions[i]) + ".forward",
            "namelist." + coordType + ".forward"]
  {
    var res := Resolutions[i];
    StepsAt(coordType, i);
    NamesMatchPaths(res);
    ForwardInputs(res, ForwardName(res), Some(coordType));
    ForwardNamelists(res, ForwardName(res), Some(coordType));
  }

  /** The two steps of resolution `i`, as the test case adds them. */
  lemma StepsAt(coordType: string, i: int)
    requires 0 <= i < 3
    ensures |NewDefault(coordType).steps| == 7
    ensures var s := NewDefault(coordType).steps;
      && s[2 * i] == InitialStateStep(Resolutions[i], coordType)
      && s[2 * i + 1] == ForwardRun(Resolutions[i], coordType)
      && StepName(s[2 * i]) == InitialName(Resolutions[i])
      && ForwardOf(s[2 * i + 1]) == NewForward(Resolutions[i], ForwardName(Resolutions[i]), Some(coordType))
  {
    DefaultSteps(coordType);
  }

  /** The visualisation reads `output.nc` of each forward step of this
      test case, in resolution order. */
  lemma VizReadsForwardSteps(coordType: string, i: int)
    requires 0 <= i < 3
    ensures |NewDefault(coordType).steps| == 7
    ensures var s := NewDefault(coordType).steps;
      s[6].Visualise? && |Inputs(VizOf(s[6]).registrations)| == 3
      && Inputs(VizOf(s[6]).registrations)[i].1 == Relative("../" + StepName(s[2 * i + 1]) + "/output.nc")
  {
    DefaultSteps(coordType);
    VizInputs(Resolutions);
    NamesMatchPaths(Resolutions[i]);
  }

  /** The seven step names are all different. */
  lemma StepNamesDistinct(coordType: string)
    ensures var s := NewDefault(coordType).steps;
      |s| == 7 && forall i, j :: 0 <= i < j < 7 ==> StepName(s[i]) != StepName(s[j])
  {
    DefaultSteps(coordType);
    var s := NewDefault(coordType).steps;
    forall i, j | 0 <= i < j < 7 ensures StepName(s[i]) != StepName(s[j]) {
      NamesDiffer(coordType, i, j);
    }
  }

  lemma NamesDiffer(coordType: string, i: int, j: int)
    requires 0 <= i < j < 7
    ensures |NewDefault(coordType).steps| == 7
    ensures StepName(NewDefault(coordType).steps[i]) != StepName(NewDefault(coordType).steps[j])
  {
    StepNameAt(coordType, i);
    StepNameAt(coordType, j);
    if j < 6 {
      var ri, rj := Resolutions[i / 2], Resolutions[j / 2];
      assert i / 2 != j / 2 ==> ri != rj;
      KindNamesDiffer(ri, rj);
    } else {
      KindNamesDiffer(Resolutions[i / 2], Resolutions[i / 2]);
    }
  }

  /** Position `k` holds the initial state (even `k`) or the forward run (odd
      `k`) of resolution `k / 2`, and the visualisation at 6. */
  lemma StepNameAt(coordType: string, k: int)
    requires 0 <= k < 7
    ensures |NewDefault(coordType).steps| == 7
    ensures StepName(NewDefault(coordType).steps[k])
      == if k == 6 then "viz"
         else if k % 2 == 0 then InitialName(Resolutions[k / 2])
         else ForwardName(Resolutions[k / 2])
  {
    if k == 6 {
      DefaultSteps(coordType);
    } else {
      var h := k / 2;
      StepsAt(coordType, h);
      if k % 2 == 0 {
        assert k == 2 * h;
      } else {
        assert k == 2 * h + 1;
      }
    }
  }

  /** Initial-state, forward and visualisation names never coincide, and
      names of one kind differ when their resolutions do. */
  lemma KindNamesDiffer(a: int, b: int)
    ensures InitialName(a) != ForwardName(b)
    ensures InitialName(a) != "viz" && ForwardName(a) != "viz"
    ensures a != b ==> InitialName(a) != InitialName(b) && ForwardName(a) != ForwardName(b)
  {
    assert InitialName(a)[0] == 'i' && ForwardName(b)[0] == 'f';
    ResNameInjective(a, b);
    if a != b {
      var p, q := "initial_state_", "forward_";
      assert InitialName(a)[|p|..] == ResName(a) && InitialName(b)[|p|..] == ResName(b);
      assert ForwardName(a)[|q|..] == ResName(a) && ForwardName(b)[|q|..] == ResName(b);
    }
  }

  /** Two `Default` test cases share a directory exactly when they share
      the vertical coordinate. */
  lemma SubdirDeterminesCoord(c1: string, c2: string)
    ensures NewDefault(c1).subdir == NewDefault(c2).subdir <==> c1 == c2
  {
    var s1, s2 := NewDefault(c1).subdir, NewDefault(c2).subdir;
    if s1 == s2 {
      assert c1 == s1[..|c1|] && c2 == s2[..|c2|];
    }
  }
}

=== FILE: parabolic_forward.dfy ===
/** The parabolic-bowl `Forward` step: the namelists, streams file and
    inputs it registers for a resolution and vertical coordinate, and the
    resources it reads from the config options. */
module ParabolicForward {
  import opened Outcomes
  import opened Strings
  import opened Registry
  import opened Config

  const Package := "compass.ocean.tests.parabolic_bowl"
  const ConfigSection := "parabolic_bowl"

  /** The vertical coordinate used when none is given. */
  const DefaultCoord := "sigma"

  /** `f'{resolution}km'` for an integer resolution. */
  function ResName(resolution: int): (r: string)
    ensures |r| >= 3 && r[|r| - 2..] == "km"
  {
    IntToString(resolution) + "km"
  }

  /** Different resolutions give different names. */
  lemma ResNameInjective(a: int, b: int)
    ensures ResName(a) == ResName(b) <==> a == b
  {
    if ResName(a) == ResName(b) {
      var x, y := IntToString(a), IntToString(b);
      assert x == ResName(a)[..|x|];
      assert y == ResName(b)[..|y|];
      IntToStringInjective(a, b);
    }
  }

  /** The directory of the initial-state step the forward run reads from,
      `f'../initial_state_{res_name}'`. */
  function InputPath(resolution: int): string {
    "../initial_state_" + ResName(resolution)
  }

  function Namelist(file: string): Registration {
    NamelistFile(Package, file, ForwardMode, DefaultNamelist)
  }

  datatype ForwardStep = ForwardStep(
    name: string,
    resolution: int,
    coordType: string,
    registrations: seq<Registration>,
    resources: Option<Resources>)

  function NamelistPart(resolution: int, coordType: string): seq<Registration> {
    [Namelist("namelist.forward"),
     Namelist("namelist." + ResName(resolution) + ".forward"),
     Namelist("namelist." + coordType + ".forward")]
  }

  function InputPart(resolution: int): seq<Registration> {
    var path := InputPath(resolution);
    [InputFile("mesh.nc", Relative(path + "/culled_mesh.nc")),
     InputFile("init.nc", Relative(path + "/ocean.nc")),
     InputFile("graph.info", Relative(path + "/culled_graph.info"))]
  }

  /** `Forward(test_case, resolution, name, coord_type='sigma')`; no
      resources are known until the config is read. */
  function NewForward(resolution: int, name: string, coordType: Option<string>): (r: ForwardStep)
    ensures r.name == name && r.resolution == resolution
    ensures r.coordType == (if coordType.Some? then coordType.value else DefaultCoord)
    ensures r.resources.None?
  {
    var coord := coordType.GetOr(DefaultCoord);
    ForwardStep(name, resolution, coord,
      NamelistPart(resolution, coord)
        + [StreamsFile(Package, "streams.forward", ForwardMode, DefaultStreams)]
        + InputPart(resolution)
        + [ModelInput],
      None)
  }

  // ---------------------------------------------------------------------
  // What the step registers, read back
  // ---------------------------------------------------------------------

  /** The registrations as `sel` sees them, part by part. */
  lemma ReadForward<T(!new)>(resolution: int, name: string, coordType: Option<string>, sel: Registration -> Option<T>)
    ensures var f := NewForward(resolution, name, coordType);
      Pick(f.registrations, sel)
        == Pick(NamelistPart(resolution, f.coordType), sel)
           + Pick1(StreamsFile(Package, "streams.forward", ForwardMode, DefaultStreams), sel)
           + Pick(InputPart(resolution), sel)
           + Pick1(ModelInput, sel)
  {
    var f := NewForward(resolution, name, coordType);
    var np := NamelistPart(resolution, f.coordType);
    var s := StreamsFile(Package, "streams.forward", ForwardMode, DefaultStreams);
    var ip := InputPart(resolution);
    assert f.registrations == np + [s] + ip + [ModelInput];
    PickAppend(np + [s] + ip, [ModelInput], sel);
    PickAppend(np + [s], ip, sel);
    PickAppend(np, [s], sel);
    PickSingleton(s, sel);
    PickSingleton(ModelInput, sel);
  }

  lemma NamelistPartRead(resolution: int, coord: string)
    ensures Pick(NamelistPart(resolution, coord), NamelistSel(DefaultNamelist))
      == ["namelist.forward", "namelist." + ResName(resolution) + ".forward", "namelist." + coord + ".forward"]
    ensures Pick(NamelistPart(resolution, coord), StreamsSel(DefaultStreams)) == []
    ensures Pick(NamelistPart(resolution, coord), InputSel) == []
    ensures Pick(NamelistPart(resolution, coord), OutputSel) == []
  {
    var np := NamelistPart(resolution, coord);
    PickAll(np, NamelistSel(DefaultNamelist));
    PickNone(np, StreamsSel(DefaultStreams));
    PickNone(np, InputSel);
    PickNone(np, OutputSel);
  }

  lemma InputPartRead(resolution: int)
    ensures var path := "../initial_state_" + ResName(resolution);
      Pick(InputPart(resolution), InputSel)
        == [("mesh.nc", Relative(path + "/culled_mesh.nc")),
            ("init.nc", Relative(path + "/ocean.nc")),
            ("graph.info", Relative(path + "/culled_graph.info"))]
    ensures Pick(InputPart(resolution), NamelistSel(DefaultNamelist)) == []
    ensures Pick(InputPart(resolution), StreamsSel(DefaultStreams)) == []
    ensures Pick(InputPart(resolution), OutputSel) == []
  {
    var ip := InputPart(resolution);
    PickAll(ip, InputSel);
    PickNone(ip, NamelistSel(DefaultNamelist));
    PickNone(ip, StreamsSel(DefaultStreams));
    PickNone(ip, OutputSel);
  }

  /** `namelist.ocean` is built from the common, the resolution and the
      coordinate namelists in that order, with the coordinate defaulting to
      sigma; the streams file is `streams.forward`. */
  lemma ForwardNamelists(resolution: int, name: string, coordType: Option<string>)
    ensures var f := NewForward(resolution, name, coordType);
      && NamelistsFor(f.registrations, DefaultNamelist)
        == ["namelist.forward", "namelist." + ResName(resolution) + ".forward",
            "namelist." + coordType.GetOr(DefaultCoord) + ".forward"]
      && StreamsFor(f.registrations, DefaultStreams) == ["streams.forward"]
  {
    var coord := coordType.GetOr(DefaultCoord);
    NamelistPartRead(resolution, coord);
    InputPartRead(resolution);
    ReadForward(resolution, name, coordType, NamelistSel(DefaultNamelist));
    ReadForward(resolution, name, coordType, StreamsSel(DefaultStreams));
  }

  /** The mesh, initial condition and graph come from the initial-state step
      of the same resolution; the model is an input and nothing is
      registered as an output. */
  lemma ForwardInputs(resolution: int, name: string, coordType: Option<string>)
    ensures var f := NewForward(resolution, name, coordType);
      var path := "../initial_state_" + ResName(resolution);
      && Inputs(f.registrations)
        == [("mesh.nc", Relative(path + "/culled_mesh.nc")),
            ("init.nc", Relative(path + "/ocean.nc")),
            ("graph.info", Relative(path + "/culled_graph.info"))]
      && TakesModel(f.registrations)
      && Outputs(f.registrations) == []
  {
    var coord := coordType.GetOr(DefaultCoord);
    NamelistPartRead(resolution, coord);
    InputPartRead(resolution);
    ReadForward(resolution, name, coordType, InputSel);
    ReadForward(resolution, name, coordType, OutputSel);
    var f := NewForward(resolution, name, coordType);
    assert f.registrations[|f.registrations| - 1] == ModelInput;
  }

  // ---------------------------------------------------------------------
  // Resources
  // ---------------------------------------------------------------------

  function NtasksKey(resolution: int): string {
    ResName(resolution) + "_ntasks"
  }

  function MinTasksKey(resolution: int): string {
    ResName(resolution) + "_min_tasks"
  }

  /** `_get_resources`: task counts from the resolution's two options, one
      OpenMP thread. */
  function GetResources(config: Config, resolution: int): (r: Result<Resources>)
    ensures r.Ok? <==>
      GetInt(config, ConfigSection, NtasksKey(resolution)).Ok?
      && GetInt(config, ConfigSection, MinTasksKey(resolution)).Ok?
    ensures r.Ok? ==> r.value == Resources(
      GetInt(config, ConfigSection, NtasksKey(resolution)).value,
      GetInt(config, ConfigSection, MinTasksKey(resolution)).value,
      1)
  {
    match GetInt(config, ConfigSection, NtasksKey(resolution))
    case Err(e) => Err(e)
    case Ok(n) =>
      match GetInt(config, ConfigSection, MinTasksKey(resolution))
      case Err(e) => Err(e)
      case Ok(m) => Ok(Resources(n, m, 1))
  }

  /** `setup`: the resources are read before anything else. */
  function Setup(step: ForwardStep, config: Config): (r: Result<ForwardStep>)
    ensures r.Ok? <==> GetResources(config, step.resolution).Ok?
    ensures r.Ok? ==> r.value == step.(resources := Some(GetResources(config, step.resolution).value))
  {
    match GetResources(config, step.resolution)
    case Err(e) => Err(e)
    case Ok(res) => Ok(step.(resources := Some(res)))
  }

  /** `constrain_resources`: the resources are read again before the
      framework constrains them to the available cores; the framework's
      own adjustment is not modelled. */
  function ConstrainResources(step: ForwardStep, config: Config): (r: Result<ForwardStep>)
    ensures r.Ok? <==> GetResources(config, step.resolution).Ok?
    ensures r.Ok? ==> r.value.resources == Some(GetResources(config, step.resolution).value)
    ensures r.Ok? ==> r.value.registrations == step.registrations
  {
    match GetResources(config, step.resolution)
    case Err(e) => Err(e)
    case Ok(res) => Ok(step.(resources := Some(res)))
  }

  /** Whatever resources the step held before, `setup` and
      `constrain_resources` end with the same ones, read from the config. */
  lemma ResourcesRecomputed(step1: ForwardStep, step2: ForwardStep, config: Config)
    requires step1.resolution == step2.resolution
    ensures Setup(step1, config).Ok? <==> Setup(step2, config).Ok?
    ensures Setup(step1, config).Ok? ==>
      && Setup(step1, config).value.resources == Setup(step2, config).value.resources
      && ConstrainResources(step1, config).value.resources == Setup(step2, config).value.resources
  {
  }

  /** Integers written to the resolution's two options are the task counts read. */
  lemma ResourcesFromConfig(config: Config, resolution: int, n: int, m: int)
    ensures var c := Set(Set(config, ConfigSection, NtasksKey(resolution), IntToString(n)),
                         ConfigSection, MinTasksKey(resolution), IntToString(m));
      GetResources(c, resolution) == Ok(Resources(n, m, 1))
  {
    var c1 := Set(config, ConfigSection, NtasksKey(resolution), IntToString(n));
    var c2 := Set(c1, ConfigSection, MinTasksKey(resolution), IntToString(m));
    KeysDiffer(resolution);
    GetIntReadsSetInt(c1, ConfigSection, MinTasksKey(resolution), m);
    GetIntReadsSetInt(config, ConfigSection, NtasksKey(resolution), n);
    assert c2[(ConfigSection, NtasksKey(resolution))] == c1[(ConfigSection, NtasksKey(resolution))];
  }

  /** The two option names of a resolution are different. */
  lemma KeysDiffer(resolution: int)
    ensures NtasksKey(resolution) != MinTasksKey(resolution)
  {
    var k := ResName(resolution);
    assert NtasksKey(resolution)[|k| + 1] == 'n';
    assert MinTasksKey(resolution)[|k| + 1] == 'm';
  }
}

=== FILE: parabolic_group.dfy ===
/** The parabolic-bowl test group: a `Default` test case for every
    wetting-and-drying option and vertical coordinate, with Python's binding
    of keyword arguments to `Default.__init__` made explicit. The loop body
    passes a `wetdry=` keyword that `Default.__init__` does not accept, so
    the group as written cannot be built; `CorrectedGroup` models the
    evidently intended constructor. */
module ParabolicBowl {
  import opened Outcomes
  import opened Strings
  import opened ParabolicDefault

  const GroupName := "parabolic_bowl"
  const WetdryOptions: seq<string> := ["standard", "subgrid"]
  const CoordTypes: seq<string> := ["sigma", "single_layer"]

  /** The arguments of one `Default(...)` call in the loop body. */
  datatype Call = Call(wetdry: string, coordType: string)

  /** The loop iterations, wetting-and-drying option outermost. */
  function Calls(): (r: seq<Call>)
    ensures |r| == |WetdryOptions| * |CoordTypes|
  {
    seq(4, k requires 0 <= k < 4 => Call(WetdryOptions[k / 2], CoordTypes[k % 2]))
  }

  // ---------------------------------------------------------------------
  // Keyword arguments
  // ---------------------------------------------------------------------

  /** Keyword arguments in the order they are written; a value stands for
      the object passed (the group itself is passed by its name). */
  type Kwargs = seq<(string, string)>

  /** The value given for `key`, if any. */
  function Lookup(kwargs: Kwargs, key: string): (r: Option<string>)
    ensures r.Some? <==> exists i :: 0 <= i < |kwargs| && kwargs[i].0 == key
    ensures r.Some? ==> exists i :: 0 <= i < |kwargs| && kwargs[i] == (key, r.value)
  {
    if |kwargs| == 0 then None
    else if kwargs[0].0 == key then Some(kwargs[0].1)
    else
      var r := Lookup(kwargs[1..], key);
      assert forall i :: 1 <= i < |kwargs| ==> kwargs[i] == kwargs[1..][i - 1];
      r
  }

  /** The first keyword, in the order written, that is not a parameter. */
  function FirstUnexpected(kwargs: Kwargs, params: seq<string>): (r: Option<string>)
    ensures r.None? <==> forall i :: 0 <= i < |kwargs| ==> kwargs[i].0 in params
    ensures r.Some? ==> (
      && r.value !in params
      && exists i :: 0 <= i < |kwargs| && kwargs[i].0 == r.value
           && forall j :: 0 <= j < i ==> kwargs[j].0 in params)
  {
    if |kwargs| == 0 then None
    else if kwargs[0].0 !in params then Some(kwargs[0].0)
    else
      var r := FirstUnexpected(kwargs[1..], params);
      assert forall i :: 1 <= i < |kwargs| ==> kwargs[i] == kwargs[1..][i - 1];
      if r.Some? then
        var i :| 0 <= i < |kwargs[1..]| && kwargs[1..][i].0 == r.value
                 && forall j :: 0 <= j < i ==> kwargs[1..][j].0 in params;
        assert kwargs[i + 1].0 == r.value && forall j :: 0 <= j < i + 1 ==> kwargs[j].0 in params;
        r
      else r
  }

  /** The first parameter, in declaration order, that no keyword gives. */
  function FirstMissing(kwargs: Kwargs, params: seq<string>): (r: Option<string>)
    ensures r.None? <==> forall j :: 0 <= j < |params| ==> Lookup(kwargs, params[j]).Some?
    ensures r.Some? ==> r.value in params && Lookup(kwargs, r.value).None?
  {
    if |params| == 0 then None
    else if Lookup(kwargs, params[0]).None? then Some(params[0])
    else
      var r := FirstMissing(kwargs, params[1..]);
      assert forall j :: 1 <= j < |params| ==> params[j] == params[1..][j - 1];
      r
  }

  /** How Python binds keyword arguments to the parameters of `__init__`:
      an unexpected keyword is a TypeError, then a missing parameter is
      one; otherwise every parameter gets the value given for it, in
      declaration order. */
  function Bind(kwargs: Kwargs, params: seq<string>): (r: Result<seq<string>>)
    ensures r.Ok? <==>
      && (forall i :: 0 <= i < |kwargs| ==> kwargs[i].0 in params)
      && (forall j :: 0 <= j < |params| ==> Lookup(kwargs, params[j]).Some?)
    ensures r.Ok? ==> (
      && |r.value| == |params|
      && forall j :: 0 <= j < |params| ==> Some(r.value[j]) == Lookup(kwargs, params[j]))
    ensures FirstUnexpected(kwargs, params).Some? ==>
      r == Err("TypeError: __init__() got an unexpected keyword argument '" + FirstUnexpected(kwargs, params).value + "'")
  {
    match FirstUnexpected(kwargs, params)
    case Some(k) => Err("TypeError: __init__() got an unexpected keyword argument '" + k + "'")
    case None =>
      match FirstMissing(kwargs, params)
      case Some(p) => Err("TypeError: __init__() missing 1 required positional argument: '" + p + "'")
      case None =>
        Ok(seq(|params|, j requires 0 <= j < |params| => Lookup(kwargs, params[j]).value))
  }

  // ---------------------------------------------------------------------
  // The group as written
  // ---------------------------------------------------------------------

  /** `Default.__init__(self, test_group, coord_type)`. */
  const DefaultParameters: seq<string> := ["test_group", "coord_type"]

  /** `Default(**kwargs)`. */
  function ConstructDefault(kwargs: Kwargs): (r: Result<DefaultCase>)
    ensures r.Ok? <==> Bind(kwargs, DefaultParameters).Ok?
    ensures r.Ok? ==> (
      && Lookup(kwargs, "coord_type") == Some(r.value.coordType)
      && r.value == NewDefault(r.value.coordType))
    ensures Bind(kwargs, DefaultParameters).Err? ==> r == Err(Bind(kwargs, DefaultParameters).error)
  {
    match Bind(kwargs, DefaultParameters)
    case Err(e) => Err(e)
    case Ok(args) => Ok(NewDefault(args[1]))
  }

  /** The keywords the loop body passes, in the order written. */
  function CallKwargs(c: Call): Kwargs {
    [("test_group", GroupName), ("coord_type", c.coordType), ("wetdry", c.wetdry)]
  }

  /** The test cases built for `calls` in order, or the first error. */
  function Collect<T>(calls: seq<Call>, build: Call -> Result<T>): (r: Result<seq<T>>)
    ensures r.Ok? <==> forall i :: 0 <= i < |calls| ==> build(calls[i]).Ok?
    ensures r.Ok? ==> (
      && |r.value| == |calls|
      && forall i :: 0 <= i < |calls| ==> r.value[i] == build(calls[i]).value)
    ensures r.Err? ==>
      exists i :: (0 <= i < |calls| && build(calls[i]) == Err(r.error)
                   && forall j :: 0 <= j < i ==> build(calls[j]).Ok?)
  {
    if |calls| == 0 then Ok([])
    else
      assert forall i :: 1 <= i < |calls| ==> calls[i] == calls[1..][i - 1];
      match build(calls[0])
      case Err(e) => Err(e)
      case Ok(first) =>
        match Collect(calls[1..], build)
        case Err(e) =>
          var i :| 0 <= i < |calls[1..]| && build(calls[1..][i]) == Err(e)
                   && forall j :: 0 <= j < i ==> build(calls[1..][j]).Ok?;
          assert build(calls[i + 1]) == Err(e) && forall j :: 0 <= j < i + 1 ==> build(calls[j]).Ok?;
          Err(e)
        case Ok(rest) => Ok([first] + rest)
  }

  /** `ParabolicBowl.__init__` as written. */
  function AsWrittenGroup(): Result<seq<DefaultCase>> {
    Collect(Calls(), BuildAsWritten)
  }

  /** The loop body as written. */
  function BuildAsWritten(c: Call): Result<DefaultCase> {
    ConstructDefault(CallKwargs(c))
  }

  /** The loop body without the `wetdry` keyword. */
  function BuildDropped(c: Call): Result<DefaultCase> {
    ConstructDefault(CallKwargs(c)[..2])
  }

  // ---------------------------------------------------------------------
  // The evidently intended group
  // ---------------------------------------------------------------------

  /** A constructor that also takes `wetdry` and keeps the variants apart
      by putting it in front of the directory. */
  const CorrectedParameters: seq<string> := ["test_group", "coord_type", "wetdry"]

  datatype GroupCase = GroupCase(wetdry: string, test: DefaultCase)

  function NewCorrected(wetdry: string, coordType: string): (r: GroupCase)
    ensures r.wetdry == wetdry && r.test.coordType == coordType
    ensures r.test.subdir == wetdry + "/" + NewDefault(coordType).subdir
    ensures r.test.steps == NewDefault(coordType).steps
  {
    var d := NewDefault(coordType);
    GroupCase(wetdry, d.(subdir := wetdry + "/" + d.subdir))
  }

  function ConstructCorrected(kwargs: Kwargs): (r: Result<GroupCase>)
    ensures r.Ok? <==> Bind(kwargs, CorrectedParameters).Ok?
    ensures r.Ok? ==> (
      && Lookup(kwargs, "coord_type") == Some(r.value.test.coordType)
      && Lookup(kwargs, "wetdry") == Some(r.value.wetdry)
      && r.value == NewCorrected(r.value.wetdry, r.value.test.coordType))
  {
    match Bind(kwargs, CorrectedParameters)
    case Err(e) => Err(e)
    case Ok(args) => Ok(NewCorrected(args[2], args[1]))
  }

  function CorrectedGroup(): Result<seq<GroupCase>> {
    Collect(Calls(), BuildCorrected)
  }

  /** The loop body with the evidently intended constructor. */
  function BuildCorrected(c: Call): Result<GroupCase> {
    ConstructCorrected(CallKwargs(c))
  }

  // ---------------------------------------------------------------------
  // Properties
  // ---------------------------------------------------------------------

  /** Iteration `2 * i + j` is wetting-and-drying option `i` with vertical
      coordinate `j`. */
  lemma NestedLoopOrder(i: int, j: int)
    requires 0 <= i < 2 && 0 <= j < 2
    ensures Calls()[2 * i + j] == Call(WetdryOptions[i], CoordTypes[j])
  {
    var k := 2 * i + j;
    assert k / 2 == i && k % 2 == j;
  }

  /** When every keyword is a parameter and comes once, each parameter
      reads back the value written for it. */
  lemma LookupDistinct(kwargs: Kwargs, i: int)
    requires 0 <= i < |kwargs|
    requires forall a, b :: 0 <= a < b < |kwargs| ==> kwargs[a].0 != kwargs[b].0
    ensures Lookup(kwargs, kwargs[i].0) == Some(kwargs[i].1)
  {
  }

  /** Keywords that name each parameter once, in declaration order, bind
      to the values written. */
  lemma BindExact(kwargs: Kwargs, params: seq<string>)
    requires |kwargs| == |params|
    requires forall i :: 0 <= i < |kwargs| ==> kwargs[i].0 == params[i]
    requires forall a, b :: 0 <= a < b < |params| ==> params[a] != params[b]
    ensures Bind(kwargs, params).Ok?
    ensures forall j :: 0 <= j < |params| ==> Bind(kwargs, params).value[j] == kwargs[j].1
  {
    forall j | 0 <= j < |params| ensures Lookup(kwargs, params[j]) == Some(kwargs[j].1) {
      LookupDistinct(kwargs, j);
    }
  }

  /** The first keyword that is not a parameter, when the ones before it all are. */
  lemma FirstUnexpectedAt(kwargs: Kwargs, params: seq<string>, i: int)
    requires 0 <= i < |kwargs| && kwargs[i].0 !in params
    requires forall j :: 0 <= j < i ==> kwargs[j].0 in params
    ensures FirstUnexpected(kwargs, params) == Some(kwargs[i].0)
  {
    var r := FirstUnexpected(kwargs, params);
    var k :| 0 <= k < |kwargs| && kwargs[k].0 == r.value && forall j :: 0 <= j < k ==> kwargs[j].0 in params;
    assert k == i;
  }

  /** The parameter names differ in their first letter. */
  lemma ParameterNamesDiffer()
    ensures forall a, b :: 0 <= a < b < |DefaultParameters| ==> DefaultParameters[a] != DefaultParameters[b]
    ensures forall a, b :: 0 <= a < b < |CorrectedParameters| ==> CorrectedParameters[a] != CorrectedParameters[b]
    ensures "wetdry" !in DefaultParameters
  {
    assert forall a :: 0 <= a < 3 ==> CorrectedParameters[a][0] == ['t', 'c', 'w'][a];
    assert DefaultParameters == CorrectedParameters[..2];
  }

  /** `Default` builds from its two keywords. */
  lemma DefaultAcceptsItsKeywords(group: string, coordType: string)
    ensures ConstructDefault([("test_group", group), ("coord_type", coordType)]) == Ok(NewDefault(coordType))
  {
    var kw := [("test_group", group), ("coord_type", coordType)];
    ParameterNamesDiffer();
    BindExact(kw, DefaultParameters);
  }

  /** Any call that passes `wetdry` fails, whatever else it passes. */
  lemma DefaultRejectsWetdry(kwargs: Kwargs, i: int)
    requires 0 <= i < |kwargs| && kwargs[i].0 == "wetdry"
    ensures ConstructDefault(kwargs).Err?
  {
    assert kwargs[i].0 !in DefaultParameters;
  }

  /** The call the loop body makes is refused with the keyword named. */
  lemma CallRejected(c: Call)
    ensures ConstructDefault(CallKwargs(c)) == Err("TypeError: __init__() got an unexpected keyword argument 'wetdry'")
  {
    var kw := CallKwargs(c);
    ParameterNamesDiffer();
    assert kw[0].0 == DefaultParameters[0] && kw[1].0 == DefaultParameters[1];
    FirstUnexpectedAt(kw, DefaultParameters, 2);
  }

  /** As written, the first call already fails: `wetdry` is not a
      parameter of `Default.__init__`. */
  lemma AsWrittenGroupFails()
    ensures AsWrittenGroup() == Err("TypeError: __init__() got an unexpected keyword argument 'wetdry'")
  {
    var calls := Calls();
    CallRejected(calls[0]);
    assert calls == [calls[0]] + calls[1..];
  }

  /** Without `wetdry`, the loop body's call builds the plain test case. */
  lemma DroppedCallBuilds(c: Call)
    ensures ConstructDefault(CallKwargs(c)[..2]) == Ok(NewDefault(c.coordType))
  {
    assert CallKwargs(c)[..2] == [("test_group", GroupName), ("coord_type", c.coordType)];
    DefaultAcceptsItsKeywords(GroupName, c.coordType);
  }

  /** Dropping the keyword is no repair: `Default`'s directory depends on
      the vertical coordinate alone, so both wetting-and-drying variants of
      a coordinate land in the same directory. */
  lemma WithoutWetdrySubdirsCollide(k: int)
    requires 0 <= k < 2
    ensures var dropped := Collect(Calls(), BuildDropped);
      && dropped.Ok? && |dropped.value| == 4
      && Calls()[k].wetdry != Calls()[k + 2].wetdry
      && dropped.value[k].subdir == dropped.value[k + 2].subdir
  {
    var calls := Calls();
    forall i | 0 <= i < 4 ensures ConstructDefault(CallKwargs(calls[i])[..2]) == Ok(NewDefault(calls[i].coordType)) {
      DroppedCallBuilds(calls[i]);
    }
    NestedLoopOrder(0, k);
    NestedLoopOrder(1, k);
  }

  /** With the wetting-and-drying option accepted, the loop body's call
      builds. */
  lemma CorrectedCallBuilds(c: Call)
    ensures ConstructCorrected(CallKwargs(c)) == Ok(NewCorrected(c.wetdry, c.coordType))
  {
    CallBinds(c);
  }

  lemma CallBinds(c: Call)
    ensures Bind(CallKwargs(c), CorrectedParameters) == Ok([GroupName, c.coordType, c.wetdry])
  {
    var kw := CallKwargs(c);
    assert forall i :: 0 <= i < 3 ==> kw[i].0 == CorrectedParameters[i];
    ParameterNamesDiffer();
    BindExact(kw, CorrectedParameters);
    var args := Bind(kw, CorrectedParameters).value;
    assert args == [GroupName, c.coordType, c.wetdry];
  }

  /** The corrected constructor builds all four test cases, in loop order. */
  lemma CorrectedGroupBuilds()
    ensures CorrectedGroup().Ok? && |CorrectedGroup().value| == 4
    ensures forall i, j :: 0 <= i < 2 && 0 <= j < 2 ==>
      CorrectedGroup().value[2 * i + j] == NewCorrected(WetdryOptions[i], CoordTypes[j])
  {
    var calls := Calls();
    CorrectedGroupOk();
    forall i, j | 0 <= i < 2 && 0 <= j < 2
      ensures CorrectedGroup().value[2 * i + j] == NewCorrected(WetdryOptions[i], CoordTypes[j])
    {
      NestedLoopOrder(i, j);
      CorrectedCallBuilds(calls[2 * i + j]);
    }
  }

  lemma CorrectedGroupOk()
    ensures CorrectedGroup().Ok? && |CorrectedGroup().value| == 4
    ensures forall k :: 0 <= k < 4 ==> Ok(CorrectedGroup().value[k]) == BuildCorrected(Calls()[k])
  {
    var calls := Calls();
    forall k | 0 <= k < 4 ensures BuildCorrected(calls[k]).Ok? {
      CorrectedCallBuilds(calls[k]);
    }
  }

  /** With the wetting-and-drying option in front, two corrected test cases
      share a directory exactly when they share both arguments. */
  lemma CorrectedSubdirDeterminesCase(w1: string, c1: string, w2: string, c2: string)
    requires Lacks(w1, '/') && Lacks(w2, '/')
    ensures NewCorrected(w1, c1).test.subdir == NewCorrected(w2, c2).test.subdir <==> w1 == w2 && c1 == c2
  {
    if NewCorrected(w1, c1).test.subdir == NewCorrected(w2, c2).test.subdir {
      SplitAtSeparator(w1, NewDefault(c1).subdir, w2, NewDefault(c2).subdir, '/');
      SubdirDeterminesCoord(c1, c2);
    }
  }

  /** The four corrected test cases have four different directories. */
  lemma CorrectedSubdirsDistinct()
    ensures CorrectedGroup().Ok? && |CorrectedGroup().value| == 4
    ensures forall a, b :: 0 <= a < b < 4 ==>
      CorrectedGroup().value[a].test.subdir != CorrectedGroup().value[b].test.subdir
  {
    CorrectedGroupOk();
    var g := CorrectedGroup().value;
    forall a, b | 0 <= a < b < 4 ensures g[a].test.subdir != g[b].test.subdir {
      SubdirsDifferAt(a, b);
    }
  }

  lemma SubdirsDifferAt(a: int, b: int)
    requires 0 <= a < b < 4
    ensures CorrectedGroup().Ok? && |CorrectedGroup().value| == 4
    ensures CorrectedGroup().value[a].test.subdir != CorrectedGroup().value[b].test.subdir
  {
    CaseAt(a);
    CaseAt(b);
    OptionsDiffer(a / 2, a % 2, b / 2, b % 2);
  }

  /** Case `k` of the corrected group, by its two loop indices. */
  lemma CaseAt(k: int)
    requires 0 <= k < 4
    ensures 0 <= k / 2 < 2 && 0 <= k % 2 < 2 && k == 2 * (k / 2) + k % 2
    ensures CorrectedGroup().Ok? && |CorrectedGroup().value| == 4
    ensures CorrectedGroup().value[k] == NewCorrected(WetdryOptions[k / 2], CoordTypes[k % 2])
  {
    CorrectedGroupBuilds();
    var i, j := k / 2, k % 2;
    assert k == 2 * i + j;
  }

  lemma OptionsDiffer(ia: int, ja: int, ib: int, jb: int)
    requires 0 <= ia < 2 && 0 <= ja < 2 && 0 <= ib < 2 && 0 <= jb < 2
    requires ia != ib || ja != jb
    ensures NewCorrected(WetdryOptions[ia], CoordTypes[ja]).test.subdir
      != NewCorrected(WetdryOptions[ib], CoordTypes[jb]).test.subdir
  {
    var wa, wb := WetdryOptions[ia], WetdryOptions[ib];
    assert Lacks(wa, '/') && Lacks(wb, '/');
    assert wa == wb <==> ia == ib;
    assert CoordTypes[ja] == CoordTypes[jb] <==> ja == jb;
    CorrectedSubdirDeterminesCase(wa, CoordTypes[ja], wb, CoordTypes[jb]);
  }
}

=== FILE: parabolic_viz.dfy ===
/** The parabolic-bowl `Viz` step: the forward outputs it links in, how it
    reads the comparison list and the probe points from the config, the
    largest RMSE it tracks and the halving first-order reference line. */
module ParabolicViz {
  import opened Outcomes
  import opened Strings
  import opened Registry
  import opened ParabolicForward

  datatype VizStep = VizStep(name: string, resolutions: seq<int>, registrations: seq<Registration>)

  /** The file name under which the output of resolution `res` is linked. */
  function OutputName(res: int): string {
    "output_" + ResName(res) + ".nc"
  }

  /** `Viz(test_case, resolutions)`: one linked output per resolution, in order. */
  function NewViz(resolutions: seq<int>): (r: VizStep)
    ensures r.name == "viz" && r.resolutions == resolutions
    ensures |r.registrations| == |resolutions|
  {
    VizStep("viz", resolutions,
      seq(|resolutions|, i requires 0 <= i < |resolutions| =>
        InputFile(OutputName(resolutions[i]), Relative("../forward_" + ResName(resolutions[i]) + "/output.nc"))))
  }

  /** Each resolution's output is read from `output.nc` of the forward step
      of that resolution, and nothing else is registered. */
  lemma VizInputs(resolutions: seq<int>)
    ensures var regs := NewViz(resolutions).registrations;
      && |Inputs(regs)| == |resolutions|
      && (forall i :: 0 <= i < |resolutions| ==>
            Inputs(regs)[i] == (OutputName(resolutions[i]), Relative("../forward_" + ResName(resolutions[i]) + "/output.nc")))
      && !TakesModel(regs) && Outputs(regs) == []
  {
    var regs := NewViz(resolutions).registrations;
    PickAll(regs, InputSel);
    PickNone(regs, OutputSel);
    assert forall i :: 0 <= i < |regs| ==> regs[i] != ModelInput;
  }

  // ---------------------------------------------------------------------
  // Pairing a flat list (`reshape(-1, 2)`)
  // ---------------------------------------------------------------------

  /** Consecutive entries grouped two by two. */
  function Pairs<T>(entries: seq<T>): (r: seq<(T, T)>)
    requires |entries| % 2 == 0
    ensures |r| == |entries| / 2
    ensures forall i :: 0 <= i < |r| ==> r[i] == (entries[2 * i], entries[2 * i + 1])
    decreases |entries|
  {
    if |entries| == 0 then []
    else
      var rest := Pairs(entries[2..]);
      assert forall i :: 1 <= i < |rest| + 1 ==> 2 * i == 2 * (i - 1) + 2;
      [(entries[0], entries[1])] + rest
  }

  /** The pairs flattened back into one list. */
  function Unpair<T>(pairs: seq<(T, T)>): (r: seq<T>)
    ensures |r| == 2 * |pairs|
    decreases |pairs|
  {
    if |pairs| == 0 then [] else [pairs[0].0, pairs[0].1] + Unpair(pairs[1..])
  }

  lemma {:induction false} UnpairPairs<T>(entries: seq<T>)
    requires |entries| % 2 == 0
    ensures Unpair(Pairs(entries)) == entries
    decreases |entries|
  {
    if |entries| > 0 {
      UnpairPairs(entries[2..]);
      assert Pairs(entries)[1..] == Pairs(entries[2..]);
      assert entries == [entries[0], entries[1]] + entries[2..];
    }
  }

  lemma {:induction false} PairsUnpair<T>(pairs: seq<(T, T)>)
    ensures Pairs(Unpair(pairs)) == pairs
    decreases |pairs|
  {
    if |pairs| > 0 {
      PairsUnpair(pairs[1..]);
      var u := Unpair(pairs);
      assert u[2..] == Unpair(pairs[1..]);
      assert Pairs(u)[1..] == Pairs(u[2..]);
      assert pairs == [pairs[0]] + pairs[1..];
    }
  }

  // ---------------------------------------------------------------------
  // The comparison list (`error_compare`)
  // ---------------------------------------------------------------------

  /** The run every comparison is plotted against: this test case itself. */
  const RampLabel := "subgrid_ramp"
  const RampDir := "."

  /** The characters deleted before splitting. */
  const Decoration: set<char> := {'[', ']', ' '}

  /** The option text with '[', then ']', then ' ' deleted. */
  function CleanComparisons(text: string): string {
    RemoveChar(RemoveChar(RemoveChar(text, '['), ']'), ' ')
  }

  /** The comparison entries: the option text cleaned and split on commas,
      with this run's label and directory put in front. */
  function ComparisonEntries(text: string): (r: seq<string>)
    ensures |r| >= 3 && r[0] == RampLabel && r[1] == RampDir
  {
    [RampLabel, RampDir] + Split(CleanComparisons(text), ',')
  }

  /** `(label, directory)` pairs; an odd number of entries cannot be
      reshaped into pairs. */
  function ParseComparisons(text: string): (r: Result<seq<(string, string)>>)
    ensures r.Ok? <==> |Split(CleanComparisons(text), ',')| % 2 == 0
    ensures r.Ok? ==> |r.value| >= 2 && r.value[0] == (RampLabel, RampDir)
    ensures r.Ok? ==> Unpair(r.value) == ComparisonEntries(text)
  {
    var parts := Split(CleanComparisons(text), ',');
    var entries := [RampLabel, RampDir] + parts;
    if |parts| % 2 != 0 then Err("ValueError: cannot reshape array into shape (2)")
    else
      EvenAfterTwo(|parts|);
      UnpairPairs(entries);
      var r := Pairs(entries);
      assert r[0] == (entries[0], entries[1]);
      Ok(r)
  }

  /** Cleaning removes exactly the brackets and spaces, all at once. */
  lemma CleanRemovesDecoration(text: string)
    ensures CleanComparisons(text) == RemoveChars(text, Decoration)
  {
    var s1: set<char> := {'['};
    var s2: set<char> := s1 + {']'};
    var s3: set<char> := s2 + {' '};
    RemoveCharsCompose(text, s1, ']');
    RemoveCharsCompose(text, s2, ' ');
    assert s3 == Decoration;
  }

  /** The characters no label or directory can hold. */
  const Special: set<char> := Decoration + {','}

  /** The comparison list parses exactly when the cleaned text holds an
      odd number of commas. */
  lemma CommaCountDecides(text: string)
    ensures ParseComparisons(text).Ok? <==> multiset(CleanComparisons(text))[','] % 2 == 1
  {
    var clean := CleanComparisons(text);
    var n := |Split(clean, ',')|;
    var m := multiset(clean)[','];
    SplitCount(clean, ',');
    Parity(m);
  }

  lemma EvenAfterTwo(n: nat)
    requires n % 2 == 0
    ensures (n + 2) % 2 == 0 && n + 2 >= 2
  {
  }

  lemma Parity(m: nat)
    ensures (m + 1) % 2 == 0 <==> m % 2 == 1
  {
  }

  /** Every comparison entry avoids brackets, spaces and commas. */
  lemma EntriesAvoidSpecial(text: string)
    ensures forall k :: 0 <= k < |ComparisonEntries(text)| ==> Avoids(ComparisonEntries(text)[k], Special)
  {
    var parts := Split(CleanComparisons(text), ',');
    PartsAvoidSpecial(text);
    RampAvoidsSpecial();
    PrependAvoids(RampLabel, RampDir, parts, Special);
    assert ComparisonEntries(text) == [RampLabel, RampDir] + parts;
  }

  /** The pieces of the cleaned text avoid brackets, spaces and commas. */
  lemma PartsAvoidSpecial(text: string)
    ensures forall k :: 0 <= k < |Split(CleanComparisons(text), ',')| ==>
      Avoids(Split(CleanComparisons(text), ',')[k], Special)
  {
    var clean := CleanComparisons(text);
    var parts := Split(clean, ',');
    CleanRemovesDecoration(text);
    SplitAvoids(clean, ',', Decoration);
    forall k | 0 <= k < |parts| ensures Avoids(parts[k], Special) {
      AvoidsAdd(parts[k], Decoration, ',');
    }
  }

  /** This run's label and directory hold no special character. */
  lemma RampAvoidsSpecial()
    ensures Avoids(RampLabel, Special) && Avoids(RampDir, Special)
  {
    RampLacksSpecial();
    AvoidsFromAbsent(RampLabel, Special);
    AvoidsFromAbsent(RampDir, Special);
  }

  lemma RampLacksSpecial()
    ensures forall c :: c in Special ==> c !in RampLabel && c !in RampDir
  {
    assert '[' !in RampLabel && ']' !in RampLabel && ' ' !in RampLabel && ',' !in RampLabel;
    assert '[' !in RampDir && ']' !in RampDir && ' ' !in RampDir && ',' !in RampDir;
  }

  lemma PrependAvoids(a: string, b: string, parts: seq<string>, cs: set<char>)
    requires Avoids(a, cs) && Avoids(b, cs)
    requires forall k :: 0 <= k < |parts| ==> Avoids(parts[k], cs)
    ensures forall k :: 0 <= k < |[a, b] + parts| ==> Avoids(([a, b] + parts)[k], cs)
  {
    var e := [a, b] + parts;
    forall k | 0 <= k < |e| ensures Avoids(e[k], cs) {
      if k >= 2 {
        assert e[k] == parts[k - 2];
      }
    }
  }

  /** No label or directory holds a bracket, a space or a comma. */
  lemma ComparisonsClean(text: string)
    requires ParseComparisons(text).Ok?
    ensures forall i :: 0 <= i < |ParseComparisons(text).value| ==>
      Avoids(ParseComparisons(text).value[i].0, Special) && Avoids(ParseComparisons(text).value[i].1, Special)
  {
    var e := ComparisonEntries(text);
    EntriesAvoidSpecial(text);
    var r := ParseComparisons(text).value;
    assert r == Pairs(e);
    forall i | 0 <= i < |r| ensures Avoids(r[i].0, Special) && Avoids(r[i].1, Special) {
      assert r[i] == (e[2 * i], e[2 * i + 1]);
    }
  }

  /** The option text for a list of comparisons: labels and directories
      separated by commas. */
  function RenderComparisons(pairs: seq<(string, string)>): string {
    Join(Unpair(pairs), [','])
  }

  /** Comparisons written as a comma-separated list read back after this
      run's own entry. */
  lemma ParseRendered(pairs: seq<(string, string)>)
    requires |pairs| >= 1
    requires forall i :: 0 <= i < |pairs| ==> Avoids(pairs[i].0, Special) && Avoids(pairs[i].1, Special)
    ensures ParseComparisons(RenderComparisons(pairs)) == Ok([(RampLabel, RampDir)] + pairs)
  {
    var text := RenderComparisons(pairs);
    RenderedClean(pairs);
    RenderedSplit(pairs);
    var all := [(RampLabel, RampDir)] + pairs;
    assert Unpair(all) == [RampLabel, RampDir] + Unpair(pairs) by {
      assert all[1..] == pairs;
    }
    assert ComparisonEntries(text) == Unpair(all);
    PairsUnpair(all);
  }

  /** Rendering leaves nothing for the cleaning to delete. */
  lemma RenderedClean(pairs: seq<(string, string)>)
    requires forall i :: 0 <= i < |pairs| ==> Avoids(pairs[i].0, Special) && Avoids(pairs[i].1, Special)
    ensures CleanComparisons(RenderComparisons(pairs)) == RenderComparisons(pairs)
  {
    var u := Unpair(pairs);
    var text := Join(u, [',']);
    UnpairAvoids(pairs);
    JoinAvoids(u, ',', Decoration);
    RemoveCharsClean(text, Decoration);
    CleanRemovesDecoration(text);
  }

  /** Splitting the rendered text on commas gives back the flattened pairs. */
  lemma RenderedSplit(pairs: seq<(string, string)>)
    requires |pairs| >= 1
    requires forall i :: 0 <= i < |pairs| ==> Avoids(pairs[i].0, Special) && Avoids(pairs[i].1, Special)
    ensures Split(RenderComparisons(pairs), ',') == Unpair(pairs)
  {
    var u := Unpair(pairs);
    UnpairAvoids(pairs);
    forall k | 0 <= k < |u| ensures ',' !in u[k] {
      assert Avoids(u[k], Special);
      assert forall i :: 0 <= i < |u[k]| ==> u[k][i] != ',';
    }
    JoinThenSplit(u, ',');
  }

  lemma {:induction false} UnpairAvoids(pairs: seq<(string, string)>)
    requires forall i :: 0 <= i < |pairs| ==> Avoids(pairs[i].0, Special) && Avoids(pairs[i].1, Special)
    ensures forall k :: 0 <= k < |Unpair(pairs)| ==> Avoids(Unpair(pairs)[k], Special)
    ensures forall k :: 0 <= k < |Unpair(pairs)| ==> Avoids(Unpair(pairs)[k], Decoration)
    decreases |pairs|
  {
    if |pairs| > 0 {
      UnpairAvoids(pairs[1..]);
      var u := Unpair(pairs);
      assert u == [pairs[0].0, pairs[0].1] + Unpair(pairs[1..]);
      assert forall k :: 2 <= k < |u| ==> u[k] == Unpair(pairs[1..])[k - 2];
    }
  }

  // ---------------------------------------------------------------------
  // The error plot
  // ---------------------------------------------------------------------

  /** The output file whose RMSE is plotted for comparison `comp` at
      resolution `res`. */
  function RmseFile(comp: (string, string), res: int): string {
    comp.1 + "/" + OutputName(res)
  }

  /** This run's own entry reads exactly the outputs the step links in. */
  lemma OwnComparisonReadsLinkedOutputs(resolutions: seq<int>)
    ensures |Inputs(NewViz(resolutions).registrations)| == |resolutions|
    ensures forall i :: 0 <= i < |resolutions| ==>
      RmseFile((RampLabel, RampDir), resolutions[i]) == "./" + Inputs(NewViz(resolutions).registrations)[i].0
  {
    VizInputs(resolutions);
  }

  /** The RMSE of every comparison at every resolution; `rmseOf` stands
      for `compute_rmse`. */
  function RmseTable(comps: seq<(string, string)>, resolutions: seq<int>, rmseOf: string -> real): (t: seq<seq<real>>)
    ensures |t| == |comps|
    ensures forall j :: 0 <= j < |comps| ==> |t[j]| == |resolutions|
    ensures forall j, i :: 0 <= j < |comps| && 0 <= i < |resolutions| ==> t[j][i] == rmseOf(RmseFile(comps[j], resolutions[i]))
  {
    seq(|comps|, j requires 0 <= j < |comps| =>
      seq(|resolutions|, i requires 0 <= i < |resolutions| => rmseOf(RmseFile(comps[j], resolutions[i]))))
  }

  /** The first row of the plotted table, this run's own, holds the RMSE of
      exactly the outputs the step links in, resolution by resolution. */
  lemma RmseTableOwnRow(text: string, resolutions: seq<int>, rmseOf: string -> real)
    requires ParseComparisons(text).Ok?
    ensures |Inputs(NewViz(resolutions).registrations)| == |resolutions|
    ensures var t := RmseTable(ParseComparisons(text).value, resolutions, rmseOf);
      forall i :: 0 <= i < |resolutions| ==>
        t[0][i] == rmseOf("./" + Inputs(NewViz(resolutions).registrations)[i].0)
  {
    OwnComparisonReadsLinkedOutputs(resolutions);
  }

  /** The largest value of the table, starting from 0, scanning row by row. */
  method MaxRmse(table: seq<seq<real>>) returns (m: real)
    ensures m >= 0.0
    ensures forall j, i :: 0 <= j < |table| && 0 <= i < |table[j]| ==> table[j][i] <= m
    ensures m == 0.0 || exists j, i :: 0 <= j < |table| && 0 <= i < |table[j]| && m == table[j][i]
  {
    m := 0.0;
    var wj, wi := 0, 0;
    var j := 0;
    while j < |table|
      invariant 0 <= j <= |table|
      invariant m >= 0.0
      invariant forall jj, i :: 0 <= jj < j && 0 <= i < |table[jj]| ==> table[jj][i] <= m
      invariant m == 0.0 || (0 <= wj < j && 0 <= wi < |table[wj]| && m == table[wj][wi])
    {
      var row := table[j];
      var i := 0;
      while i < |row|
        invariant 0 <= i <= |row|
        invariant m >= 0.0
        invariant forall jj, ii :: 0 <= jj < j && 0 <= ii < |table[jj]| ==> table[jj][ii] <= m
        invariant forall ii :: 0 <= ii < i ==> row[ii] <= m
        invariant m == 0.0 || (0 <= wj <= j && 0 <= wi < |table[wj]| && m == table[wj][wi])
      {
        if row[i] > m {
          m := row[i];
          wj, wi := j, i;
        }
        i := i + 1;
      }
      j := j + 1;
    }
  }

  function Pow2(i: nat): (r: real)
    ensures r >= 1.0
  {
    if i == 0 then 1.0 else 2.0 * Pow2(i - 1)
  }

  /** `n` values starting at `x`, each half the one before. */
  function Halvings(x: real, n: nat): (r: seq<real>)
    ensures |r| == n
    ensures n > 0 ==> r[0] == x
    ensures forall i :: 0 <= i < n - 1 ==> r[i] == 2.0 * r[i + 1]
    decreases n
  {
    if n == 0 then []
    else
      var rest := Halvings(x / 2.0, n - 1);
      var r := [x] + rest;
      assert forall i :: 1 <= i < n ==> r[i] == rest[i - 1];
      r
  }

  /** Element `i` of the halvings is `x / 2^i`. */
  lemma {:induction false} HalvingsPower(x: real, n: nat, i: nat)
    requires i < n
    ensures Halvings(x, n)[i] * Pow2(i) == x
    decreases i
  {
    if i > 0 {
      HalvingsPower(x, n, i - 1);
      var r := Halvings(x, n);
      var a, p := r[i], Pow2(i - 1);
      assert r[i - 1] == 2.0 * a;
      assert (2.0 * a) * p == a * (2.0 * p);
    }
  }

  /** The first-order reference: the largest RMSE, then halvings, one per
      resolution; no resolutions is an `IndexError` on the first element.
      This models the computation of the reference on its own: inside the
      whole step, an empty resolution list already fails earlier, when the
      loop over resolutions leaves the time array unassigned. */
  function FirstOrderReference(maxRmse: real, n: nat): (r: Result<seq<real>>)
    ensures r.Ok? <==> n > 0
    ensures r.Ok? ==> |r.value| == n && r.value[0] == maxRmse
    ensures r.Ok? ==> forall i :: 0 <= i < n - 1 ==> r.value[i] == 2.0 * r.value[i + 1]
  {
    if n == 0 then Err("IndexError: index 0 is out of bounds for axis 0 with size 0")
    else Ok(Halvings(maxRmse, n))
  }

  /** Element `i` of the reference is the largest RMSE over `2^i`. */
  lemma ReferenceIsPowerOfHalf(maxRmse: real, n: nat, i: nat)
    requires i < n
    ensures FirstOrderReference(maxRmse, n).value[i] * Pow2(i) == maxRmse
  {
    HalvingsPower(maxRmse, n, i);
  }

  /** `np.flip`: the same values in reverse order. */
  function Flip<T>(s: seq<T>): (r: seq<T>)
    ensures |r| == |s|
    ensures forall i :: 0 <= i < |s| ==> r[i] == s[|s| - 1 - i]
    decreases |s|
  {
    if |s| == 0 then [] else Flip(s[1..]) + [s[0]]
  }

  /** As plotted, the reference doubles from each resolution to the next
      and ends at the largest RMSE. */
  lemma FlippedReferenceDoubles(maxRmse: real, n: nat)
    requires n > 0
    ensures var f := Flip(FirstOrderReference(maxRmse, n).value);
      && f[n - 1] == maxRmse
      && forall i :: 0 <= i < n - 1 ==> f[i + 1] == 2.0 * f[i]
  {
    var r := FirstOrderReference(maxRmse, n).value;
    var f := Flip(r);
    forall i | 0 <= i < n - 1 ensures f[i + 1] == 2.0 * f[i] {
      var k := n - 2 - i;
      assert f[i + 1] == r[k] && f[i] == r[k + 1];
    }
  }

  // ---------------------------------------------------------------------
  // The probe points (`points`)
  // ---------------------------------------------------------------------

  /** Every piece converted with `parse` (Python's `float`); the first
      piece it rejects is a `ValueError`. */
  function ParseAll(pieces: seq<string>, parse: string -> Option<real>): (r: Result<seq<real>>)
    ensures r.Ok? <==> forall i :: 0 <= i < |pieces| ==> parse(pieces[i]).Some?
    ensures r.Ok? ==> |r.value| == |pieces| && forall i :: 0 <= i < |pieces| ==> r.value[i] == parse(pieces[i]).value
    decreases |pieces|
  {
    if |pieces| == 0 then Ok([])
    else
      match parse(pieces[0])
      case None => Err("ValueError: could not convert string to float: " + pieces[0])
      case Some(x) =>
        match ParseAll(pieces[1..], parse)
        case Err(e) =>
          assert exists i :: 1 <= i < |pieces| && parse(pieces[i]).None? by {
            var i :| 0 <= i < |pieces| - 1 && parse(pieces[1..][i]).None?;
            assert pieces[1..][i] == pieces[i + 1];
          }
          Err(e)
        case Ok(rest) => Ok([x] + rest)
  }

  /** The points option with brackets deleted and split on commas. */
  function PointPieces(text: string): seq<string> {
    Split(RemoveChar(RemoveChar(text, '['), ']'), ',')
  }

  /** `(x, y)` probe points in metres, from kilometres in the config. */
  function ParsePoints(text: string, parse: string -> Option<real>): (r: Result<seq<(real, real)>>)
    ensures var p := PointPieces(text);
      r.Ok? <==> (forall i :: 0 <= i < |p| ==> parse(p[i]).Some?) && |p| % 2 == 0
    ensures var p := PointPieces(text);
      r.Ok? ==> (|r.value| == |p| / 2
        && forall i :: 0 <= i < |r.value| ==>
             r.value[i] == (1000.0 * parse(p[2 * i]).value, 1000.0 * parse(p[2 * i + 1]).value))
  {
    PointsFromPieces(PointPieces(text), parse)
  }

  /** The pieces converted, then reshaped into pairs and scaled; a piece
      that is not a number is reported before an odd count. */
  function PointsFromPieces(p: seq<string>, parse: string -> Option<real>): (r: Result<seq<(real, real)>>)
    ensures r.Ok? <==> (forall i :: 0 <= i < |p| ==> parse(p[i]).Some?) && |p| % 2 == 0
    ensures r.Ok? ==> (|r.value| == |p| / 2
      && forall i :: 0 <= i < |r.value| ==>
           r.value[i] == (1000.0 * parse(p[2 * i]).value, 1000.0 * parse(p[2 * i + 1]).value))
  {
    match ParseAll(p, parse)
    case Err(e) => Err(e)
    case Ok(values) =>
      if |values| % 2 != 0 then Err("ValueError: cannot reshape array into shape (2)")
      else
        var pairs := Pairs(values);
        assert forall i :: 0 <= i < |pairs| ==> pairs[i] == (parse(p[2 * i]).value, parse(p[2 * i + 1]).value) by {
          forall i | 0 <= i < |pairs| ensures pairs[i] == (parse(p[2 * i]).value, parse(p[2 * i + 1]).value) {
            HalfIndex(|values|, i);
          }
        }
        Ok(ToMetres(pairs))
  }

  lemma HalfIndex(n: nat, i: int)
    requires n % 2 == 0 && 0 <= i < n / 2
    ensures 0 <= 2 * i < 2 * i + 1 < n
  {
  }

  /** Kilometres to metres, coordinate by coordinate. */
  function ToMetres(pairs: seq<(real, real)>): (r: seq<(real, real)>)
    ensures |r| == |pairs|
    ensures forall i :: 0 <= i < |pairs| ==> r[i] == (1000.0 * pairs[i].0, 1000.0 * pairs[i].1)
  {
    seq(|pairs|, i requires 0 <= i < |pairs| => (1000.0 * pairs[i].0, 1000.0 * pairs[i].1))
  }

  /** Probe points written back as config text: the kilometre pieces
      separated by commas, inside one pair of brackets. */
  function RenderPoints(pieces: seq<(string, string)>): string {
    "[" + Join(Unpair(pieces), [',']) + "]"
  }

  /** Points rendered from number texts read back as those numbers, in
      metres, in the same order. */
  lemma PointsReadBack(pieces: seq<(string, string)>, parse: string -> Option<real>)
    requires |pieces| >= 1
    requires forall i :: 0 <= i < |pieces| ==> Avoids(pieces[i].0, Special) && Avoids(pieces[i].1, Special)
    requires forall i :: 0 <= i < |pieces| ==> parse(pieces[i].0).Some? && parse(pieces[i].1).Some?
    ensures var r := ParsePoints(RenderPoints(pieces), parse);
      && r.Ok? && |r.value| == |pieces|
      && forall i :: 0 <= i < |pieces| ==>
           r.value[i] == (1000.0 * parse(pieces[i].0).value, 1000.0 * parse(pieces[i].1).value)
  {
    PointPiecesOfRendered(pieces);
    PointsFromUnpaired(pieces, parse);
  }

  /** Converting the flattened pieces gives back one point per pair. */
  lemma PointsFromUnpaired(pieces: seq<(string, string)>, parse: string -> Option<real>)
    requires forall i :: 0 <= i < |pieces| ==> parse(pieces[i].0).Some? && parse(pieces[i].1).Some?
    ensures var r := PointsFromPieces(Unpair(pieces), parse);
      && r.Ok? && |r.value| == |pieces|
      && forall i :: 0 <= i < |pieces| ==>
           r.value[i] == (1000.0 * parse(pieces[i].0).value, 1000.0 * parse(pieces[i].1).value)
  {
    UnpairParses(pieces, parse);
    DoubleIsEven(|pieces|);
    forall i | 0 <= i < |pieces|
      ensures PointsFromPieces(Unpair(pieces), parse).value[i]
        == (1000.0 * parse(pieces[i].0).value, 1000.0 * parse(pieces[i].1).value)
    {
      UnpairAt(pieces, i);
    }
  }

  /** Every flattened piece is one `parse` accepts. */
  lemma UnpairParses(pieces: seq<(string, string)>, parse: string -> Option<real>)
    requires forall i :: 0 <= i < |pieces| ==> parse(pieces[i].0).Some? && parse(pieces[i].1).Some?
    ensures forall k :: 0 <= k < |Unpair(pieces)| ==> parse(Unpair(pieces)[k]).Some?
  {
    var u := Unpair(pieces);
    forall k | 0 <= k < |u| ensures parse(u[k]).Some? {
      var i := k / 2;
      UnpairAt(pieces, i);
      assert k == 2 * i || k == 2 * i + 1;
    }
  }

  lemma DoubleIsEven(n: nat)
    ensures (2 * n) % 2 == 0 && (2 * n) / 2 == n
  {
  }

  /** Pair `i` sits at positions `2i` and `2i + 1` of the flattened list. */
  lemma UnpairAt<T>(pairs: seq<(T, T)>, i: int)
    requires 0 <= i < |pairs|
    ensures Unpair(pairs)[2 * i] == pairs[i].0 && Unpair(pairs)[2 * i + 1] == pairs[i].1
  {
    PairsUnpair(pairs);
    assert Pairs(Unpair(pairs))[i] == (Unpair(pairs)[2 * i], Unpair(pairs)[2 * i + 1]);
  }

  /** The pieces of rendered points are the kilometre texts, flattened. */
  lemma PointPiecesOfRendered(pieces: seq<(string, string)>)
    requires |pieces| >= 1
    requires forall i :: 0 <= i < |pieces| ==> Avoids(pieces[i].0, Special) && Avoids(pieces[i].1, Special)
    ensures PointPieces(RenderPoints(pieces)) == Unpair(pieces)
  {
    var u := Unpair(pieces);
    UnpairSeparatorFree(pieces);
    var j := Join(u, [',']);
    assert RenderPoints(pieces) == "[" + j + "]";
    StripBrackets(j);
    assert PointPieces(RenderPoints(pieces)) == Split(j, ',');
    JoinThenSplit(u, ',');
  }

  /** The flattened pieces hold no comma, and their join no bracket or space. */
  lemma UnpairSeparatorFree(pieces: seq<(string, string)>)
    requires forall i :: 0 <= i < |pieces| ==> Avoids(pieces[i].0, Special) && Avoids(pieces[i].1, Special)
    ensures forall k :: 0 <= k < |Unpair(pieces)| ==> ',' !in Unpair(pieces)[k]
    ensures Avoids(Join(Unpair(pieces), [',']), Decoration)
  {
    var u := Unpair(pieces);
    UnpairAvoids(pieces);
    forall k | 0 <= k < |u| ensures ',' !in u[k] {
      assert Avoids(u[k], Special);
    }
    assert ',' !in Decoration;
    JoinAvoids(u, ',', Decoration);
  }

  /** Deleting the brackets from bracketed text that holds none. */
  lemma StripBrackets(j: string)
    requires Avoids(j, Decoration)
    ensures RemoveChar(RemoveChar("[" + j + "]", '['), ']') == j
  {
    StripOpen(j);
    StripClose(j);
  }

  lemma StripOpen(j: string)
    requires Avoids(j, Decoration)
    ensures RemoveChar("[" + j + "]", '[') == j + "]"
  {
    var cs: set<char> := {'['};
    assert "[" + j + "]" == "[" + (j + "]");
    RemoveCharsAppend("[", j + "]", cs);
    RemoveCharsOne('[', cs);
    RemoveCharsAppend(j, "]", cs);
    RemoveCharsClean(j, cs);
    RemoveCharsOne(']', cs);
    assert "" + (j + "]") == j + "]";
  }

  lemma StripClose(j: string)
    requires Avoids(j, Decoration)
    ensures RemoveChar(j + "]", ']') == j
  {
    var cs: set<char> := {']'};
    RemoveCharsAppend(j, "]", cs);
    RemoveCharsClean(j, cs);
    RemoveCharsOne(']', cs);
    assert j + "" == j;
  }
}

=== FILE: registry.dfy ===
/** What a step registers with the framework: each `add_namelist_file`,
    `add_namelist_options`, `add_streams_file`, `add_input_file`,
    `add_model_as_input` and `add_output_file` call appends one record, in
    call order, with no deduplication. */
module Registry {
  import opened Outcomes

  /** Where an input file is linked from: `target=` (relative to the step),
      `work_dir_target=` (relative to the work directory) or a file in a
      named database. */
  datatype Target =
    | Relative(path: string)
    | WorkDir(path: string)
    | Database(path: string, database: string)

  datatype Registration =
    | NamelistFile(package: string, file: string, mode: string, outName: string)
    | NamelistOptions(options: map<string, string>, mode: string, outName: string)
    | StreamsFile(package: string, file: string, mode: string, outName: string)
    | InputFile(filename: string, target: Target)
    | ModelInput
    | OutputFile(filename: string)

  /** The MPI tasks, minimum tasks and OpenMP threads a step asks for. */
  datatype Resources = Resources(ntasks: int, minTasks: int, openmpThreads: int)

  /** The namelist and streams files a step writes when no `out_name` is given. */
  const DefaultNamelist := "namelist.ocean"
  const DefaultStreams := "streams.ocean"

  /** The mode the framework assumes when none is given. */
  const ForwardMode := "forward"

  /** The directory of step `name` of a test case whose directory is `caseDir`. */
  function StepPath(caseDir: string, name: string): (r: string)
    ensures |r| == |caseDir| + 1 + |name|
    ensures r[..|caseDir|] == caseDir && r[|caseDir|] == '/' && r[|caseDir| + 1..] == name
  {
    caseDir + "/" + name
  }

  // ---------------------------------------------------------------------
  // Reading a registration list back
  // ---------------------------------------------------------------------

  /** The values `sel` picks out of `regs`, in registration order. */
  function Pick<T(!new)>(regs: seq<Registration>, sel: Registration -> Option<T>): (r: seq<T>)
    ensures |r| <= |regs|
  {
    if |regs| == 0 then []
    else
      var rest := Pick(regs[1..], sel);
      match sel(regs[0])
      case Some(x) => [x] + rest
      case None => rest
  }

  lemma {:induction false} PickAppend<T(!new)>(a: seq<Registration>, b: seq<Registration>, sel: Registration -> Option<T>)
    ensures Pick(a + b, sel) == Pick(a, sel) + Pick(b, sel)
    decreases |a|
  {
    if |a| > 0 {
      assert (a + b)[1..] == a[1..] + b;
      PickAppend(a[1..], b, sel);
    } else {
      assert a + b == b;
    }
  }

  /** What `sel` picks from one registration. */
  function Pick1<T(!new)>(x: Registration, sel: Registration -> Option<T>): (r: seq<T>)
    ensures |r| <= 1
  {
    if sel(x).Some? then [sel(x).value] else []
  }

  lemma PickUnfold<T(!new)>(regs: seq<Registration>, sel: Registration -> Option<T>)
    requires |regs| > 0
    ensures Pick(regs, sel) == Pick1(regs[0], sel) + Pick(regs[1..], sel)
  {
  }

  lemma PickSingleton<T(!new)>(x: Registration, sel: Registration -> Option<T>)
    ensures Pick([x], sel) == Pick1(x, sel)
  {
    PickUnfold([x], sel);
    assert [x][1..] == [];
  }

  /** A list none of whose entries `sel` picks reads back as nothing. */
  lemma {:induction false} PickNone<T(!new)>(regs: seq<Registration>, sel: Registration -> Option<T>)
    requires forall i :: 0 <= i < |regs| ==> sel(regs[i]).None?
    ensures Pick(regs, sel) == []
    decreases |regs|
  {
    if |regs| > 0 {
      assert forall i :: 0 <= i < |regs| - 1 ==> regs[1..][i] == regs[i + 1];
      PickNone(regs[1..], sel);
    }
  }

  /** When `sel` picks every entry, the read-back is the picked values in order. */
  lemma {:induction false} PickAll<T(!new)>(regs: seq<Registration>, sel: Registration -> Option<T>)
    requires forall i :: 0 <= i < |regs| ==> sel(regs[i]).Some?
    ensures |Pick(regs, sel)| == |regs|
    ensures forall i :: 0 <= i < |regs| ==> Pick(regs, sel)[i] == sel(regs[i]).value
    decreases |regs|
  {
    if |regs| > 0 {
      assert forall i :: 0 <= i < |regs| - 1 ==> regs[1..][i] == regs[i + 1];
      PickAll(regs[1..], sel);
    }
  }

  function NamelistSel(out: string): Registration -> Option<string> {
    (reg: Registration) => if reg.NamelistFile? && reg.outName == out then Some(reg.file) else None
  }

  function OptionsSel(out: string): Registration -> Option<map<string, string>> {
    (reg: Registration) => if reg.NamelistOptions? && reg.outName == out then Some(reg.options) else None
  }

  function StreamsSel(out: string): Registration -> Option<string> {
    (reg: Registration) => if reg.StreamsFile? && reg.outName == out then Some(reg.file) else None
  }

  const InputSel: Registration -> Option<(string, Target)> :=
    (reg: Registration) => if reg.InputFile? then Some((reg.filename, reg.target)) else None

  const OutputSel: Registration -> Option<string> :=
    (reg: Registration) => if reg.OutputFile? then Some(reg.filename) else None

  /** The namelist files merged, in order, into the namelist `out`. */
  function NamelistsFor(regs: seq<Registration>, out: string): seq<string> {
    Pick(regs, NamelistSel(out))
  }

  /** The option dictionaries applied, in order, to the namelist `out`. */
  function OptionsFor(regs: seq<Registration>, out: string): seq<map<string, string>> {
    Pick(regs, OptionsSel(out))
  }

  /** The streams files merged, in order, into the streams file `out`. */
  function StreamsFor(regs: seq<Registration>, out: string): seq<string> {
    Pick(regs, StreamsSel(out))
  }

  function Inputs(regs: seq<Registration>): seq<(string, Target)> {
    Pick(regs, InputSel)
  }

  function Outputs(regs: seq<Registration>): seq<string> {
    Pick(regs, OutputSel)
  }

  predicate TakesModel(regs: seq<Registration>) {
    ModelInput in regs
  }
}

=== FILE: setup_sal.dfy ===
/** The namelist rewrite of `setup_sal` (ocean/test_sht/scripts/setup_sal.py):
    each line of `namelist.ocean` that mentions one of the self-attraction-and-
    loading options is replaced by a canonical `key = value` line; every other
    line is kept. The regridding commands the serial branch shells out to are
    not part of this model. */
module SetupSal {
  import opened Outcomes
  import opened Strings
  import opened TextLines

  /** How `setup_sal(N, parallel)` is called: the parallel branch pastes `N`
      into the namelist as text; the serial branch takes `N` as an integer
      number of latitudes. */
  datatype Mode = Parallel(order: string) | Serial(nLat: int)

  const Indent := "    "
  /** The option names the script searches for. Each is written as a
      concatenation of short literals, which the verifier handles more
      cheaply than one long literal; the concatenation is the exact key,
      `config_Nitude` included, spelt as the script spells it. */
  const OrderKey := "config_" + "parallel_" + "self_" + "attraction_" + "loading_" + "order"
  const UseKey := "config_" + "use_" + "parallel_" + "self_" + "attraction_" + "loading"
  const LatitudeKey := "config_" + "Nitude"
  const LongitudeKey := "config_" + "nLongitude"

  /** The canonical namelist line `    key = value`. */
  function Setting(key: string, value: string): string {
    Indent + key + " = " + value
  }

  /** Replace `line` by `Setting(key, value)` when it mentions `key`. */
  function ReplaceIfMentions(line: string, key: string, value: string): string {
    if Contains(line, key) then Setting(key, value) else line
  }

  /** One pass of the loop body: the checks run in order, and each later
      check looks at the line as the earlier ones left it. */
  function RewriteLine(mode: Mode, line: string): string {
    match mode
    case Parallel(n) =>
      var l1 := ReplaceIfMentions(line, OrderKey, n);
      ReplaceIfMentions(l1, UseKey, ".true.")
    case Serial(n) =>
      var l1 := ReplaceIfMentions(line, LatitudeKey, IntToString(n));
      var l2 := ReplaceIfMentions(l1, LongitudeKey, IntToString(2 * n));
      ReplaceIfMentions(l2, UseKey, ".false.")
  }

  /** The loop over `range(len(lines))`: the same number of lines, each
      rewritten on its own. */
  function RewriteLines(mode: Mode, lines: seq<string>): (r: seq<string>)
    ensures |r| == |lines|
    ensures forall i :: 0 <= i < |r| ==> r[i] == RewriteLine(mode, lines[i])
  {
    seq(|lines|, i requires 0 <= i < |lines| => RewriteLine(mode, lines[i]))
  }

  /** The whole script run on the text of `namelist.ocean`: read it as lines,
      rewrite them, and write them joined by "\n". */
  function SetupSal(mode: Mode, text: string): string {
    WriteLines(RewriteLines(mode, SplitLines(text)))
  }

  // ---------------------------------------------------------------------
  // Which key is in which line
  // ---------------------------------------------------------------------

  lemma MentionsOwnKey(key: string, value: string)
    ensures Contains(Setting(key, value), key)
  {
    ContainsInfix(Indent, key, " = " + value);
    assert Indent + key + (" = " + value) == Setting(key, value);
  }

  lemma SettingLacks(key: string, value: string, c: char)
    requires Lacks(Indent + key + " = ", c) && Lacks(value, c)
    ensures Lacks(Setting(key, value), c)
  {
    LacksConcat(Indent + key + " = ", value, c);
  }

  lemma OrderLineLacksUseKey(n: string)
    requires Lacks(n, 'u')
    ensures !Contains(Setting(OrderKey, n), UseKey)
  {
    assert Lacks(Indent + OrderKey + " = ", 'u');
    SettingLacks(OrderKey, n, 'u');
    assert UseKey[7] == 'u';
    NotContainsByChar(Setting(OrderKey, n), UseKey, 7);
  }

  lemma UseLineLacksPair(v: string)
    requires v == ".true." || v == ".false."
    ensures LacksPair(Setting(UseKey, v), '_', 'o')
  {
    var prefix := Indent + UseKey + " = ";
    assert LacksPair(prefix, '_', 'o');
    FlagLacks(v);
    assert LacksPair(v, '_', 'o');
    LacksPairConcat(prefix, v, '_', 'o');
  }

  /** "loading_order" holds the pair "_o" at index 39, and no use line does. */
  lemma UseLineLacksOrderKey(v: string)
    requires v == ".true." || v == ".false."
    ensures !Contains(Setting(UseKey, v), OrderKey)
  {
    UseLineLacksPair(v);
    assert OrderKey[39] == '_' && OrderKey[40] == 'o';
    NotContainsByPair(Setting(UseKey, v), OrderKey, 39);
  }

  lemma UseLineLacksSerialKeys(v: string)
    requires v == ".true." || v == ".false."
    ensures !Contains(Setting(UseKey, v), LatitudeKey)
    ensures !Contains(Setting(UseKey, v), LongitudeKey)
  {
    PrefixLacksCapitals(UseKey);
    FlagLacks(v);
    SettingLacks(UseKey, v, 'N');
    assert LatitudeKey[7] == 'N';
    NotContainsByChar(Setting(UseKey, v), LatitudeKey, 7);
    SettingLacks(UseKey, v, 'L');
    assert LongitudeKey[8] == 'L';
    NotContainsByChar(Setting(UseKey, v), LongitudeKey, 8);
  }

  /** Neither the order key nor the use-flag key holds a capital N or L. */
  lemma PrefixLacksCapitals(key: string)
    requires key == OrderKey || key == UseKey
    ensures Lacks(Indent + key + " = ", 'N') && Lacks(Indent + key + " = ", 'L')
  {
    var p := Indent + key + " = ";
    if key == OrderKey {
      OrderPrefixLacksCapitals();
    } else {
      UsePrefixLacksCapitals();
    }
    AbsentLacks(p, 'N');
    AbsentLacks(p, 'L');
  }

  lemma OrderPrefixLacksCapitals()
    ensures 'N' !in Indent + OrderKey + " = " && 'L' !in Indent + OrderKey + " = "
  {
  }

  lemma UsePrefixLacksCapitals()
    ensures 'N' !in Indent + UseKey + " = " && 'L' !in Indent + UseKey + " = "
  {
  }

  lemma FlagLacks(v: string)
    requires v == ".true." || v == ".false."
    ensures Lacks(v, 'N') && Lacks(v, 'L') && Lacks(v, '_')
  {
  }

  lemma LatitudeLineLacksOtherKeys(v: string)
    requires Lacks(v, 'L') && Lacks(v, 'p')
    ensures !Contains(Setting(LatitudeKey, v), LongitudeKey)
    ensures !Contains(Setting(LatitudeKey, v), UseKey)
  {
    assert Lacks(Indent + LatitudeKey + " = ", 'L');
    SettingLacks(LatitudeKey, v, 'L');
    assert LongitudeKey[8] == 'L';
    NotContainsByChar(Setting(LatitudeKey, v), LongitudeKey, 8);
    assert Lacks(Indent + LatitudeKey + " = ", 'p');
    SettingLacks(LatitudeKey, v, 'p');
    assert UseKey[11] == 'p';
    NotContainsByChar(Setting(LatitudeKey, v), UseKey, 11);
  }

  lemma LongitudeLineLacksOtherKeys(v: string)
    requires Lacks(v, 'N') && Lacks(v, 'p')
    ensures !Contains(Setting(LongitudeKey, v), LatitudeKey)
    ensures !Contains(Setting(LongitudeKey, v), UseKey)
  {
    assert Lacks(Indent + LongitudeKey + " = ", 'N');
    SettingLacks(LongitudeKey, v, 'N');
    assert LatitudeKey[7] == 'N';
    NotContainsByChar(Setting(LongitudeKey, v), LatitudeKey, 7);
    assert Lacks(Indent + LongitudeKey + " = ", 'p');
    SettingLacks(LongitudeKey, v, 'p');
    assert UseKey[11] == 'p';
    NotContainsByChar(Setting(LongitudeKey, v), UseKey, 11);
  }

  lemma NumeralLacksLetters(n: int)
    ensures Lacks(IntToString(n), 'u') && Lacks(IntToString(n), 'p')
    ensures Lacks(IntToString(n), 'L') && Lacks(IntToString(n), 'N')
  {
    IntToStringChars(n, 'u');
    IntToStringChars(n, 'p');
    IntToStringChars(n, 'L');
    IntToStringChars(n, 'N');
  }

  lemma DigitsLack(n: string, c: char)
    requires AllDigits(n) && !IsDigit(c)
    ensures Lacks(n, c)
  {
    forall i | 0 <= i < |n| ensures n[i] != c {
      assert IsDigit(n[i]);
    }
  }

  // ---------------------------------------------------------------------
  // The per-line rules
  // ---------------------------------------------------------------------

  /** Parallel mode: the first key that matches, in check order, decides the
      line, provided the order is a numeral (as the scaling script passes it). */
  lemma ParallelRule(n: string, line: string)
    requires AllDigits(n)
    ensures Contains(line, OrderKey) ==>
              RewriteLine(Parallel(n), line) == Setting(OrderKey, n)
    ensures !Contains(line, OrderKey) && Contains(line, UseKey) ==>
              RewriteLine(Parallel(n), line) == Setting(UseKey, ".true.")
    ensures !Contains(line, OrderKey) && !Contains(line, UseKey) ==>
              RewriteLine(Parallel(n), line) == line
  {
    DigitsLack(n, 'u');
    OrderLineLacksUseKey(n);
  }

  /** The check order matters: when the order value itself mentions the
      use-flag key, every order line ends as the use-flag line. */
  lemma ParallelLaterCheckSeesReplacement(n: string, line: string)
    requires Contains(line, OrderKey) && Contains(n, UseKey)
    ensures RewriteLine(Parallel(n), line) == Setting(UseKey, ".true.")
  {
    var prefix := Indent + OrderKey + " = ";
    ContainsAfterPrefix(prefix, n, UseKey);
    assert prefix + n == Setting(OrderKey, n);
  }

  /** Serial mode: the first key that matches, in check order, decides the
      line; latitude and longitude are written as decimals, the use flag is
      switched off, and everything else (the order line included) is kept. */
  lemma SerialRule(n: int, line: string)
    ensures Contains(line, LatitudeKey) ==>
              RewriteLine(Serial(n), line) == Setting(LatitudeKey, IntToString(n))
    ensures !Contains(line, LatitudeKey) && Contains(line, LongitudeKey) ==>
              RewriteLine(Serial(n), line) == Setting(LongitudeKey, IntToString(2 * n))
    ensures !Contains(line, LatitudeKey) && !Contains(line, LongitudeKey) && Contains(line, UseKey) ==>
              RewriteLine(Serial(n), line) == Setting(UseKey, ".false.")
    ensures !Contains(line, LatitudeKey) && !Contains(line, LongitudeKey) && !Contains(line, UseKey) ==>
              RewriteLine(Serial(n), line) == line
  {
    NumeralLacksLetters(n);
    NumeralLacksLetters(2 * n);
    LatitudeLineLacksOtherKeys(IntToString(n));
    LongitudeLineLacksOtherKeys(IntToString(2 * n));
  }

  /** Serial mode leaves a loading-order line alone whenever its value
      holds none of the letters N, L and u, which every numeral satisfies. */
  lemma SerialKeepsOrderLine(n: int, v: string)
    requires Lacks(v, 'N') && Lacks(v, 'L') && Lacks(v, 'u')
    ensures RewriteLine(Serial(n), Setting(OrderKey, v)) == Setting(OrderKey, v)
  {
    var line := Setting(OrderKey, v);
    PrefixLacksCapitals(OrderKey);
    assert LatitudeKey[7] == 'N';
    SettingLacks(OrderKey, v, 'N');
    NotContainsByChar(line, LatitudeKey, 7);
    assert LongitudeKey[8] == 'L';
    SettingLacks(OrderKey, v, 'L');
    NotContainsByChar(line, LongitudeKey, 8);
    OrderLineLacksUseKey(v);
    SerialRule(n, line);
  }

  /** The value of a canonical `    key = value` line, if `line` is one. */
  function SettingValue(key: string, line: string): Option<string> {
    var p := Indent + key + " = ";
    if |p| <= |line| && line[..|p|] == p then Some(line[|p|..]) else None
  }

  lemma SettingValueOf(key: string, v: string)
    ensures SettingValue(key, Setting(key, v)) == Some(v)
  {
    var p := Indent + key + " = ";
    assert Setting(key, v) == p + v;
    assert (p + v)[..|p|] == p && (p + v)[|p|..] == v;
  }

  /** After a serial run, the latitude line holds `n` and the longitude line
      holds twice that, both as decimals `int()` reads back. */
  lemma LongitudeIsTwiceLatitude(n: int, lines: seq<string>, i: int, j: int)
    requires 0 <= i < |lines| && 0 <= j < |lines|
    requires Contains(lines[i], LatitudeKey)
    requires Contains(lines[j], LongitudeKey) && !Contains(lines[j], LatitudeKey)
    ensures var r := RewriteLines(Serial(n), lines);
      && SettingValue(LatitudeKey, r[i]).Some? && SettingValue(LongitudeKey, r[j]).Some?
      && ParseInt(SettingValue(LatitudeKey, r[i]).value) == Ok(n)
      && ParseInt(SettingValue(LongitudeKey, r[j]).value) == Ok(2 * n)
  {
    SerialRule(n, lines[i]);
    SerialRule(n, lines[j]);
    SettingValueOf(LatitudeKey, IntToString(n));
    SettingValueOf(LongitudeKey, IntToString(2 * n));
    IntToStringRoundTrip(n);
    IntToStringRoundTrip(2 * n);
  }

  // ---------------------------------------------------------------------
  // Idempotence
  // ---------------------------------------------------------------------

  lemma RewriteLineIdempotent(mode: Mode, line: string)
    ensures RewriteLine(mode, RewriteLine(mode, line)) == RewriteLine(mode, line)
  {
    match mode
    case Parallel(n) =>
      var l1 := ReplaceIfMentions(line, OrderKey, n);
      MentionsOwnKey(OrderKey, n);
      MentionsOwnKey(UseKey, ".true.");
      UseLineLacksOrderKey(".true.");
      if Contains(line, OrderKey) {
        assert RewriteLine(mode, Setting(OrderKey, n)) == RewriteLine(mode, line);
      }
    case Serial(n) =>
      var lat := IntToString(n);
      var lon := IntToString(2 * n);
      NumeralLacksLetters(n);
      NumeralLacksLetters(2 * n);
      MentionsOwnKey(LatitudeKey, lat);
      MentionsOwnKey(LongitudeKey, lon);
      MentionsOwnKey(UseKey, ".false.");
      LatitudeLineLacksOtherKeys(lat);
      LongitudeLineLacksOtherKeys(lon);
      UseLineLacksSerialKeys(".false.");
      SerialRule(n, line);
  }

  /** Running the rewrite on its own output changes nothing. */
  lemma RewriteLinesIdempotent(mode: Mode, lines: seq<string>)
    ensures RewriteLines(mode, RewriteLines(mode, lines)) == RewriteLines(mode, lines)
  {
    forall i | 0 <= i < |lines| ensures RewriteLine(mode, RewriteLine(mode, lines[i])) == RewriteLine(mode, lines[i]) {
      RewriteLineIdempotent(mode, lines[i]);
    }
  }

  // ---------------------------------------------------------------------
  // The file as a whole
  // ---------------------------------------------------------------------

  /** The values pasted into the namelist hold no line break. */
  predicate SingleLineValues(mode: Mode) {
    mode.Parallel? ==> NoBreaks(mode.order)
  }

  lemma SettingNoBreaks(key: string, value: string)
    requires NoBreaks(key) && NoBreaks(value)
    ensures NoBreaks(Setting(key, value)) && Setting(key, value) != ""
  {
    assert NoBreaks(Indent) && NoBreaks(" = ");
    assert Setting(key, value)[0] == ' ';
  }

  lemma NumeralNoBreaks(n: int)
    ensures NoBreaks(IntToString(n))
  {
    var s := IntToString(n);
    forall i | 0 <= i < |s| ensures !IsLineBreak(s[i]) {
      if IsLineBreak(s[i]) {
        IntToStringChars(n, s[i]);
      }
    }
  }

  lemma KeysSingleLine()
    ensures NoBreaks(OrderKey) && NoBreaks(UseKey)
    ensures NoBreaks(LatitudeKey) && NoBreaks(LongitudeKey)
    ensures NoBreaks(".true.") && NoBreaks(".false.")
  {
    ParallelKeysSingleLine();
    SerialKeysSingleLine();
  }

  lemma ParallelKeysSingleLine()
    ensures NoBreaks(OrderKey) && NoBreaks(UseKey)
  {
    assert Printable(OrderKey);
    PrintableNoBreaks(OrderKey);
    assert Printable(UseKey);
    PrintableNoBreaks(UseKey);
  }

  lemma SerialKeysSingleLine()
    ensures NoBreaks(LatitudeKey) && NoBreaks(LongitudeKey)
    ensures NoBreaks(".true.") && NoBreaks(".false.")
  {
    assert Printable(LatitudeKey) && Printable(LongitudeKey);
    assert Printable(".true.") && Printable(".false.");
    PrintableNoBreaks(LatitudeKey);
    PrintableNoBreaks(LongitudeKey);
    PrintableNoBreaks(".true.");
    PrintableNoBreaks(".false.");
  }

  lemma RewriteLineShape(mode: Mode, line: string)
    requires SingleLineValues(mode) && NoBreaks(line)
    ensures NoBreaks(RewriteLine(mode, line))
    ensures line != "" ==> RewriteLine(mode, line) != ""
  {
    KeysSingleLine();
    SettingNoBreaks(UseKey, ".true.");
    SettingNoBreaks(UseKey, ".false.");
    match mode
    case Parallel(n) =>
      SettingNoBreaks(OrderKey, n);
    case Serial(n) =>
      NumeralNoBreaks(n);
      NumeralNoBreaks(2 * n);
      SettingNoBreaks(LatitudeKey, IntToString(n));
      SettingNoBreaks(LongitudeKey, IntToString(2 * n));
  }

  /** A second run reads back exactly the lines the first run wrote, as long
      as the file does not end in a blank line. */
  lemma SetupSalReadsBackItsLines(mode: Mode, text: string)
    requires SingleLineValues(mode) && LastLineNonEmpty(SplitLines(text))
    ensures SplitLines(SetupSal(mode, text)) == RewriteLines(mode, SplitLines(text))
  {
    var lines := SplitLines(text);
    var out := RewriteLines(mode, lines);
    forall i | 0 <= i < |lines| ensures NoBreaks(out[i]) && (lines[i] != "" ==> out[i] != "") {
      RewriteLineShape(mode, lines[i]);
    }
    ReadBackWritten(out);
  }

  /** Running the script twice leaves the file as one run left it. */
  lemma SetupSalIdempotent(mode: Mode, text: string)
    requires SingleLineValues(mode) && LastLineNonEmpty(SplitLines(text))
    ensures SetupSal(mode, SetupSal(mode, text)) == SetupSal(mode, text)
  {
    SetupSalReadsBackItsLines(mode, text);
    RewriteLinesIdempotent(mode, SplitLines(text));
  }

  // ---------------------------------------------------------------------
  // The serial branch as the scaling script calls it
  // ---------------------------------------------------------------------

  /** The serial branch when `N` arrives as a string, as
      ocean/test_sht/scripts/run_scaling.py passes it: `2*N` repeats the
      string and `str(N)` leaves it as it is. */
  function RewriteLineScaled(nLat: string, line: string): string {
    var l1 := ReplaceIfMentions(line, LatitudeKey, nLat);
    var l2 := ReplaceIfMentions(l1, LongitudeKey, nLat + nLat);
    ReplaceIfMentions(l2, UseKey, ".false.")
  }

  /** The serial rule with a string `N` made of digits: the latitude line
      holds `N` and the longitude line holds `N` written twice. */
  lemma ScaledRule(nLat: string, line: string)
    requires AllDigits(nLat)
    ensures Contains(line, LatitudeKey) ==>
              RewriteLineScaled(nLat, line) == Setting(LatitudeKey, nLat)
    ensures !Contains(line, LatitudeKey) && Contains(line, LongitudeKey) ==>
              RewriteLineScaled(nLat, line) == Setting(LongitudeKey, nLat + nLat)
    ensures !Contains(line, LatitudeKey) && !Contains(line, LongitudeKey) && Contains(line, UseKey) ==>
              RewriteLineScaled(nLat, line) == Setting(UseKey, ".false.")
    ensures !Contains(line, LatitudeKey) && !Contains(line, LongitudeKey) && !Contains(line, UseKey) ==>
              RewriteLineScaled(nLat, line) == line
  {
    DigitsLack(nLat, 'L');
    DigitsLack(nLat, 'N');
    DigitsLack(nLat, 'p');
    LacksConcat(nLat, nLat, 'N');
    LacksConcat(nLat, nLat, 'p');
    LatitudeLineLacksOtherKeys(nLat);
    LongitudeLineLacksOtherKeys(nLat + nLat);
  }

  /** With N = '128' the longitude line reads 128128, which is not twice 128. */
  lemma ScaledLongitudeIsRepeated()
    ensures RewriteLineScaled("128", LongitudeKey) == Setting(LongitudeKey, "128128")
    ensures ParseInt("128128") != Ok(2 * 128)
  {
    LongitudeKeyLine();
    assert Lacks("128128", 'p') && Lacks("128128", 'N');
    LongitudeLineLacksOtherKeys("128128");
    ScaledNumerals();
    IntToStringRoundTrip(128128);
  }

  /** The integer path writes 256 for the same latitude count. */
  lemma SerialLongitudeFor128()
    ensures RewriteLine(Serial(128), LongitudeKey) == Setting(LongitudeKey, "256")
  {
    LongitudeKeyLine();
    ScaledNumerals();
    SerialRule(128, LongitudeKey);
  }

  lemma LongitudeKeyLine()
    ensures Contains(LongitudeKey, LongitudeKey) && !Contains(LongitudeKey, LatitudeKey)
  {
    assert Lacks(LongitudeKey, 'N') && LatitudeKey[7] == 'N';
    NotContainsByChar(LongitudeKey, LatitudeKey, 7);
    ContainsInfix("", LongitudeKey, "");
    assert "" + LongitudeKey + "" == LongitudeKey;
  }

  lemma ScaledNumerals()
    ensures IntToString(256) == "256"
    ensures IntToString(128128) == "128128"
  {
    assert NatToString(2) == "2";
    assert NatToString(25) == "2" + [DigitChar(5)];
    assert NatToString(256) == NatToString(25) + [DigitChar(6)];
    assert NatToString(1) == "1";
    assert NatToString(12) == "1" + [DigitChar(2)];
    assert NatToString(128) == NatToString(12) + [DigitChar(8)];
    assert NatToString(1281) == NatToString(128) + [DigitChar(1)];
    assert NatToString(12812) == NatToString(1281) + [DigitChar(2)];
    assert NatToString(128128) == NatToString(12812) + [DigitChar(8)];
  }
}

=== FILE: soma_ensemble.dfy ===
/** The SOMA `SomaEnsemble` test case: its name and directory from the
    flags, the list of namelist-option sets (one empty, one per sample, one
    default), its steps, and `configure`. */
module SomaEnsemble {
  import opened Outcomes
  import opened Strings
  import opened Config

  datatype Flags = Flags(withParticles: bool, withSurfaceRestoring: bool, long: bool, threeLayer: bool)

  /** `name` is never `None` in the source, but the `None` branches are kept
      to show they cannot be taken. */
  function AddPart(name: Option<string>, on: bool, alone: string, suffix: string): (r: Option<string>)
    ensures name.Some? ==> r == Some(if on then name.value + suffix else name.value)
  {
    if !on then name
    else if name.None? then Some(alone)
    else Some(name.value + suffix)
  }

  const LongSuffix := "_long"
  const RestoringSuffix := "_with_surface_restoring"
  const ParticlesSuffix := "_with_particles"

  function Base(threeLayer: bool): string {
    if threeLayer then "three_layer" else "ensemble"
  }

  /** The test case name: the base name, then the suffixes in a fixed order. */
  function EnsembleName(f: Flags): (r: string)
    ensures r == Base(f.threeLayer)
      + (if f.long then LongSuffix else "")
      + (if f.withSurfaceRestoring then RestoringSuffix else "")
      + (if f.withParticles then ParticlesSuffix else "")
  {
    var n0: Option<string> := Some(Base(f.threeLayer));
    var n1 := AddPart(n0, f.long, "long", LongSuffix);
    var n2 := AddPart(n1, f.withSurfaceRestoring, "surface_restoring", RestoringSuffix);
    var n3 := AddPart(n2, f.withParticles, "particles", ParticlesSuffix);
    match n3
    case None => "default"
    case Some(n) => n
  }

  function Subdir(resolution: string, f: Flags): string {
    resolution + "/" + EnsembleName(f)
  }

  /** Recovers the flags from a name: the first letter gives the base, the
      length the suffixes (the suffix lengths 5, 23 and 15 have distinct
      subset sums). */
  function ParseEnsembleName(name: string): (r: Option<Flags>)
    ensures r.Some? ==> EnsembleName(r.value) == name
  {
    if |name| == 0 then None
    else
      var three := name[0] == 't';
      var extra := |name| - |Base(three)|;
      var long := extra in {5, 20, 28, 43};
      var restoring := extra in {23, 28, 38, 43};
      var particles := extra in {15, 20, 38, 43};
      var f := Flags(particles, restoring, long, three);
      if EnsembleName(f) == name then Some(f) else None
  }

  lemma ParseEnsembleNameRoundTrip(f: Flags)
    ensures ParseEnsembleName(EnsembleName(f)) == Some(f)
  {
    var name := EnsembleName(f);
    assert name[0] == Base(f.threeLayer)[0];
    assert |LongSuffix| == 5 && |RestoringSuffix| == 23 && |ParticlesSuffix| == 15;
  }

  /** Different flags give different names, and no flags give 'default'. */
  lemma EnsembleNameInjective(f: Flags, g: Flags)
    ensures EnsembleName(f) == EnsembleName(g) <==> f == g
    ensures EnsembleName(f) != "default"
  {
    ParseEnsembleNameRoundTrip(f);
    ParseEnsembleNameRoundTrip(g);
    var name := EnsembleName(f);
    assert name[0] == Base(f.threeLayer)[0];
    assert "default"[0] == 'd';
  }

  lemma SubdirDeterminesCase(res1: string, f: Flags, res2: string, g: Flags)
    requires Lacks(res1, '/') && Lacks(res2, '/')
    ensures Subdir(res1, f) == Subdir(res2, g) <==> res1 == res2 && f == g
  {
    EnsembleNameInjective(f, g);
    if Subdir(res1, f) == Subdir(res2, g) {
      SplitAtSeparator(res1, EnsembleName(f), res2, EnsembleName(g), '/');
    }
  }

  // ---------------------------------------------------------------------
  // The namelist-option sets
  // ---------------------------------------------------------------------

  /** One generated sample: the seven parameter values, already written with
      Python's `str`. */
  datatype Sample = Sample(
    gmKappa: string, rediKappa: string, backgroundDiff: string, bottomDrag: string,
    submesoCe: string, submesoLfmin: string, submesoTau: string)

  const GmKey := "config_GM_constant_kappa"
  const RediKey := "config_Redi_constant_kappa"
  const DiffKey := "config_cvmix_background_diffusion"
  const DragKey := "config_implicit_bottom_drag_coeff"
  const CeKey := "config_submesoscale_Ce"
  const LfminKey := "config_submesoscale_Lfmin"
  const TauKey := "config_submesoscale_tau"
  const UseGmKey := "config_use_GM"
  const UseRediKey := "config_use_Redi"
  const SubmesoKey := "config_submesoscale_enable"

  const OptionKeys: set<string> :=
    {GmKey, RediKey, DiffKey, DragKey, CeKey, LfminKey, TauKey, UseGmKey, UseRediKey, SubmesoKey}

  /** The values used when no sample is given. */
  const DefaultSample := Sample("900.0", "400.0", "0.0", "1e-3", "0.06", "1000.0", "172800.0")

  function OptionsFor(s: Sample): (r: map<string, string>)
    ensures r.Keys == OptionKeys
    ensures r[UseGmKey] == ".true." && r[UseRediKey] == ".true." && r[SubmesoKey] == ".true."
  {
    map[GmKey := s.gmKappa, RediKey := s.rediKappa, DiffKey := s.backgroundDiff,
        DragKey := s.bottomDrag, CeKey := s.submesoCe, LfminKey := s.submesoLfmin,
        TauKey := s.submesoTau, UseGmKey := ".true.", UseRediKey := ".true.",
        SubmesoKey := ".true."]
  }

  /** Reads the sample back out of an option set. */
  function SampleOf(options: map<string, string>): Option<Sample> {
    if GmKey in options && RediKey in options && DiffKey in options && DragKey in options
       && CeKey in options && LfminKey in options && TauKey in options
    then Some(Sample(options[GmKey], options[RediKey], options[DiffKey], options[DragKey],
                     options[CeKey], options[LfminKey], options[TauKey]))
    else None
  }

  lemma SampleRoundTrip(s: Sample)
    ensures SampleOf(OptionsFor(s)) == Some(s)
  {
  }

  /** `option_list`: the empty set, one set per sample in order, then the defaults. */
  function OptionList(samples: seq<Sample>): (r: seq<map<string, string>>)
    ensures |r| == |samples| + 2
    ensures r[0] == map[]
    ensures forall i :: 0 <= i < |samples| ==> r[i + 1] == OptionsFor(samples[i])
    ensures r[|r| - 1] == OptionsFor(DefaultSample)
  {
    var middle := SampleOptions(samples);
    var r := [map[]] + middle + [OptionsFor(DefaultSample)];
    assert forall i :: 0 <= i < |samples| ==> r[i + 1] == middle[i];
    r
  }

  /** One option set per sample, in order. */
  function SampleOptions(samples: seq<Sample>): (r: seq<map<string, string>>)
    ensures |r| == |samples|
    ensures forall i :: 0 <= i < |samples| ==> r[i] == OptionsFor(samples[i])
  {
    seq(|samples|, i requires 0 <= i < |samples| => OptionsFor(samples[i]))
  }

  /** Every set but the first has the same ten keys and switches the three
      parameterisations on; the samples read back in order. */
  lemma OptionListShape(samples: seq<Sample>)
    ensures var r := OptionList(samples);
      && r[0].Keys == {}
      && (forall i :: 1 <= i < |r| ==>
            r[i].Keys == OptionKeys && r[i][UseGmKey] == ".true."
            && r[i][UseRediKey] == ".true." && r[i][SubmesoKey] == ".true.")
      && (forall i :: 0 <= i < |samples| ==> SampleOf(r[i + 1]) == Some(samples[i]))
      && SampleOf(r[|r| - 1]) == Some(DefaultSample)
  {
    var r := OptionList(samples);
    forall i | 1 <= i < |r|
      ensures r[i].Keys == OptionKeys && r[i][UseGmKey] == ".true."
        && r[i][UseRediKey] == ".true." && r[i][SubmesoKey] == ".true."
    {
      if i <= |samples| {
        assert r[i] == OptionsFor(samples[i - 1]);
      }
    }
    forall i | 0 <= i < |samples| ensures SampleOf(r[i + 1]) == Some(samples[i]) {
      SampleRoundTrip(samples[i]);
    }
    SampleRoundTrip(DefaultSample);
  }

  // ---------------------------------------------------------------------
  // Steps and configuration
  // ---------------------------------------------------------------------

  datatype Step =
    | InitialState(resolution: string, withSurfaceRestoring: bool, threeLayer: bool)
    | Forward(resolution: string, flags: Flags, options: map<string, string>, stepNum: nat)
    | Analysis(resolution: string)

  datatype Ensemble = Ensemble(resolution: string, flags: Flags, name: string, subdir: string, steps: seq<Step>)

  /** One forward step per option set, numbered by position. */
  function ForwardSteps(resolution: string, f: Flags, options: seq<map<string, string>>): (r: seq<Step>)
    ensures |r| == |options|
    ensures forall i :: 0 <= i < |r| ==> r[i] == Forward(resolution, f, options[i], i)
  {
    seq(|options|, i requires 0 <= i < |options| => Forward(resolution, f, options[i], i))
  }

  /** `SomaEnsemble(test_group, resolution, ...)`, with the generated samples given. */
  function NewEnsemble(resolution: string, f: Flags, samples: seq<Sample>): Ensemble {
    Ensemble(resolution, f, EnsembleName(f), Subdir(resolution, f),
      EnsembleSteps(resolution, f, OptionList(samples)))
  }

  /** The initial state, a forward run per option set, and the analysis
      when particles are on. */
  function EnsembleSteps(resolution: string, f: Flags, options: seq<map<string, string>>): seq<Step> {
    [InitialState(resolution, f.withSurfaceRestoring, f.threeLayer)]
      + ForwardSteps(resolution, f, options)
      + (if f.withParticles then [Analysis(resolution)] else [])
  }

  /** The initial state first, then one forward run per option set numbered
      in list order, then the analysis step exactly when particles are on. */
  lemma StepOrder(resolution: string, f: Flags, samples: seq<Sample>)
    ensures var e := NewEnsemble(resolution, f, samples);
      var n := |samples| + 2;
      && |e.steps| == 1 + n + (if f.withParticles then 1 else 0)
      && e.steps[0] == InitialState(resolution, f.withSurfaceRestoring, f.threeLayer)
      && (forall i :: 0 <= i < n ==> e.steps[1 + i] == Forward(resolution, f, OptionList(samples)[i], i))
      && (Analysis(resolution) in e.steps <==> f.withParticles)
  {
    StepsLayout(resolution, f, OptionList(samples));
  }

  lemma StepsLayout(resolution: string, f: Flags, options: seq<map<string, string>>)
    ensures var steps := EnsembleSteps(resolution, f, options);
      && |steps| == 1 + |options| + (if f.withParticles then 1 else 0)
      && steps[0] == InitialState(resolution, f.withSurfaceRestoring, f.threeLayer)
      && (forall i :: 0 <= i < |options| ==> steps[1 + i] == Forward(resolution, f, options[i], i))
      && (Analysis(resolution) in steps <==> f.withParticles)
  {
    var steps := EnsembleSteps(resolution, f, options);
    var fw := ForwardSteps(resolution, f, options);
    var tail: seq<Step> := if f.withParticles then [Analysis(resolution)] else [];
    var head := [InitialState(resolution, f.withSurfaceRestoring, f.threeLayer)];
    assert steps == head + fw + tail;
    assert forall i :: 0 <= i < |fw| ==> steps[1 + i] == fw[i];
    assert Analysis(resolution) !in head && Analysis(resolution) !in fw;
    assert Analysis(resolution) in steps <==> Analysis(resolution) in tail;
  }

  /** `configure`: removes the continental shelf for three-layer runs and
      changes nothing otherwise. */
  function Configure(threeLayer: bool, config: Config): (r: Config)
    ensures !threeLayer ==> r == config
    ensures threeLayer ==>
      && r.Keys == config.Keys + {("soma", "phi"), ("soma", "shelf_depth")}
      && r[("soma", "phi")] == "1e-16" && r[("soma", "shelf_depth")] == "0.0"
      && (forall k :: k in config && k != ("soma", "phi") && k != ("soma", "shelf_depth") ==> r[k] == config[k])
  {
    if threeLayer then Set(Set(config, "soma", "phi", "1e-16"), "soma", "shelf_depth", "0.0")
    else config
  }

  lemma ConfigureIdempotent(threeLayer: bool, config: Config)
    ensures Configure(threeLayer, Configure(threeLayer, config)) == Configure(threeLayer, config)
  {
  }
}

=== FILE: soma_group.dfy ===
/** The SOMA test group: for each resolution, five single-flag test cases
    (a sixth, with particles, at 32 km only) and then a long ensemble. */
module Soma {
  import opened SomaEnsemble

  const GroupName := "soma"
  const Resolutions: seq<string> := ["4km", "8km", "16km", "32km"]

  /** The only resolution that gets the particles test case. */
  const ParticlesResolution := "32km"

  datatype SomaCase =
    | SomaTest(resolution: string, flags: Flags)
    | EnsembleTest(resolution: string, flags: Flags)

  const NoFlags := Flags(false, false, false, false)
  const LongOnly := Flags(false, false, true, false)
  const ParticlesOnly := Flags(true, false, false, false)
  const RestoringOnly := Flags(false, true, false, false)
  const ThreeLayerOnly := Flags(false, false, false, true)

  /** How many of the four flags are set. */
  function FlagCount(f: Flags): (r: nat)
    ensures r <= 4
    ensures r == 0 <==> f == NoFlags
  {
    (if f.withParticles then 1 else 0) + (if f.withSurfaceRestoring then 1 else 0)
      + (if f.long then 1 else 0) + (if f.threeLayer then 1 else 0)
  }

  /** A reader's name for a test case of the group, from its kind and flags. */
  function Label(c: SomaCase): string {
    if c.EnsembleTest? then "ensemble"
    else if c.flags == NoFlags then "default"
    else if c.flags == LongOnly then "long"
    else if c.flags == ParticlesOnly then "particles"
    else if c.flags == RestoringOnly then "surface_restoring"
    else if c.flags == ThreeLayerOnly then "three_layer"
    else "other"
  }

  /** The test cases added in one iteration of the resolution loop. */
  function CasesFor(res: string): (r: seq<SomaCase>)
    ensures |r| == if res == ParticlesResolution then 6 else 5
    ensures forall i :: 0 <= i < |r| ==> r[i].resolution == res
  {
    [SomaTest(res, NoFlags), SomaTest(res, LongOnly)]
      + (if res == ParticlesResolution then [SomaTest(res, ParticlesOnly)] else [])
      + [SomaTest(res, RestoringOnly), SomaTest(res, ThreeLayerOnly), EnsembleTest(res, LongOnly)]
  }

  /** The resolution loop, in list order. */
  function Enumerate(resolutions: seq<string>): (r: seq<SomaCase>)
    ensures |r| == 5 * |resolutions| + multiset(resolutions)[ParticlesResolution]
    ensures forall i :: 0 <= i < |r| ==> r[i].resolution in resolutions
    decreases |resolutions|
  {
    if |resolutions| == 0 then []
    else
      assert resolutions == [resolutions[0]] + resolutions[1..];
      var rest := Enumerate(resolutions[1..]);
      var r := CasesFor(resolutions[0]) + rest;
      assert forall i :: |CasesFor(resolutions[0])| <= i < |r| ==> r[i] == rest[i - |CasesFor(resolutions[0])|];
      r
  }

  function Group(): seq<SomaCase> {
    Enumerate(Resolutions)
  }

  // ---------------------------------------------------------------------
  // Properties
  // ---------------------------------------------------------------------

  /** Within one resolution: default, long, particles (32 km only),
      surface restoring, three layer, then the ensemble. */
  lemma WithinResolutionOrder(res: string)
    ensures var r := CasesFor(res);
      var p := if res == ParticlesResolution then 1 else 0;
      && Label(r[0]) == "default" && Label(r[1]) == "long"
      && (p == 1 ==> Label(r[2]) == "particles")
      && Label(r[2 + p]) == "surface_restoring" && Label(r[3 + p]) == "three_layer"
      && Label(r[4 + p]) == "ensemble"
      && (forall i :: 0 <= i < |r| ==> (Label(r[i]) == "particles" <==> p == 1 && i == 2))
  {
  }

  /** The rules every case of the group keeps: a single test case sets at
      most one flag, particles appear only at 32 km, and the ensemble is
      long with no other flag. */
  predicate KeepsRules(c: SomaCase) {
    && (c.SomaTest? ==> FlagCount(c.flags) <= 1)
    && (c.flags.withParticles ==> c.resolution == ParticlesResolution)
    && (c.EnsembleTest? ==> c.flags == LongOnly)
  }

  lemma CasesForKeepRules(res: string)
    ensures forall i :: 0 <= i < |CasesFor(res)| ==> KeepsRules(CasesFor(res)[i])
  {
  }

  lemma EnumerateUnfold(resolutions: seq<string>)
    requires |resolutions| > 0
    ensures Enumerate(resolutions) == CasesFor(resolutions[0]) + Enumerate(resolutions[1..])
  {
  }

  /** Every case of any resolution loop keeps the rules, and so every
      ensemble is named 'ensemble_long'. */
  lemma {:induction false} EnumerateCases(resolutions: seq<string>)
    ensures var r := Enumerate(resolutions);
      forall i :: 0 <= i < |r| ==>
        KeepsRules(r[i]) && (r[i].EnsembleTest? ==> EnsembleName(r[i].flags) == "ensemble_long")
    decreases |resolutions|
  {
    if |resolutions| > 0 {
      EnumerateCases(resolutions[1..]);
      CasesForWellNamed(resolutions[0]);
      EnumerateUnfold(resolutions);
      AppendWellNamed(CasesFor(resolutions[0]), Enumerate(resolutions[1..]));
    }
  }

  /** A case that keeps the rules and, if it is the ensemble, is named
      'ensemble_long'. */
  predicate WellNamed(c: SomaCase) {
    KeepsRules(c) && (c.EnsembleTest? ==> EnsembleName(c.flags) == "ensemble_long")
  }

  lemma CasesForWellNamed(res: string)
    ensures forall i :: 0 <= i < |CasesFor(res)| ==> WellNamed(CasesFor(res)[i])
  {
    CasesForKeepRules(res);
    assert EnsembleName(LongOnly) == "ensemble_long";
  }

  lemma AppendWellNamed(a: seq<SomaCase>, b: seq<SomaCase>)
    requires forall i :: 0 <= i < |a| ==> WellNamed(a[i])
    requires forall i :: 0 <= i < |b| ==> WellNamed(b[i])
    ensures forall i :: 0 <= i < |a + b| ==> WellNamed((a + b)[i])
  {
    forall i | 0 <= i < |a + b| ensures WellNamed((a + b)[i]) {
      if i >= |a| {
        assert (a + b)[i] == b[i - |a|];
      }
    }
  }

  /** Resolution `i` owns the block of cases starting at `5 * i`: the
      loop visits 4 km, 8 km, 16 km and 32 km in that order. */
  lemma ResolutionBlocks()
    ensures |Group()| == 21
    ensures Group()[0..5] == CasesFor("4km")
    ensures Group()[5..10] == CasesFor("8km")
    ensures Group()[10..15] == CasesFor("16km")
    ensures Group()[15..21] == CasesFor("32km")
  {
    var c0, c1, c2, c3 := CasesFor("4km"), CasesFor("8km"), CasesFor("16km"), CasesFor("32km");
    assert |c0| == 5 && |c1| == 5 by {
      assert |"4km"| != |ParticlesResolution| && |"8km"| != |ParticlesResolution|;
    }
    assert |c2| == 5 by {
      assert "16km"[1] != ParticlesResolution[1];
    }
    GroupUnfolded();
    assert Group() == c0 + c1 + c2 + c3;
    assert (c0 + c1 + c2 + c3)[0..5] == c0;
    assert (c0 + c1 + c2 + c3)[5..10] == c1;
    assert (c0 + c1 + c2 + c3)[10..15] == c2;
    assert (c0 + c1 + c2 + c3)[15..21] == c3;
  }

  lemma GroupUnfolded()
    ensures Group() == CasesFor("4km") + CasesFor("8km") + CasesFor("16km") + CasesFor("32km")
  {
    var rs := Resolutions;
    var r1: seq<string> := ["8km", "16km", "32km"];
    var r2: seq<string> := ["16km", "32km"];
    var r3: seq<string> := ["32km"];
    assert rs[1..] == r1;
    assert r1[1..] == r2;
    assert r2[1..] == r3;
    assert r3[1..] == [];
    EnumerateUnfold(r3);
    assert Enumerate(r3) == CasesFor("32km");
    EnumerateUnfold(r2);
    assert Enumerate(r2) == CasesFor("16km") + CasesFor("32km");
    EnumerateUnfold(r1);
    EnumerateUnfold(rs);
  }

  lemma ParticlesInBlock(res: string)
    ensures forall i :: 0 <= i < |CasesFor(res)| ==>
      (CasesFor(res)[i].flags.withParticles <==> res == ParticlesResolution && i == 2)
  {
  }

  /** The group has 21 test cases and exactly one has particles, at 32 km. */
  lemma GroupCounts()
    ensures |Group()| == 21
    ensures forall i :: 0 <= i < 21 ==> (Group()[i].flags.withParticles <==> i == 17)
    ensures Group()[17] == SomaTest(ParticlesResolution, ParticlesOnly)
  {
    ParticlesOnlyAt17();
    ParticlesCaseAt17();
  }

  lemma ParticlesOnlyAt17()
    ensures |Group()| == 21
    ensures forall i :: 0 <= i < 21 ==> (Group()[i].flags.withParticles <==> i == 17)
  {
    ResolutionBlocks();
    var g := Group();
    OtherResolutions();
    BlockParticles(g, 0, 5, "4km");
    BlockParticles(g, 5, 10, "8km");
    BlockParticles(g, 10, 15, "16km");
    BlockParticles(g, 15, 21, "32km");
  }

  lemma OtherResolutions()
    ensures "4km" != ParticlesResolution && "8km" != ParticlesResolution && "16km" != ParticlesResolution
  {
    assert |"4km"| != |ParticlesResolution| && |"8km"| != |ParticlesResolution|;
    assert "16km"[1] != ParticlesResolution[1];
  }

  lemma ParticlesCaseAt17()
    ensures |Group()| == 21
    ensures Group()[17] == SomaTest(ParticlesResolution, ParticlesOnly)
  {
    ResolutionBlocks();
    ParticlesThird();
    var g := Group();
    assert g[17] == g[15..21][2];
  }

  lemma ParticlesThird()
    ensures |CasesFor(ParticlesResolution)| == 6
    ensures CasesFor(ParticlesResolution)[2] == SomaTest(ParticlesResolution, ParticlesOnly)
  {
  }

  /** A block of the group that is one resolution's cases has its particles
      case, if any, third. */
  lemma BlockParticles(g: seq<SomaCase>, lo: int, hi: int, res: string)
    requires 0 <= lo <= hi <= |g| && g[lo..hi] == CasesFor(res)
    ensures forall i :: lo <= i < hi ==> (g[i].flags.withParticles <==> res == ParticlesResolution && i == lo + 2)
  {
    ParticlesInBlock(res);
    forall i | lo <= i < hi ensures g[i] == CasesFor(res)[i - lo] {
      assert g[i] == g[lo..hi][i - lo];
    }
  }
}

=== FILE: strings.dfy ===
/** The handful of Python string operations the modelled scripts rely on:
    `str.find`, `str(int)`, `int(str)`, `sep.join`, `str.split(sep)` and
    `str.replace(c, '')`, each with the law that pins it down. */
module Strings {
  import opened Outcomes

  // ---------------------------------------------------------------------
  // Substring search (`str.find`)
  // ---------------------------------------------------------------------

  /** `sub` occurs in `s` starting at index `i`. */
  predicate OccursAt(s: string, sub: string, i: int) {
    0 <= i && i + |sub| <= |s| && s[i..i + |sub|] == sub
  }

  /** Lowest index `>= k` at which `sub` occurs in `s`, or -1. */
  function FindFrom(s: string, sub: string, k: nat): (r: int)
    requires k <= |s|
    ensures r == -1 || (k <= r <= |s| && OccursAt(s, sub, r))
    ensures r >= 0 ==> forall j :: k <= j < r ==> !OccursAt(s, sub, j)
    ensures r == -1 ==> forall j :: k <= j ==> !OccursAt(s, sub, j)
    decreases |s| - k
  {
    if OccursAt(s, sub, k) then k
    else if k == |s| then -1
    else FindFrom(s, sub, k + 1)
  }

  /** Python's `s.find(sub)`: the first occurrence, or -1 when there is none. */
  function Find(s: string, sub: string): (r: int)
    ensures r >= 0 <==> exists i :: OccursAt(s, sub, i)
    ensures r >= 0 ==> OccursAt(s, sub, r) && forall j :: 0 <= j < r ==> !OccursAt(s, sub, j)
  {
    FindFrom(s, sub, 0)
  }

  /** The test `s.find(sub) >= 0` the scripts use for "the line mentions the key". */
  predicate Contains(s: string, sub: string)
    ensures Contains(s, sub) <==> exists i :: OccursAt(s, sub, i)
  {
    Find(s, sub) >= 0
  }

  lemma ContainsInfix(a: string, sub: string, b: string)
    ensures Contains(a + sub + b, sub)
  {
    var s := a + sub + b;
    assert s[|a|..|a| + |sub|] == sub;
    assert OccursAt(s, sub, |a|);
  }

  /** Text before an occurrence does not hide it. */
  lemma ContainsAfterPrefix(p: string, s: string, sub: string)
    requires Contains(s, sub)
    ensures Contains(p + s, sub)
  {
    var i :| OccursAt(s, sub, i);
    assert (p + s)[|p| + i..|p| + i + |sub|] == s[i..i + |sub|];
    assert OccursAt(p + s, sub, |p| + i);
  }

  /** `s` never holds the character `c`. */
  predicate Lacks(s: string, c: char) {
    forall i :: 0 <= i < |s| ==> s[i] != c
  }

  /** `s` never holds `x` immediately followed by `y`. */
  predicate LacksPair(s: string, x: char, y: char) {
    forall i :: 0 <= i < |s| - 1 ==> !(s[i] == x && s[i + 1] == y)
  }

  lemma AbsentLacks(s: string, c: char)
    requires c !in s
    ensures Lacks(s, c)
  {
  }

  lemma LacksPairConcat(a: string, b: string, x: char, y: char)
    requires LacksPair(a, x, y) && LacksPair(b, x, y)
    requires |a| == 0 || |b| == 0 || a[|a| - 1] != x || b[0] != y
    ensures LacksPair(a + b, x, y)
  {
    forall i | 0 <= i < |a + b| - 1 ensures !((a + b)[i] == x && (a + b)[i + 1] == y) {
      if i >= |a| {
        assert (a + b)[i] == b[i - |a|] && (a + b)[i + 1] == b[i + 1 - |a|];
      } else if i + 1 < |a| {
        assert (a + b)[i] == a[i] && (a + b)[i + 1] == a[i + 1];
      }
    }
  }

  lemma LacksConcat(a: string, b: string, c: char)
    requires Lacks(a, c) && Lacks(b, c)
    ensures Lacks(a + b, c)
  {
    forall i | 0 <= i < |a + b| ensures (a + b)[i] != c {
      if i >= |a| {
        assert (a + b)[i] == b[i - |a|];
      }
    }
  }

  /** A character of `sub` that `s` lacks rules out every occurrence. */
  lemma NotContainsByChar(s: string, sub: string, k: int)
    requires 0 <= k < |sub| && Lacks(s, sub[k])
    ensures !Contains(s, sub)
  {
    forall i ensures !OccursAt(s, sub, i) {
      if 0 <= i && i + |sub| <= |s| {
        assert s[i..i + |sub|][k] == s[i + k] != sub[k];
      }
    }
  }

  /** So does a pair of adjacent characters of `sub` that never appears in `s`. */
  lemma NotContainsByPair(s: string, sub: string, k: int)
    requires 0 <= k < |sub| - 1 && LacksPair(s, sub[k], sub[k + 1])
    ensures !Contains(s, sub)
  {
    forall i ensures !OccursAt(s, sub, i) {
      if 0 <= i && i + |sub| <= |s| {
        assert s[i..i + |sub|][k] == s[i + k];
        assert s[i..i + |sub|][k + 1] == s[i + k + 1];
      }
    }
  }

  // ---------------------------------------------------------------------
  // Decimal numerals (`str(int)` and `int(str)`)
  // ---------------------------------------------------------------------

  predicate IsDigit(c: char) {
    '0' <= c <= '9'
  }

  predicate AllDigits(s: string) {
    forall i :: 0 <= i < |s| ==> IsDigit(s[i])
  }

  function DigitValue(c: char): (d: nat)
    requires IsDigit(c)
    ensures d < 10
  {
    (c as int) - ('0' as int)
  }

  function DigitChar(d: nat): (c: char)
    requires d < 10
    ensures IsDigit(c) && DigitValue(c) == d
  {
    (('0' as int) + d) as char
  }

  /** The value of a string of decimal digits, most significant first. */
  function DigitsValue(s: string): nat
    requires AllDigits(s)
  {
    if |s| == 0 then 0 else 10 * DigitsValue(s[..|s| - 1]) + DigitValue(s[|s| - 1])
  }

  /** Python's `str(n)` for a non-negative integer: digits with no leading zero. */
  function NatToString(n: nat): (r: string)
    ensures |r| >= 1 && AllDigits(r)
    ensures r[0] == '0' ==> n == 0
    decreases n
  {
    if n < 10 then [DigitChar(n)] else NatToString(n / 10) + [DigitChar(n % 10)]
  }

  lemma {:induction false} NatToStringRoundTrip(n: nat)
    ensures DigitsValue(NatToString(n)) == n
    decreases n
  {
    if n >= 10 {
      var r := NatToString(n);
      NatToStringRoundTrip(n / 10);
      assert r[..|r| - 1] == NatToString(n / 10);
    }
  }

  /** Python's `str(n)` for any integer. */
  function IntToString(n: int): string {
    if n < 0 then "-" + NatToString(-n) else NatToString(n)
  }

  /** `str(n)` is made of digits and at most a leading minus sign. */
  lemma IntToStringChars(n: int, c: char)
    requires c != '-' && !IsDigit(c)
    ensures Lacks(IntToString(n), c)
  {
    var d := NatToString(if n < 0 then -n else n);
    forall i | 0 <= i < |d| ensures d[i] != c {
      assert IsDigit(d[i]);
    }
    if n < 0 {
      LacksConcat("-", d, c);
    }
  }

  /** Python's `int(s)` on an optionally signed run of decimal digits. */
  function ParseInt(s: string): Result<int> {
    if |s| >= 2 && s[0] == '-' && AllDigits(s[1..]) then Ok(0 - DigitsValue(s[1..]) as int)
    else if |s| >= 2 && s[0] == '+' && AllDigits(s[1..]) then Ok(DigitsValue(s[1..]))
    else if |s| >= 1 && AllDigits(s) then Ok(DigitsValue(s))
    else Err("ValueError: invalid literal for int() with base 10")
  }

  lemma IntToStringRoundTrip(n: int)
    ensures ParseInt(IntToString(n)) == Ok(n)
  {
    if n < 0 {
      NegativeRoundTrip(n);
    } else {
      NatRoundTrip(n);
    }
  }

  lemma NatRoundTrip(n: nat)
    ensures ParseInt(NatToString(n)) == Ok(n)
  {
    var d := NatToString(n);
    NatToStringRoundTrip(n);
    assert IsDigit(d[0]);
    assert d[0] != '-' && d[0] != '+';
  }

  lemma NegativeRoundTrip(n: int)
    requires n < 0
    ensures ParseInt(IntToString(n)) == Ok(n)
  {
    var d := NatToString(-n);
    var s := IntToString(n);
    NatToStringRoundTrip(-n);
    assert s == "-" + d && s[0] == '-' && s[1..] == d;
  }

  /** Distinct integers print differently. */
  lemma IntToStringInjective(m: int, n: int)
    requires IntToString(m) == IntToString(n)
    ensures m == n
  {
    IntToStringRoundTrip(m);
    IntToStringRoundTrip(n);
  }

  // ---------------------------------------------------------------------
  // Joining and splitting (`sep.join(parts)` and `s.split(sep)`)
  // ---------------------------------------------------------------------

  /** Python's `sep.join(parts)`: separators between parts, none at the ends. */
  function Join(parts: seq<string>, sep: string): string {
    if |parts| == 0 then ""
    else if |parts| == 1 then parts[0]
    else parts[0] + sep + Join(parts[1..], sep)
  }

  /** Python's `s.split(sep)` for a one-character separator: at least one
      piece, none of them containing the separator. */
  function Split(s: string, sep: char): (r: seq<string>)
    ensures |r| >= 1
    ensures forall i :: 0 <= i < |r| ==> sep !in r[i]
    decreases |s|
  {
    if |s| == 0 then [""]
    else
      var rest := Split(s[1..], sep);
      if s[0] == sep then [""] + rest
      else [[s[0]] + rest[0]] + rest[1..]
  }

  /** A split has one more piece than the text has separators. */
  lemma {:induction false} SplitCount(s: string, sep: char)
    ensures |Split(s, sep)| == multiset(s)[sep] + 1
    decreases |s|
  {
    if |s| > 0 {
      SplitCount(s[1..], sep);
      assert s == [s[0]] + s[1..];
      assert multiset(s) == multiset([s[0]]) + multiset(s[1..]);
    }
  }

  lemma JoinCons(p: string, parts: seq<string>, sep: string)
    requires |parts| >= 1
    ensures Join([p] + parts, sep) == p + sep + Join(parts, sep)
  {
    assert ([p] + parts)[1..] == parts;
  }

  lemma JoinHeadExtend(c: char, r0: string, tail: seq<string>, sep: string)
    ensures Join([[c] + r0] + tail, sep) == [c] + Join([r0] + tail, sep)
  {
    if |tail| > 0 {
      JoinCons([c] + r0, tail, sep);
      JoinCons(r0, tail, sep);
    }
  }

  /** Joining the pieces of a split gives back the original text. */
  lemma {:induction false} SplitThenJoin(s: string, sep: char)
    ensures Join(Split(s, sep), [sep]) == s
    decreases |s|
  {
    if |s| > 0 {
      var rest := Split(s[1..], sep);
      SplitThenJoin(s[1..], sep);
      assert s == [s[0]] + s[1..];
      if s[0] == sep {
        assert Split(s, sep) == [""] + rest;
        JoinCons("", rest, [sep]);
      } else {
        assert Split(s, sep) == [[s[0]] + rest[0]] + rest[1..];
        JoinHeadExtend(s[0], rest[0], rest[1..], [sep]);
        assert [rest[0]] + rest[1..] == rest;
      }
    }
  }

  /** Splitting `p + t` where `p` holds no separator glues `p` to the first piece of `t`. */
  lemma {:induction false} SplitPrefix(p: string, t: string, sep: char)
    requires sep !in p
    ensures Split(p + t, sep) == [p + Split(t, sep)[0]] + Split(t, sep)[1..]
    decreases |p|
  {
    if |p| > 0 {
      var st := Split(t, sep);
      SplitPrefix(p[1..], t, sep);
      assert (p + t)[1..] == p[1..] + t;
      var rest := Split(p[1..] + t, sep);
      assert rest == [p[1..] + st[0]] + st[1..];
      assert (p + t)[0] == p[0] != sep;
      assert Split(p + t, sep) == [[p[0]] + rest[0]] + rest[1..];
      assert [p[0]] + (p[1..] + st[0]) == p + st[0];
    } else {
      var st := Split(t, sep);
      assert p + t == t && p + st[0] == st[0];
      assert st == [st[0]] + st[1..];
    }
  }

  /** Splitting a join of separator-free pieces gives back the pieces. */
  lemma {:induction false} JoinThenSplit(parts: seq<string>, sep: char)
    requires |parts| >= 1
    requires forall i :: 0 <= i < |parts| ==> sep !in parts[i]
    ensures Split(Join(parts, [sep]), sep) == parts
    decreases |parts|
  {
    if |parts| == 1 {
      SplitPrefix(parts[0], "", sep);
      assert parts[0] + "" == parts[0];
    } else {
      var t := Join(parts[1..], [sep]);
      JoinThenSplit(parts[1..], sep);
      assert Join(parts, [sep]) == parts[0] + ([sep] + t);
      SplitPrefix(parts[0], [sep] + t, sep);
      assert ([sep] + t)[1..] == t;
      assert Split([sep] + t, sep) == [""] + parts[1..];
      assert parts[0] + "" == parts[0];
      assert parts == [parts[0]] + parts[1..];
    }
  }

  /** `s` holds none of the characters in `cs`. */
  predicate Avoids(s: string, cs: set<char>) {
    forall i :: 0 <= i < |s| ==> s[i] !in cs
  }

  lemma AvoidsFromAbsent(s: string, cs: set<char>)
    requires forall c :: c in cs ==> c !in s
    ensures Avoids(s, cs)
  {
    forall i | 0 <= i < |s| ensures s[i] !in cs {
      assert s[i] in s;
    }
  }

  lemma AvoidsAdd(s: string, cs: set<char>, c: char)
    requires Avoids(s, cs) && c !in s
    ensures Avoids(s, cs + {c})
  {
    forall i | 0 <= i < |s| ensures s[i] !in cs + {c} {
      assert s[i] in s;
    }
  }

  /** A join of pieces that avoid a set of characters, with a separator
      outside the set, avoids the set too. */
  lemma {:induction false} JoinAvoids(parts: seq<string>, sep: char, cs: set<char>)
    requires sep !in cs
    requires forall k :: 0 <= k < |parts| ==> Avoids(parts[k], cs)
    ensures Avoids(Join(parts, [sep]), cs)
    decreases |parts|
  {
    if |parts| > 1 {
      JoinAvoids(parts[1..], sep, cs);
      var t := Join(parts[1..], [sep]);
      var j := parts[0] + [sep] + t;
      assert Join(parts, [sep]) == j;
      forall i | 0 <= i < |j| ensures j[i] !in cs {
        if i < |parts[0]| {
          assert j[i] == parts[0][i];
        } else if i > |parts[0]| {
          assert j[i] == t[i - |parts[0]| - 1];
        }
      }
    }
  }

  /** The pieces of a split avoid whatever the text avoids. */
  lemma {:induction false} SplitAvoids(s: string, sep: char, cs: set<char>)
    requires Avoids(s, cs)
    ensures forall k :: 0 <= k < |Split(s, sep)| ==> Avoids(Split(s, sep)[k], cs)
    decreases |s|
  {
    if |s| > 0 {
      SplitAvoids(s[1..], sep, cs);
      var rest := Split(s[1..], sep);
      var r := Split(s, sep);
      if s[0] == sep {
        assert r == [""] + rest;
        assert forall k :: 1 <= k < |r| ==> r[k] == rest[k - 1];
      } else {
        assert r == [[s[0]] + rest[0]] + rest[1..];
        assert forall k :: 1 <= k < |r| ==> r[k] == rest[k];
        var h := [s[0]] + rest[0];
        assert forall i :: 1 <= i < |h| ==> h[i] == rest[0][i - 1];
      }
    }
  }

  // ---------------------------------------------------------------------
  // Deleting characters (`s.replace(c, '')`)
  // ---------------------------------------------------------------------

  /** `s` with every character of `cs` deleted, the rest kept in order. */
  function RemoveChars(s: string, cs: set<char>): (r: string)
    ensures forall i :: 0 <= i < |r| ==> r[i] !in cs
    ensures forall c :: c !in cs ==> multiset(r)[c] == multiset(s)[c]
    decreases |s|
  {
    if |s| == 0 then ""
    else
      var rest := RemoveChars(s[1..], cs);
      assert multiset(s) == multiset([s[0]]) + multiset(s[1..]) by {
        assert s == [s[0]] + s[1..];
      }
      if s[0] in cs then rest else [s[0]] + rest
  }

  /** Deleting from a concatenation deletes from each part and keeps the
      parts in order. */
  lemma {:induction false} RemoveCharsAppend(a: string, b: string, cs: set<char>)
    ensures RemoveChars(a + b, cs) == RemoveChars(a, cs) + RemoveChars(b, cs)
    decreases |a|
  {
    if |a| == 0 {
      assert a + b == b;
    } else {
      var ab := a + b;
      assert ab[0] == a[0] && ab[1..] == a[1..] + b;
      RemoveCharsAppend(a[1..], b, cs);
      var ra, rb := RemoveChars(a[1..], cs), RemoveChars(b, cs);
      assert RemoveChars(ab[1..], cs) == ra + rb;
      if a[0] !in cs {
        assert [a[0]] + (ra + rb) == [a[0]] + ra + rb;
      }
    }
  }

  /** A single character is dropped exactly when it is one of the deleted ones. */
  lemma RemoveCharsOne(c: char, cs: set<char>)
    ensures RemoveChars([c], cs) == if c in cs then "" else [c]
  {
    assert [c][1..] == "";
  }

  /** Python's `s.replace(c, '')`. */
  function RemoveChar(s: string, c: char): string {
    RemoveChars(s, {c})
  }

  /** Text that holds none of the deleted characters passes through unchanged. */
  lemma {:induction false} RemoveCharsClean(s: string, cs: set<char>)
    requires forall i :: 0 <= i < |s| ==> s[i] !in cs
    ensures RemoveChars(s, cs) == s
    decreases |s|
  {
    if |s| > 0 {
      RemoveCharsClean(s[1..], cs);
    }
  }

  /** Deleting one more character after a batch equals deleting them all at once. */
  lemma {:induction false} RemoveCharsCompose(s: string, cs: set<char>, c: char)
    ensures RemoveChar(RemoveChars(s, cs), c) == RemoveChars(s, cs + {c})
    decreases |s|
  {
    if |s| > 0 {
      RemoveCharsCompose(s[1..], cs, c);
      var rest := RemoveChars(s[1..], cs);
      if s[0] !in cs {
        assert ([s[0]] + rest)[1..] == rest;
      }
    }
  }

  // ---------------------------------------------------------------------
  // Paths joined with a separator (`f'{a}/{b}'`)
  // ---------------------------------------------------------------------

  /** A separator-joined pair determines both parts when the first part does
      not hold the separator. */
  lemma SplitAtSeparator(a: string, b: string, c: string, d: string, sep: char)
    requires Lacks(a, sep) && Lacks(c, sep)
    requires a + [sep] + b == c + [sep] + d
    ensures a == c && b == d
  {
    var s := a + [sep] + b;
    assert s[|a|] == sep && s[|c|] == sep;
    assert forall j :: 0 <= j < |a| ==> s[j] == a[j];
    assert forall j :: 0 <= j < |c| ==> s[j] == c[j];
    assert |a| == |c|;
    assert a == s[..|a|] == c;
    assert b == s[|a| + 1..] == d;
  }
}

=== FILE: text_lines.dfy ===
/** Reading a text file as lines (`f.read().splitlines()`) and writing
    lines back (`f.write('\n'.join(lines))`), with the round trips between them. */
module TextLines {
  import opened Strings

  /** The characters Python's `str.splitlines` treats as line boundaries;
      the pair "\r\n" counts as a single boundary. */
  predicate IsLineBreak(c: char) {
    c in {'\n', '\r', '\U{000B}', '\U{000C}', '\U{001C}', '\U{001D}', '\U{001E}',
          '\U{0085}', '\U{2028}', '\U{2029}'}
  }

  predicate NoBreaks(s: string) {
    forall i :: 0 <= i < |s| ==> !IsLineBreak(s[i])
  }

  /** Printable ASCII, which holds no line break. */
  predicate Printable(s: string) {
    forall i :: 0 <= i < |s| ==> ' ' <= s[i] <= '~'
  }

  lemma PrintableNoBreaks(s: string)
    requires Printable(s)
    ensures NoBreaks(s)
  {
  }

  predicate AllNoBreaks(lines: seq<string>) {
    forall i :: 0 <= i < |lines| ==> NoBreaks(lines[i])
  }

  /** `splitlines` with `cur` the part of the current line already read. */
  function SplitLinesFrom(s: string, cur: string): (r: seq<string>)
    requires NoBreaks(cur)
    ensures AllNoBreaks(r)
    decreases |s|
  {
    if |s| == 0 then (if |cur| == 0 then [] else [cur])
    else if s[0] == '\r' && |s| >= 2 && s[1] == '\n' then [cur] + SplitLinesFrom(s[2..], "")
    else if IsLineBreak(s[0]) then [cur] + SplitLinesFrom(s[1..], "")
    else SplitLinesFrom(s[1..], cur + [s[0]])
  }

  /** Python's `s.splitlines()`: a final line break does not open an empty last line. */
  function SplitLines(s: string): seq<string> {
    SplitLinesFrom(s, "")
  }

  /** The text `'\n'.join(lines)` written back to the file: no trailing newline. */
  function WriteLines(lines: seq<string>): string {
    Join(lines, "\n")
  }

  predicate LastLineNonEmpty(lines: seq<string>) {
    |lines| == 0 || lines[|lines| - 1] != ""
  }

  lemma {:induction false} SplitLinesAbsorb(t: string, rest: string, cur: string)
    requires NoBreaks(t) && NoBreaks(cur)
    ensures NoBreaks(cur + t)
    ensures SplitLinesFrom(t + rest, cur) == SplitLinesFrom(rest, cur + t)
    decreases |t|
  {
    if |t| > 0 {
      assert (t + rest)[1..] == t[1..] + rest;
      assert cur + [t[0]] + t[1..] == cur + t;
      SplitLinesAbsorb(t[1..], rest, cur + [t[0]]);
    } else {
      assert t + rest == rest && cur + t == cur;
    }
  }

  lemma SplitLinesNewline(rest: string, cur: string)
    requires NoBreaks(cur)
    ensures SplitLinesFrom("\n" + rest, cur) == [cur] + SplitLinesFrom(rest, "")
  {
    assert ("\n" + rest)[1..] == rest;
  }

  lemma {:induction false} SplitLinesNonEmpty(s: string, cur: string)
    requires NoBreaks(cur) && (|s| > 0 || |cur| > 0)
    ensures |SplitLinesFrom(s, cur)| >= 1
    decreases |s|
  {
    if |s| > 0 && !IsLineBreak(s[0]) {
      SplitLinesNonEmpty(s[1..], cur + [s[0]]);
    }
  }

  /** Reading back what was written gives the same lines, provided no line
      holds a line break and the last line is not empty. */
  lemma {:induction false} ReadBackWritten(lines: seq<string>)
    requires AllNoBreaks(lines) && LastLineNonEmpty(lines)
    ensures SplitLines(WriteLines(lines)) == lines
    decreases |lines|
  {
    if |lines| == 1 {
      SplitLinesAbsorb(lines[0], "", "");
      assert lines[0] + "" == lines[0] && "" + lines[0] == lines[0];
    } else if |lines| > 1 {
      var j := WriteLines(lines[1..]);
      ReadBackWritten(lines[1..]);
      assert WriteLines(lines) == lines[0] + ("\n" + j);
      SplitLinesAbsorb(lines[0], "\n" + j, "");
      assert "" + lines[0] == lines[0];
      SplitLinesNewline(j, lines[0]);
      assert lines == [lines[0]] + lines[1..];
    }
  }

  /** Text whose only line breaks are "\n" and which does not end with one. */
  predicate PlainText(s: string) {
    && (forall i :: 0 <= i < |s| && IsLineBreak(s[i]) ==> s[i] == '\n')
    && (|s| == 0 || s[|s| - 1] != '\n')
  }

  lemma {:induction false} WriteBackReadFrom(s: string, cur: string)
    requires NoBreaks(cur) && PlainText(s)
    ensures WriteLines(SplitLinesFrom(s, cur)) == cur + s
    decreases |s|
  {
    if |s| == 0 {
      assert cur + s == cur;
    } else if s[0] == '\n' {
      assert s[1..][|s[1..]| - 1] == s[|s| - 1];
      SplitLinesNonEmpty(s[1..], "");
      WriteBackReadFrom(s[1..], "");
      JoinCons(cur, SplitLinesFrom(s[1..], ""), "\n");
      assert cur + "\n" + ("" + s[1..]) == cur + s;
    } else {
      assert |s| >= 2 ==> s[1..][|s[1..]| - 1] == s[|s| - 1];
      WriteBackReadFrom(s[1..], cur + [s[0]]);
      assert cur + [s[0]] + s[1..] == cur + s;
    }
  }

  /** Writing what was read reproduces text that uses only "\n" breaks and
      does not end with one. */
  lemma WriteBackRead(s: string)
    requires PlainText(s)
    ensures WriteLines(SplitLines(s)) == s
  {
    WriteBackReadFrom(s, "");
  }

  /** Lines whose last one is blank are read back without it: writing
      `["a", ""]` gives `"a\n"`, which reads as `["a"]`, so each write and
      read drops one trailing blank line. */
  lemma {:induction false} TrailingBlankLineDropped(lines: seq<string>)
    requires AllNoBreaks(lines) && |lines| >= 1 && lines[|lines| - 1] == ""
    ensures SplitLines(WriteLines(lines)) == lines[..|lines| - 1]
    decreases |lines|
  {
    if |lines| == 1 {
      assert WriteLines(lines) == "";
    } else {
      var rest := lines[1..];
      var j := WriteLines(rest);
      TrailingBlankLineDropped(rest);
      assert WriteLines(lines) == lines[0] + ("\n" + j);
      SplitLinesAbsorb(lines[0], "\n" + j, "");
      assert "" + lines[0] == lines[0];
      SplitLinesNewline(j, lines[0]);
      assert lines[..|lines| - 1] == [lines[0]] + rest[..|rest| - 1];
    }
  }
}

=== FILE: tides_remap.dfy ===
/** The tides `RemapBathymetry` step: the mesh files it links in, and what
    `run` writes to `bottomDepthObserved` once the remapped bed elevation is
    known, including the clamp outside the floodplain. */
module TidesRemap {
  import opened Outcomes
  import opened Registry

  const RemapName := "remap"
  const PixelFile := "RTopo_2_0_4_GEBCO_v2023_30sec_pixel.nc"
  const ObservedVariable := "bottomDepthObserved"

  datatype RemapStep = RemapStep(
    name: string,
    resources: Resources,
    plot: bool,
    registrations: seq<Registration>,
    limitBathy: bool)

  /** `mesh.steps[key].path`: the directory of a step of the mesh test case. */
  function MeshStepPath(meshSteps: map<string, string>, key: string): (r: Result<string>)
    ensures r.Ok? <==> key in meshSteps
    ensures r.Ok? ==> r.value == meshSteps[key]
    ensures r.Err? ==> r.error == "KeyError: '" + key + "'"
  {
    if key in meshSteps then Ok(meshSteps[key]) else Err("KeyError: '" + key + "'")
  }

  function RemapInputs(cullPath: string, basePath: string, pixelPath: string): seq<Registration> {
    [InputFile("mesh.nc", WorkDir(cullPath + "/culled_mesh.nc")),
     InputFile("base_mesh.nc", WorkDir(basePath + "/base_mesh.nc")),
     InputFile("bathy.nc", WorkDir(pixelPath + "/" + PixelFile))]
  }

  /** `RemapBathymetry(test_case, mesh, limit_bathy_outside_refinement)`:
      one task, one thread, plots on; the mesh steps are looked up in the
      order cull_mesh, base_mesh, pixel, and the first missing one is a
      KeyError. */
  function NewRemap(meshSteps: map<string, string>, limitBathy: bool): (r: Result<RemapStep>)
    ensures r.Ok? <==> "cull_mesh" in meshSteps && "base_mesh" in meshSteps && "pixel" in meshSteps
    ensures "cull_mesh" !in meshSteps ==> r == Err("KeyError: 'cull_mesh'")
    ensures "cull_mesh" in meshSteps && "base_mesh" !in meshSteps ==> r == Err("KeyError: 'base_mesh'")
    ensures "cull_mesh" in meshSteps && "base_mesh" in meshSteps && "pixel" !in meshSteps ==> r == Err("KeyError: 'pixel'")
    ensures r.Ok? ==> (
      && r.value.name == RemapName && r.value.resources == Resources(1, 1, 1)
      && r.value.plot && r.value.limitBathy == limitBathy)
  {
    match MeshStepPath(meshSteps, "cull_mesh")
    case Err(e) => Err(e)
    case Ok(cullPath) =>
      match MeshStepPath(meshSteps, "base_mesh")
      case Err(e) => Err(e)
      case Ok(basePath) =>
        match MeshStepPath(meshSteps, "pixel")
        case Err(e) => Err(e)
        case Ok(pixelPath) =>
          Ok(RemapStep(RemapName, Resources(1, 1, 1), true,
            RemapInputs(cullPath, basePath, pixelPath), limitBathy))
  }

  /** The step links the culled mesh, the base mesh and the pixel
      bathymetry from the mesh test case's steps, relative to the work
      directory, and registers no output and no model. */
  lemma RemapReadsMeshSteps(meshSteps: map<string, string>, limitBathy: bool)
    requires "cull_mesh" in meshSteps && "base_mesh" in meshSteps && "pixel" in meshSteps
    ensures NewRemap(meshSteps, limitBathy).Ok?
    ensures var regs := NewRemap(meshSteps, limitBathy).value.registrations;
      && Inputs(regs)
        == [("mesh.nc", WorkDir(meshSteps["cull_mesh"] + "/culled_mesh.nc")),
            ("base_mesh.nc", WorkDir(meshSteps["base_mesh"] + "/base_mesh.nc")),
            ("bathy.nc", WorkDir(meshSteps["pixel"] + "/" + PixelFile))]
      && Outputs(regs) == []
      && !TakesModel(regs)
  {
    var regs := NewRemap(meshSteps, limitBathy).value.registrations;
    assert regs == [regs[0]] + [regs[1]] + [regs[2]];
    PickAppend([regs[0]] + [regs[1]], [regs[2]], InputSel);
    PickAppend([regs[0]], [regs[1]], InputSel);
    PickAppend([regs[0]] + [regs[1]], [regs[2]], OutputSel);
    PickAppend([regs[0]], [regs[1]], OutputSel);
    PickSingleton(regs[0], InputSel);
    PickSingleton(regs[1], InputSel);
    PickSingleton(regs[2], InputSel);
    PickSingleton(regs[0], OutputSel);
    PickSingleton(regs[1], OutputSel);
    PickSingleton(regs[2], OutputSel);
  }

  // ---------------------------------------------------------------------
  // run
  // ---------------------------------------------------------------------

  /** The variables of the mesh file after `bottomDepthObserved` is
      created, if it was not there yet. */
  function EnsureObserved(variables: seq<string>): (r: seq<string>)
    ensures ObservedVariable in r
    ensures |variables| <= |r| <= |variables| + 1 && r[..|variables|] == variables
    ensures ObservedVariable in variables ==> r == variables
  {
    if ObservedVariable in variables then variables else variables + [ObservedVariable]
  }

  /** Creating the variable a second time changes nothing. */
  lemma EnsureObservedIdempotent(variables: seq<string>)
    ensures EnsureObserved(EnsureObserved(variables)) == EnsureObserved(variables)
    ensures |EnsureObserved(variables)| == |variables| + (if ObservedVariable in variables then 0 else 1)
  {
  }

  /** Used when the config has no `floodplain_resolution` option. */
  const DefaultFloodplainResolution: real := 10000000000.0

  /** The `spherical_mesh` option `floodplain_resolution`, in km, if set. */
  function FloodplainResolution(option: Option<real>): (r: real)
    ensures option.Some? ==> r == option.value
    ensures option.None? ==> r == DefaultFloodplainResolution
  {
    match option
    case Some(x) => x
    case None => DefaultFloodplainResolution
  }

  /** The depth every cell outside the floodplain is pushed below. */
  const Shallowest: real := -0.1

  /** `np.minimum(x, -0.1)`. */
  function Clamp(x: real): (r: real)
    ensures r <= x && r <= Shallowest
    ensures r == x || r == Shallowest
  {
    if x < Shallowest then x else Shallowest
  }

  /** A cell is floodplain exactly when its size, in km, is below the
      floodplain resolution. */
  predicate Floodplain(h: real, resolution: real) {
    h < resolution
  }

  /** `bottomDepthObserved[~floodplain] = np.minimum(...)`: cells outside
      the floodplain are clamped, floodplain cells kept; a mask of another
      length is numpy's IndexError. */
  function LimitBathymetry(bed: seq<real>, h: seq<real>, resolution: real): (r: Result<seq<real>>)
    ensures r.Ok? <==> |bed| == |h|
    ensures r.Ok? ==> |r.value| == |bed|
    ensures r.Ok? ==> forall i :: 0 <= i < |bed| ==>
      (if Floodplain(h[i], resolution) then r.value[i] == bed[i]
       else r.value[i] <= bed[i] && r.value[i] <= Shallowest && (r.value[i] == bed[i] || r.value[i] == Shallowest))
  {
    if |bed| != |h| then Err("IndexError: boolean index did not match indexed array")
    else Ok(seq(|bed|, i requires 0 <= i < |bed| =>
      if Floodplain(h[i], resolution) then bed[i] else Clamp(bed[i])))
  }

  /** The limited bathymetry never rises above the remapped one, is at most
      -0.1 outside the floodplain, and limiting again changes nothing. */
  lemma LimitProperties(bed: seq<real>, h: seq<real>, resolution: real)
    requires |bed| == |h|
    ensures var r := LimitBathymetry(bed, h, resolution).value;
      && (forall i :: 0 <= i < |bed| ==> r[i] <= bed[i])
      && (forall i :: 0 <= i < |bed| && !Floodplain(h[i], resolution) ==> r[i] <= Shallowest)
      && LimitBathymetry(r, h, resolution) == Ok(r)
  {
    var r := LimitBathymetry(bed, h, resolution).value;
    var r2 := LimitBathymetry(r, h, resolution).value;
    forall i | 0 <= i < |bed| ensures r2[i] == r[i] {
      if !Floodplain(h[i], resolution) {
        assert r[i] <= Shallowest;
      }
    }
    assert r2 == r;
  }

  /** Where every cell is floodplain, nothing is clamped: with the default
      resolution, that is every cell smaller than 10^10 km. */
  lemma AllFloodplainUnchanged(bed: seq<real>, h: seq<real>, resolution: real)
    requires |bed| == |h|
    requires forall i :: 0 <= i < |h| ==> h[i] < resolution
    ensures LimitBathymetry(bed, h, resolution) == Ok(bed)
  {
    var r := LimitBathymetry(bed, h, resolution).value;
    assert forall i :: 0 <= i < |bed| ==> r[i] == bed[i];
    assert r == bed;
  }

  datatype RunOutput = RunOutput(variables: seq<string>, observed: seq<real>)

  /** `run` after the remapping: the variable is created if needed and
      `bottomDepthObserved` is written from `bed_elevation`, limited outside
      the floodplain when the step asks for it. `h` is the cell size in km,
      which the step derives from `areaCell`. */
  function Run(step: RemapStep, variables: seq<string>, bed: seq<real>, h: seq<real>, option: Option<real>)
    : (r: Result<RunOutput>)
    ensures r.Ok? <==> !step.limitBathy || |bed| == |h|
    ensures r.Ok? ==> r.value.variables == EnsureObserved(variables)
    ensures r.Ok? && !step.limitBathy ==> r.value.observed == bed
    ensures r.Ok? && step.limitBathy ==>
      r.value.observed == LimitBathymetry(bed, h, FloodplainResolution(option)).value
  {
    var vars := EnsureObserved(variables);
    if !step.limitBathy then Ok(RunOutput(vars, bed))
    else
      match LimitBathymetry(bed, h, FloodplainResolution(option))
      case Err(e) => Err(e)
      case Ok(limited) => Ok(RunOutput(vars, limited))
  }

  /** Without the limit, the written values are the bed elevation, whatever
      the cell sizes and the config say. */
  lemma NoLimitWritesBed(step: RemapStep, variables: seq<string>, bed: seq<real>, h: seq<real>, option: Option<real>)
    requires !step.limitBathy
    ensures Run(step, variables, bed, h, option) == Run(step, variables, bed, [], None)
    ensures Run(step, variables, bed, h, option).Ok? && Run(step, variables, bed, h, option).value.observed == bed
  {
  }

  /** With the limit, cells smaller than the configured floodplain
      resolution keep their bed elevation and all others end at most -0.1;
      a config without the option keeps every cell below 10^10 km. */
  lemma FloodplainCellsKept(step: RemapStep, variables: seq<string>, bed: seq<real>, h: seq<real>, option: Option<real>)
    requires step.limitBathy && |bed| == |h|
    ensures var r := Run(step, variables, bed, h, option);
      var limit := if option.Some? then option.value else 10000000000.0;
      && r.Ok? && |r.value.observed| == |bed|
      && (forall i :: 0 <= i < |bed| && h[i] < limit ==> r.value.observed[i] == bed[i])
      && (forall i :: 0 <= i < |bed| && !(h[i] < limit) ==> r.value.observed[i] <= -0.1)
  {
  }
}
